=== FILE: README.md ===
# qupido pipeline kernel, modelled in Dafny

qupido builds dataflow pipelines out of nodes. Every node declares the data it
reads (its inputs) and the data it writes (its outputs), by name. It also
carries a function from a store to a store. A *store* (`Container`) is a
string-keyed map.

A port spec (`NodeSources`) is either a plain list of names or a map from
local names, the ones the node's function sees, to external names, the ones
in the shared store.

`Pipeline::from_nodes` does three things:

- It rejects an external output name that is declared twice (`DuplicateData`).
- It adds an edge from producer to consumer for every name one node writes
  and another reads.
- It sorts the nodes topologically. A cycle gives `InvalidPipeline`.

`run` threads a store through the sorted nodes. For each node it:

- copies every mapped input from its external name to its local name;
- calls the node's function;
- moves every declared output from the function's result back into the
  store, under its external name.

`inputs`, `outputs` and `all_outputs` report these names of a pipeline:

- the free inputs, which no node produces;
- the terminal outputs, which no node consumes;
- every declared output.

`add` concatenates the nodes of two pipelines and builds again.
`with_namespace(ns)` renames every external name `n` to `ns.n` and builds
again.

The first, stricter constructor, in `src/lib.rs`, panics where the current
one returns errors. It also panics on an input that no node produces. It is
modelled as a separate validator.

## Project layout

| file | module | contents |
|---|---|---|
| wrappers.dfy | `Wrappers` | `Option`, `Result` (usable with `:-`), the error enumeration `QupidoError` |
| names.dfy | `Names` | the name type `Source`, namespacing `ns.n`, lexicographic order, `Sort` (the `Vec::sort` of the queries), `PushNew` |
| container.dfy | `GenericContainer` | the generic store `Container<T>` |
| erased_container.dfy | `ErasedContainer` | the type-erased store: every value is boxed with a type tag |
| source.dfy | `Sources` | `NodeSources`, its `inputs`/`outputs`/`map`, the `From` conversions |
| node.dfy | `Nodes` | `Node`, the id supply, `Node::new`, `tag` |
| toposort.dfy | `TopoSort` | Kahn's algorithm standing in for the graph library's `toposort` |
| pipeline.dfy | `Pipelines` | `from_nodes`, `run`, `inputs`, `outputs`, `all_outputs`, `add`, `with_namespace` |
| build_facts.dfy | `BuildFacts` | what building promises: duplicates, edges, order, cycles |
| query_facts.dfy | `QueryFacts` | the surface queries, characterised without the graph |
| run_facts.dfy | `RunFacts` | what running promises: remapping, collecting outputs, errors, final values |
| compose_facts.dfy | `ComposeFacts` | `add` and `with_namespace`, including running a namespaced pipeline |
| legacy.dfy | `Legacy` | the strict constructor of `src/lib.rs` |
| scenarios.dfy | `Scenarios` | the diamond wiring of `src/lib.rs` and the list-port and map-port adder pipelines of `test_namespaces` |
| topo_scenario.dfy | `TopoScenario` | the three-node chain of `test_nodes_topo`, its queries, its run, and the printer added to it |

### How the Rust types are modelled

- **`HashMap` in a `NodeSources::Map`.** It is an association list of
  `Binding(local, external)` pairs with unique local names. Its order stands
  for the hash map's iteration order. The source leaves that order
  unspecified. Lemmas about a port as given quantify over all lists. A port
  renamed by `map` is a fresh hash map, and the model gives it the old
  port's binding order (see "## Left out").
- **Graph.** It is a `Graph(weights, edges)`. Vertex `i` carries the id of
  the `i`-th node given to `from_nodes`. An `Edge(src, dst, name)` is named
  by the datum it carries.
  - Building an edge finds a node's vertex the way the id-to-vertex map
    does: the last vertex with that id.
  - The queries find it the way `position` does: the first vertex with
    that id.
  - The two agree when ids are distinct (`DistinctIds`). `Node::new`
    guarantees distinct ids (`Nodes.NewIsFresh`).
- **Node function.** It is a total function
  `Container<T> -> Result<Container<T>>`: it either returns a store or
  fails with any error.

## Model

| member | source | states |
|---|---|---|
| GenericContainer.New | qupido/src/container.rs:23-27 | The new store holds no key. |
| GenericContainer.Upsert | qupido/src/container.rs:40-43 | Upsert always succeeds. The key then maps to the value, no other key is added, and every other key keeps its value. |
| GenericContainer.Insert | qupido/src/container.rs:29-38 | On a present key, insert fails with `DuplicateData(key)` and stores nothing. On an absent key it succeeds, adds exactly that key with the value, and keeps every existing entry. |
| GenericContainer.Get | qupido/src/container.rs:45-49 | On an absent key, get fails with `DataNotFound(key)`. On a present key it returns the stored value. |
| GenericContainer.InsertThenGet | qupido/src/container.rs:29-49 | Inserting under an absent key and then getting that key returns the inserted value. |
| GenericContainer.InsertDuplicateFails | qupido/src/container.rs:31-33 | Inserting under a present key fails with `DuplicateData`, and get still returns the old value. |
| GenericContainer.UpsertThenGet | qupido/src/container.rs:40-49 | After an upsert, get returns the new value at that key and what it returned before at every other key. |
| ErasedContainer.New | src/container.rs:23-27 | The new type-erased store holds no key. |
| ErasedContainer.Upsert | src/container.rs:41-45 | Upsert stores the value with its type tag and replaces whatever was stored, whatever its type. Other keys are unchanged. |
| ErasedContainer.Insert | src/container.rs:29-39 | On a present key, insert fails with `DuplicateData(key)`. Otherwise it adds exactly that key, boxed with its type, and keeps everything else. |
| ErasedContainer.Get | src/container.rs:47-58 | On an absent key, get fails with `DataNotFound(key)`. On a present key it succeeds exactly when the stored type equals the requested type, and returns the payload. Otherwise it fails with `DataTypeMismatch` carrying the key, the requested type and the stored type. |
| ErasedContainer.InsertThenGet | src/container.rs:29-58 | After an insert, get at the inserted type returns the value. Get at any other type fails with a mismatch naming both types. |
| ErasedContainer.UpsertRetypes | src/container.rs:41-58 | An upsert may change the type stored under a key. Get at the new type then succeeds. |
| Names.SourceEquality | src/lib.rs:16-19 | Two names are equal exactly when their strings are equal. |
| Names.NamespacedInjective | src/pipeline.rs:160-163 | Prefixing with the same namespace never merges two different names. |
| Names.SortIsOnlySortedPermutation | src/pipeline.rs:114 | Every sorted permutation of a list equals `Sort` of it, so the model's sort agrees with any correct sort. |
| Names.SortPrefix | src/pipeline.rs:160-163 | Sorting commutes with prefixing every name by the same namespace. |
| Names.PushNew | src/pipeline.rs:140-146 | Pushing the names that are not yet present keeps what was there as a prefix. It yields a list without repeats holding exactly the names of both. |
| Sources.Inputs | src/source.rs:13-18 | The inputs of `List(l)` are `l` itself, in order. The inputs of `Map(m)` are the external names, one per binding. |
| Sources.Outputs | src/source.rs:20-25 | The outputs of `List(l)` are `l` itself, in order. The outputs of `Map(m)` are the external names, one per binding. |
| Sources.PutLookup | src/source.rs:66-69 | After a put, looking up that local name gives the new external name. Every other local name looks up as before. |
| Sources.MapNamesList | src/source.rs:31-39 | `map(f)` of `List(l)` binds a local name `n` exactly when `n` is in `l`, and binds it to `f(n)`. |
| Sources.MapNamesMap | src/source.rs:40-47 | `map(f)` of `Map(m)` binds exactly the local names `m` binds. Each is bound to `f` of its old external name. |
| Sources.MapNames | src/source.rs:27-49 | Renaming gives a `Map` port whose local names are unique, as the keys of a fresh `HashMap` are. |
| Sources.MapNamesExternals | src/source.rs:27-49 | On any port, a list with repeats included, a name is an external name of the renamed port exactly when it is `f` of an external name of the original, whatever order the renamed map has. |
| Sources.MapNamesInOrder | src/source.rs:27-49 | On a list without repeats or a map with unique local names, binding by binding `map(f)` keeps the local names and replaces each external name by `f` of it. |
| Sources.FromNames | src/source.rs:52-62 | A list or array of names converts to a `List` whose inputs and outputs are those names, in order. |
| Sources.FromUnit | src/source.rs:80-84 | `()` converts to the empty `List`. |
| Sources.FromPairs | src/source.rs:64-78 | Pairs convert to a `Map` whose local names are unique. |
| Sources.FromPairsLastWins | src/source.rs:64-78 | The converted map binds a local name exactly when some pair has it. Each local name is bound to the external name of its last pair. |
| Nodes.New | src/node.rs:21-32 | `Node::new` stores the given ports and function, with no tags and no namespace. It takes a fresh id from the supply and advances the supply past it. |
| Nodes.NewIsFresh | src/node.rs:25 | A new node's id differs from every id minted before, so a collection with distinct ids keeps them distinct when it is added. |
| Nodes.Tag | src/node.rs:34-38 | `tag(t)` appends exactly `t` to the tags. Id, ports, function and namespace are unchanged. |
| Pipelines.Register | src/pipeline.rs:24-31 | Registering producers yields a map keyed by exactly the declared output names. When it fails, the `DuplicateData` error names one of them. |
| Pipelines.EdgesInto | src/pipeline.rs:35-39 | Every edge added for a consumer ends at the consumer. It carries one of the consumer's inputs that has a producer, and starts at that producer's vertex. |
| Pipelines.Wire | src/pipeline.rs:18-41 | When wiring succeeds, vertex `i` carries the id of node `i` and every edge joins two vertices. |
| Pipelines.FromNodes | src/pipeline.rs:17-51 | A built pipeline is well formed and has as many nodes as were given, with one vertex per given node. Building fails only with `InvalidPipeline` or `DuplicateData`. |
| Pipelines.Remap | src/pipeline.rs:60-72 | Remapping adds exactly the local names to the view. It fails only with `DataNotFound` of an external name that is missing from the view. |
| Pipelines.Collect | src/pipeline.rs:78-91 | Collecting adds exactly the external output names to the store and leaves every other key as it was. It fails only with `DataNotFound` of a local output name. |
| Pipelines.Step | src/pipeline.rs:57-92 | A successful node step adds exactly the node's external outputs to the store. Every other key keeps its value. |
| Pipelines.Run | src/pipeline.rs:53-96 | A successful run keeps every seed key and adds exactly the declared external outputs. A seed key that no node outputs keeps its seed value. |
| Pipelines.FirstVertexOf | src/pipeline.rs:102 | The vertex found for an id is the first vertex carrying it. |
| Pipelines.Unfed | src/pipeline.rs:105-111 | A node's unfed inputs are exactly those of its inputs without an incoming edge of that name. |
| Pipelines.Unconsumed | src/pipeline.rs:125-131 | A node's unconsumed outputs are exactly those of its outputs without an outgoing edge of that name. |
| Pipelines.FreeInputs | src/pipeline.rs:98-116 | `inputs()` is sorted. It is a permutation of the unfed inputs collected node by node, so repeats are kept. |
| Pipelines.TerminalOutputs | src/pipeline.rs:118-136 | `outputs()` is sorted. It is a permutation of the unconsumed outputs collected node by node. |
| Pipelines.AllOutputs | src/pipeline.rs:138-150 | `all_outputs()` is sorted and has no repeats. It contains exactly the names some node declares as outputs. |
| Pipelines.Add | src/pipeline.rs:152-156 | Adding builds from the first pipeline's nodes followed by the second's; a result has as many nodes as both parts together. |
| Pipelines.NamespaceNode | src/pipeline.rs:159-174 | A namespaced node has renamed ports, the given new id, and the same tags and function. Its namespace becomes `ns`, or `ns.old` when it already had `old`. |
| Pipelines.NamespaceNodes | src/pipeline.rs:159-176 | Namespacing gives every node a new id. The ids are distinct from each other and drawn from the supply. |
| Pipelines.WithNamespace | src/pipeline.rs:158-179 | `with_namespace` advances the id supply by one id per node. A result has as many nodes as before and distinct vertex ids. How the namespaced pipeline runs is `ComposeFacts.NamespacedRuns`. |
| TopoSort.Toposort | src/pipeline.rs:43 | A successful sort is a permutation of the vertices in which every edge goes from an earlier vertex to a later one. |
| TopoSort.ToposortFailsOnlyWithoutOrder | src/pipeline.rs:43 | The sort fails exactly when no permutation of the vertices orders every edge forward. |
| TopoSort.CycleFailsToposort | src/pipeline.rs:43 | A graph with a cycle cannot be sorted. |
| TopoSort.ToposortKeepsForwardOrder | src/pipeline.rs:43-48 | When every edge already goes forward, the sort returns the vertices in their given order. |
| BuildFacts.RegisterSucceedsIff | src/pipeline.rs:24-31 | Registering producers succeeds exactly when no name is already registered and no name is produced twice. |
| BuildFacts.WireSucceedsIff | src/pipeline.rs:24-41 | Wiring succeeds exactly when the concatenated external outputs of all nodes have no repeat. |
| BuildFacts.DuplicateOutputFails | src/pipeline.rs:24-30 | Building fails with `DuplicateData` exactly when some external output is declared twice, counting twice in one node. The error names the repeated output. |
| BuildFacts.WireEdges | src/pipeline.rs:32-41 | With distinct node ids, there is an edge `a -> b` named `x` exactly when node `a` declares output `x` and node `b` declares input `x`. An input without a producer adds no edge. |
| BuildFacts.TopoOrderedIffProducersFirst | src/pipeline.rs:43-48 | With distinct node ids and a successful wiring, an order of the vertices sends every edge forward exactly when, rearranged by it, every producer precedes its consumers. |
| BuildFacts.BuildsIffOrderExists | src/pipeline.rs:43-50 | With distinct node ids and outputs declared once, building succeeds exactly when some arrangement of the nodes puts every producer before its consumers. Otherwise it fails with `InvalidPipeline`. |
| BuildFacts.BuildRearranges | src/pipeline.rs:45-48 | The stored nodes are the given nodes rearranged by a permutation. |
| BuildFacts.BuildPutsProducersFirst | src/pipeline.rs:43-50 | With distinct node ids, a built pipeline's nodes are a permutation of the given ones in which every producer precedes its consumers. |
| BuildFacts.CycleFails | src/pipeline.rs:32-43 | When outputs are declared once and nodes feed each other in a cycle, building fails with `InvalidPipeline`. A repeated output is reported first, as `DuplicateData`. |
| BuildFacts.SelfFeedingFails | src/pipeline.rs:35-43 | When outputs are declared once, a node that reads its own output makes building fail with `InvalidPipeline`. |
| QueryFacts.IncomingAtStoredNode | src/pipeline.rs:102-108 | With distinct node ids, a stored node has an incoming edge named `x` on one of its inputs exactly when some node of the pipeline outputs `x`. |
| QueryFacts.OutgoingAtStoredNode | src/pipeline.rs:122-128 | With distinct node ids, a stored node has an outgoing edge named `x` on one of its outputs exactly when some node of the pipeline reads `x`. |
| QueryFacts.FreeInputsAreUnproduced | src/pipeline.rs:98-116 | With distinct node ids, `inputs()` is the sorted list of the nodes' inputs that no node of the pipeline produces. |
| QueryFacts.TerminalOutputsAreUnconsumed | src/pipeline.rs:118-136 | With distinct node ids, `outputs()` is the sorted list of the nodes' outputs that no node of the pipeline reads. |
| QueryFacts.TerminalWithinAll | src/pipeline.rs:118-150 | Every terminal output is among all outputs. |
| RunFacts.RemapSucceedsIff | src/pipeline.rs:64-69 | Remapping inputs succeeds exactly when every external name is in the running store or is the local name of an earlier binding. |
| RunFacts.RemapCopies | src/pipeline.rs:65-67 | When local and external names are apart, every local name receives the value of its external name. |
| RunFacts.RemapReadsStartAt | src/pipeline.rs:63-69 | When local names are unique and no binding reads another binding's local name, each local name receives the value its external name has in the store the step starts from. |
| RunFacts.CollectSucceedsIff | src/pipeline.rs:78-91 | Collecting outputs succeeds exactly when the function's result holds every declared local name and no local name is declared twice, because each is removed once taken. |
| RunFacts.CollectValues | src/pipeline.rs:80-89 | With distinct external names, each external output ends up holding the value the function returned under its local name. |
| RunFacts.StepOutcome | src/pipeline.rs:57-92 | A node step has three outcomes. A missing mapped input fails with `DataNotFound` of that external name. A failing function's error is passed on unchanged. Otherwise the outputs are collected, which succeeds exactly when every declared local output is present and none repeats, and fails with `DataNotFound` of a local name. |
| RunFacts.StepWrites | src/pipeline.rs:78-91 | When the node's external outputs are distinct, after a successful step each declared output's external name holds the value the function returned under its local name. |
| RunFacts.RunAppend | src/pipeline.rs:57-93 | Running two node lists one after the other is running the first and then the second on its result. An error in the first stops the run. |
| RunFacts.RunStopsAtFirstError | src/pipeline.rs:57-96 | A failing run fails with the error of the first failing node, after every node before it succeeded. |
| RunFacts.RunKeepsEachOutput | src/pipeline.rs:78-95 | With outputs declared once, the final value of each declared output is the value its producer wrote. |
| ComposeFacts.DistinctOutputsIffApart | src/pipeline.rs:24-30 | Outputs have no repeat exactly when each node's outputs are distinct and no two nodes share an output. |
| ComposeFacts.BuildKeepsOrder | src/pipeline.rs:43-50 | Nodes that already put producers first, with distinct ids and outputs, are stored in the given order. |
| ComposeFacts.AddOutputs | src/pipeline.rs:152-156 | The combined pipeline's outputs are exactly the outputs of both parts. |
| ComposeFacts.AddSharedOutputFails | src/pipeline.rs:152-156 | Adding two pipelines that declare the same output fails with `DuplicateData`. |
| ComposeFacts.AddInOrder | src/pipeline.rs:152-156 | With distinct node ids, outputs declared once across both pipelines, each pipeline's nodes putting producers first, and the second pipeline never feeding the first, adding succeeds and runs the first pipeline's nodes before the second's. |
| ComposeFacts.RenamedPort | src/pipeline.rs:160-165 | For a list without repeats or a map with unique local names, a renamed port's external inputs and outputs are the old ones, each prefixed with the namespace, in order. |
| ComposeFacts.FeedsRenamed | src/pipeline.rs:160-165 | After renaming, one node feeds another the name `ns.x` exactly when it fed `x` before. This holds for any ports, including lists with repeats, and for any order of the renamed maps. |
| ComposeFacts.NamespacedBuildsInOrder | src/pipeline.rs:158-179 | With distinct node ids and list ports without repeats, namespacing a built pipeline always rebuilds successfully, with the renamed nodes in the same order. |
| ComposeFacts.NamespacedFreeInputs | src/pipeline.rs:158-179 | With distinct node ids and list ports without repeats, the namespaced pipeline's `inputs()` are the original ones, each prefixed. |
| ComposeFacts.NamespacedTerminalOutputs | src/pipeline.rs:158-179 | With distinct node ids and list ports without repeats, the namespaced pipeline's `outputs()` are the original ones, each prefixed. |
| ComposeFacts.NamespacedRuns | src/pipeline.rs:53-96 | With distinct node ids, when every node reads only its declared local inputs, no map binding reads another binding's local name, list ports have no repeats, no local input name already starts with `ns.`, and the store holds every `inputs()` name: running the namespaced pipeline on the store with every key prefixed by `ns.` gives the original run's result with every key prefixed, and the very same error when the original run fails. |
| ComposeFacts.NamespacedAllOutputs | src/pipeline.rs:158-179 | With distinct node ids and list ports without repeats, the namespaced pipeline's `all_outputs()` are exactly the prefixed original ones. |
| Legacy.StrictFromNodes | src/lib.rs:27-63 | A strict build has as many nodes as it was given; `Legacy.StrictBuildRearranges` states that they are the given ones. |
| Legacy.StrictBuildRearranges | src/lib.rs:55-58 | A strict build stores the given nodes rearranged by a permutation: each kept exactly once, none added. |
| Legacy.UnproducedMissing | src/lib.rs:42-49 | A name is reported unproduced exactly when some node reads it and no node declares it. |
| Legacy.StrictDuplicatePanics | src/lib.rs:34-41 | The strict constructor panics with "Duplicate output" exactly when some output is declared twice. |
| Legacy.StrictMissingSourcePanics | src/lib.rs:42-49 | With outputs declared once, it panics with "No source node found" exactly when some input has no producer. |
| Legacy.StrictMatchesCurrent | src/lib.rs:53-59 | Once both checks pass, the strict constructor builds exactly when the current one does, with the same nodes in the same order. Otherwise it panics with "Can't topologically sort". |
| Legacy.StrictBuildsIffOrderExists | src/lib.rs:53 | With distinct ids, outputs declared once and every input produced, it builds exactly when producers can be put first. Otherwise it panics with "Can't topologically sort". |
| Legacy.StrictBuildFeedsInOrder | src/lib.rs:55-59 | With distinct node ids, in a strict build every input of every node is produced by a node stored before it. |
| Scenarios.DiamondBuilds | src/lib.rs:74-113 | The six-node diamond wiring of the library's test builds, and every stored node is fed by earlier ones. |
| Scenarios.SingleBuilds | src/pipeline.rs:17-51 | A single node whose outputs are distinct and that reads none of them builds into a pipeline holding just that node. |
| Scenarios.NumCalcBuilds | src/pipeline.rs:268-281 | The `x + y` adder node builds into a one-node pipeline. |
| Scenarios.NumCalcQueries | src/pipeline.rs:271-280 | The adder's inputs are `[x, y]` and its outputs are `[x+y]`. |
| Scenarios.NumCalcRuns | src/pipeline.rs:298-304 | Running the adder on `x = -3`, `y = 12` succeeds with `x+y = 9`. |
| Scenarios.NumCalcNamespaces | src/pipeline.rs:306 | Namespacing the adder as `calc` succeeds with the renamed node. |
| Scenarios.NumCalcNamespacedQueries | src/pipeline.rs:306-310 | The namespaced adder's inputs are `[calc.x, calc.y]` and its outputs are `[calc.x+y]`. |
| Scenarios.NumCalcNamespacedRuns | src/pipeline.rs:312-316 | Running the namespaced adder on `calc.x = 5`, `calc.y = 10` succeeds with `calc.x+y = 15`. |
| Scenarios.MapAdderStep | src/pipeline.rs:286-293 | The map-port adder's step, on any store holding its two external inputs, stores their sum under its external output, for any external names provided the second one is not `my_x`. |
| Scenarios.MapAdderBuilds | src/pipeline.rs:286-295 | A map-port adder whose output differs from both inputs builds into a one-node pipeline, and its ports keep every entry when renamed. |
| Scenarios.NumCalcMapBuilds | src/pipeline.rs:283-296 | The `num_calc_map` node builds into a one-node pipeline. |
| Scenarios.NumCalcMapRuns | src/pipeline.rs:319-325 | Running the map-port adder on `x = -5`, `y = 6` succeeds with `x+y = 1`. |
| Scenarios.NumCalcMapNamespacedPorts | src/pipeline.rs:327 | Inside `foo` the map-port adder keeps its local names and reads `foo.x`, `foo.y`, writing `foo.x+y`. |
| Scenarios.NumCalcMapNamespaces | src/pipeline.rs:327 | Namespacing the map-port adder as `foo` succeeds with the renamed node. |
| Scenarios.NumCalcMapNamespacedRuns | src/pipeline.rs:329-334 | Running the namespaced map-port adder on `foo.x = -5`, `foo.y = 6` succeeds with `foo.x+y = 1`. |
| TopoScenario.MathNodesShape | src/pipeline.rs:196-223 | The test's three nodes have the declared ports and functions, the tags `math, plus, multiply`, `math` and `math` in that order, and pairwise distinct ids, each drawn from the supply before the next. |
| TopoScenario.PrinterShape | src/pipeline.rs:250-253 | The printing node made after the chain has an id none of the chain's nodes has. |
| TopoScenario.ChainProducersFirst | src/pipeline.rs:196-223 | In the chain, each node is read only by nodes after it. |
| TopoScenario.ChainBuilds | src/pipeline.rs:226 | The chain builds, and the sort leaves its nodes in the order given. |
| TopoScenario.ChainUnproduced | src/pipeline.rs:196-223 | Of the chain's inputs, exactly `a` and `b` are produced by no node. |
| TopoScenario.ChainUnconsumed | src/pipeline.rs:196-223 | Of the chain's outputs, exactly `a_times_b` and `squared_plus_1` are read by no node. |
| TopoScenario.ChainQueries | src/pipeline.rs:237-239 | `inputs()` is `[a, b]`, `outputs()` is `[a_times_b, squared_plus_1]` and `all_outputs()` is the four outputs in sorted order. |
| TopoScenario.PlusTimesStep | src/pipeline.rs:196-209 | The first node's step, on any store holding `a` and `b`, stores their sum under `a_plus_b` and their product under `a_times_b`. |
| TopoScenario.SquareStep | src/pipeline.rs:211-216 | The second node's step stores the square of `a_plus_b` under `squared` and changes nothing else. |
| TopoScenario.PlusOneStep | src/pipeline.rs:218-223 | The third node's step stores `squared` plus one under `squared_plus_1` and changes nothing else. |
| TopoScenario.ShowStep | src/pipeline.rs:250-253 | The printer's step leaves a store holding `squared_plus_1` unchanged, and fails with `DataNotFound("squared_plus_1")` on a store without it. |
| TopoScenario.ChainRunsOn | src/pipeline.rs:241 | The chain, run on any store holding `a` and `b`, succeeds with their sum under `a_plus_b` and one more than `squared` under `squared_plus_1`. |
| TopoScenario.ChainRunProducts | src/pipeline.rs:241 | In that run, `a_times_b` is the product of `a` and `b`, and `squared` is the square of `a_plus_b`. |
| TopoScenario.ChainRuns | src/pipeline.rs:229-245 | Running the built chain on `a = 3`, `b = 5` succeeds with `a_plus_b = 8`. |
| TopoScenario.PrinterBuilds | src/pipeline.rs:249-254 | The printer builds into a one-node pipeline on its own. |
| TopoScenario.FullAdds | src/pipeline.rs:256 | Adding the printer's pipeline to the chain succeeds, with the printer last. |
| TopoScenario.PrinterChangesNothing | src/pipeline.rs:250-253 | Appending the printer to nodes whose run stores `squared_plus_1` leaves the run's result unchanged. |
| TopoScenario.FullRuns | src/pipeline.rs:258 | The combined pipeline, run on `a = 3`, `b = 5`, succeeds with exactly the chain's result. |

### Repeats in `inputs()` and `outputs()`

`inputs()` and `outputs()` sort their lists but keep repeats
(`src/pipeline.rs:114`, `:134`): an input read by two nodes and produced by
neither appears twice. `Pipelines.FreeInputs` and
`Pipelines.TerminalOutputs` are therefore sorted permutations with repeats
kept. Only `all_outputs()` removes repeats (`src/pipeline.rs:142`).

## Left out

- Input and output: `println!`, `Debug` formatting, and the DataFusion and
  Delta Lake test pipelines under `qupido_data/tests`, which depend on
  external libraries.
- The graph library's `toposort` is replaced by Kahn's algorithm, which
  always takes the first ready vertex in index order. The properties that
  hold of every topological sort (a permutation, producers first, failure
  exactly on a cycle) are proved for it.
  `TopoSort.ToposortKeepsForwardOrder`, `ComposeFacts.BuildKeepsOrder`,
  `ComposeFacts.AddInOrder` and `ComposeFacts.NamespacedBuildsInOrder` state
  which of the valid orders is chosen. That choice is this model's, not the
  library's.
- UUIDs become natural numbers drawn from a counter (`Mint`). Freshness is
  the only property used.
- `Arc`, `Box`, `Any` and `TypeId` are not modelled. The type-erased store
  keeps a numeric type tag next to each value.
- Integer width: store values are unbounded integers, so the `u32` and
  `i64` overflow of the test functions is not modelled. The replayed values
  are far from the bounds.
- Hash-map iteration order: a `Map` port is a list of bindings in some
  fixed order. The lemmas about remapping and collecting a port as given
  hold for every order. A renamed port is the exception: it keeps the old
  binding order, which `map` into a fresh hash map does not promise.
- Sources.MapNamesInOrder: states the renamed bindings in the old binding
  order. The source builds a fresh `HashMap` (`src/source.rs:33`, `:42`)
  whose iteration order is left open; the model fixes it to the old one.
- ComposeFacts.RenamedPort: holds for a list without repeats or a map with
  unique local names. A list with a repeat, such as `[x, x]`, renames to the
  single binding `x -> ns.x`, so the renamed names are `[ns.x]` and not the
  prefixed list. "In order" also rests on the same choice of the renamed
  map's iteration order. `Sources.MapNamesExternals` states the part that
  holds for every port and every order: which names the renamed port has.
- Scenarios.MapAdderStep: assumes the second external name is not `my_x`.
  With `y` bound from `my_x`, the remap reads either the original `my_x` or
  the value just copied into it, depending on the hash map's iteration
  order.
- QueryFacts.FreeInputsAreUnproduced: assumes distinct node ids. The surface
  queries find a node's vertex by its first position and the builder by its
  last, so with a repeated id the two can disagree. A repeated id arises from
  cloning a node or building one with an existing id.
- QueryFacts.TerminalOutputsAreUnconsumed: assumes distinct node ids, for the
  same reason.
- BuildFacts.WireEdges: assumes distinct node ids, for the same reason.
- BuildFacts.BuildsIffOrderExists: assumes distinct node ids, for the same
  reason.
- BuildFacts.BuildPutsProducersFirst: assumes distinct node ids, for the same
  reason.
- BuildFacts.TopoOrderedIffProducersFirst: assumes distinct node ids, for the
  same reason.
- QueryFacts.IncomingAtStoredNode: assumes distinct node ids, for the same
  reason.
- QueryFacts.OutgoingAtStoredNode: assumes distinct node ids, for the same
  reason.
- Legacy.StrictBuildFeedsInOrder: assumes distinct node ids, for the same
  reason.
- Legacy.StrictBuildsIffOrderExists: assumes distinct node ids, for the same
  reason. With a repeated id, such as two nodes sharing id 5 where one feeds
  the other, the edge runs from the last vertex with that id to itself, so
  the strict builder panics although producers can be put first.
- ComposeFacts.BuildKeepsOrder: assumes distinct node ids, for the same
  reason.
- ComposeFacts.AddInOrder: assumes distinct node ids across both pipelines,
  for the same reason; adding a pipeline to itself repeats every id.
- ComposeFacts.NamespacedFreeInputs: assumes distinct node ids and list
  ports without repeats. The source turns a list into a hash map keyed by
  name, so a repeated list entry collapses into one binding.
- ComposeFacts.NamespacedTerminalOutputs: assumes distinct node ids and list ports
  without repeats, for the same reasons.
- ComposeFacts.NamespacedAllOutputs: assumes distinct node ids and list ports
  without repeats, for the same reasons.
- ComposeFacts.NamespacedBuildsInOrder: assumes distinct node ids and list ports
  without repeats, for the same reasons.
- RunFacts.RemapCopies: assumes that no local input name equals any
  external name of the same node, its own included, and that local names
  are unique. Otherwise a copy can overwrite a value another binding still
  reads, in an order the hash map leaves unspecified.
  `RunFacts.RemapReadsStartAt` relaxes this to excluding only cross reads
  between different bindings.
- ComposeFacts.NamespacedRuns: "the very same error" assumes that the
  renamed map iterates in the old binding order. With another order, a node
  missing two outputs can fail on the other one first: the original run
  reports `DataNotFound("p")`, the namespaced one may report
  `DataNotFound("q")`. Whether the run fails, and the prefixed result on
  success, do not depend on that order, but only the ordered statement is
  proved.
- ComposeFacts.NamespacedRuns: holds only under its conditions. A node's
  function is arbitrary, so one that reads a name it did not declare sees a
  different store once namespaced. A list port becomes a map port, so a free
  input missing from the store fails as `DataNotFound("ns.x")` instead of
  inside the function. A map binding whose external name is another
  binding's local name reads the value just copied in the original, but the
  prefixed value in the namespaced node. A local input name already starting
  with `ns.` can collide with a prefixed external name. Distinct ids and
  list ports without repeats are needed for the reasons above.
- `NodeNotFound` is never returned by `from_nodes`: every node's id and
  every registered producer has a vertex. The strict constructor's
  "Dest node not found" and "Source node not found" panics are unreachable
  for the same reason.
- The strict constructor's nodes carry no function. They are read as list
  port nodes whose function returns its input.

=== FILE: build_facts.dfy ===
/** What `Pipeline::from_nodes` guarantees: the duplicate-output check, the
    producer-to-consumer wiring, the cycle check, and the order of the
    nodes it returns. */
module BuildFacts {
  import opened Wrappers
  import opened Names
  import opened Sources
  import opened Nodes
  import opened TopoSort
  import opened Pipelines

  // -----------------------------------------------------------------------
  // Duplicate outputs.
  // -----------------------------------------------------------------------

  /** Registration succeeds exactly when no name was mapped already and no
      name repeats. */
  lemma {:induction false} RegisterSucceedsIff(acc: map<Source, NodeId>, ps: seq<Production>)
    ensures Register(acc, ps).Success? <==>
      && (forall i :: 0 <= i < |ps| ==> ps[i].name !in acc)
      && (forall i, j :: 0 <= i < j < |ps| ==> ps[i].name != ps[j].name)
    decreases |ps|
  {
    if ps != [] && ps[0].name !in acc {
      var acc' := acc[ps[0].name := ps[0].node];
      var tail := ps[1..];
      RegisterSucceedsIff(acc', tail);
      assert forall i :: 1 <= i < |ps| ==> ps[i] == tail[i - 1];
      if Register(acc, ps).Success? {
        forall i, j | 0 <= i < j < |ps| ensures ps[i].name != ps[j].name {
          if i > 0 { assert ps[i] == tail[i - 1] && ps[j] == tail[j - 1]; }
          else { assert ps[j] == tail[j - 1]; }
        }
      }
    }
  }

  /** A failed registration names an entry whose name was mapped already or
      appeared earlier in the run. */
  lemma {:induction false} RegisterReportsRepeat(acc: map<Source, NodeId>, ps: seq<Production>) returns (j: nat)
    requires Register(acc, ps).Failure?
    ensures j < |ps| && Register(acc, ps).error == DuplicateData(ps[j].name.id)
    ensures ps[j].name in acc || exists i :: 0 <= i < j && ps[i].name == ps[j].name
    decreases |ps|
  {
    if ps[0].name in acc {
      j := 0;
    } else {
      var acc' := acc[ps[0].name := ps[0].node];
      var tail := ps[1..];
      var j' := RegisterReportsRepeat(acc', tail);
      j := j' + 1;
      assert ps[j] == tail[j'];
      if tail[j'].name == ps[0].name {
        assert ps[0].name == ps[j].name;
      } else if tail[j'].name !in acc {
        var i :| 0 <= i < j' && tail[i].name == tail[j'].name;
        assert ps[i + 1] == tail[i];
      }
    }
  }

  /** The producer map, and with it the wiring, exists exactly when no
      external output name is declared twice. */
  lemma WireSucceedsIff<T>(nodes: seq<Node<T>>)
    ensures Producers(nodes).Success? <==> Distinct(OutputNames(nodes))
    ensures Wire(nodes).Success? <==> Distinct(OutputNames(nodes))
  {
    var ps := Productions(nodes);
    RegisterSucceedsIff(map[], ps);
    if Register(map[], ps).Success? {
      forall i, j | 0 <= i < j < |OutputNames(nodes)| ensures OutputNames(nodes)[i] != OutputNames(nodes)[j] {
        assert ps[i].name != ps[j].name;
      }
    } else {
      var i, j :| 0 <= i < j < |ps| && ps[i].name == ps[j].name;
      assert OutputNames(nodes)[i] == OutputNames(nodes)[j];
    }
  }

  /** `from_nodes` fails with `DuplicateData` exactly when some external
      output name is declared twice, by two nodes or by one; the name it
      reports is such a name. */
  lemma DuplicateOutputFails<T>(nodes: seq<Node<T>>)
    ensures FromNodes(nodes).Failure? && FromNodes(nodes).error.DuplicateData? <==> !Distinct(OutputNames(nodes))
    ensures FromNodes(nodes).Failure? && FromNodes(nodes).error.DuplicateData? ==>
      exists i, j :: 0 <= i < j < |OutputNames(nodes)| && OutputNames(nodes)[i] == OutputNames(nodes)[j]
                     && FromNodes(nodes).error.key == OutputNames(nodes)[j].id
  {
    WireSucceedsIff(nodes);
    var ps := Productions(nodes);
    if Register(map[], ps).Failure? {
      var j := RegisterReportsRepeat(map[], ps);
      var i :| 0 <= i < j && ps[i].name == ps[j].name;
      assert OutputNames(nodes)[i] == OutputNames(nodes)[j];
    }
  }

  // -----------------------------------------------------------------------
  // The wiring.
  // -----------------------------------------------------------------------

  /** Every declared output appears among the productions, with its node. */
  lemma {:induction false} ProductionsCover<T>(nodes: seq<Node<T>>, j: nat, x: Source) returns (i: nat)
    requires j < |nodes| && x in Outputs(nodes[j].outputs)
    ensures i < |Productions(nodes)| && Productions(nodes)[i] == Production(x, nodes[j].id)
    decreases |nodes|
  {
    var outs := Outputs(nodes[0].outputs);
    if j == 0 {
      var k :| 0 <= k < |outs| && outs[k] == x;
      i := k;
    } else {
      assert nodes[1..][j - 1] == nodes[j];
      var i' := ProductionsCover(nodes[1..], j - 1, x);
      i := |outs| + i';
    }
  }

  /** With distinct ids, a node's id leads back to the node's own position,
      whichever end the lookup starts from. */
  lemma VertexOfDistinct<T>(nodes: seq<Node<T>>, j: nat)
    requires DistinctIds(nodes) && j < |nodes|
    ensures nodes[j].id in Ids(nodes)
    ensures LastVertexOf(Ids(nodes), nodes[j].id) == j
    ensures FirstVertexOf(Ids(nodes), nodes[j].id) == j
  {
    var ids := Ids(nodes);
    assert ids[j] == nodes[j].id;
  }

  /** The producer map of a successful registration holds, for every
      declared output, the id of the node declaring it. */
  lemma ProducerOf<T>(nodes: seq<Node<T>>, j: nat, x: Source)
    requires Producers(nodes).Success?
    requires j < |nodes| && x in Outputs(nodes[j].outputs)
    ensures x in Producers(nodes).value && Producers(nodes).value[x] == nodes[j].id
  {
    var i := ProductionsCover(nodes, j, x);
    RegisterMaps(map[], Productions(nodes));
  }

  /** An edge of `EdgesFrom` comes from some consumer at `c` or later. */
  lemma {:induction false} EdgesFromSound<T>(nodes: seq<Node<T>>, producers: map<Source, NodeId>, c: nat, e: Edge)
    returns (d: nat)
    requires forall x :: x in producers ==> producers[x] in Ids(nodes)
    requires c <= |nodes| && e in EdgesFrom(nodes, producers, c)
    ensures c <= d < |nodes| && nodes[d].id in Ids(nodes)
    ensures e in EdgesInto(Ids(nodes), producers, LastVertexOf(Ids(nodes), nodes[d].id), Inputs(nodes[d].inputs))
    decreases |nodes| - c
  {
    var weights := Ids(nodes);
    assert weights[c] == nodes[c].id;
    var here := EdgesInto(weights, producers, LastVertexOf(weights, nodes[c].id), Inputs(nodes[c].inputs));
    var rest := EdgesFrom(nodes, producers, c + 1);
    assert EdgesFrom(nodes, producers, c) == here + rest;
    if e in here {
      d := c;
    } else {
      d := EdgesFromSound(nodes, producers, c + 1, e);
    }
  }

  /** Each input with a producer gets an edge into the consumer. */
  lemma {:induction false} EdgesIntoComplete(weights: seq<NodeId>, producers: map<Source, NodeId>, dst: nat, ins: seq<Source>, x: Source)
    requires forall y :: y in producers ==> producers[y] in weights
    requires x in ins && x in producers
    ensures Edge(LastVertexOf(weights, producers[x]), dst, x) in EdgesInto(weights, producers, dst, ins)
    decreases |ins|
  {
    if ins[0] != x {
      EdgesIntoComplete(weights, producers, dst, ins[1..], x);
    }
  }

  /** Every consumed input that has a producer gets its edge. */
  lemma {:induction false} EdgesFromComplete<T>(nodes: seq<Node<T>>, producers: map<Source, NodeId>, c: nat, d: nat, x: Source)
    requires forall y :: y in producers ==> producers[y] in Ids(nodes)
    requires c <= d < |nodes| && x in Inputs(nodes[d].inputs) && x in producers
    ensures nodes[d].id in Ids(nodes)
    ensures Edge(LastVertexOf(Ids(nodes), producers[x]), LastVertexOf(Ids(nodes), nodes[d].id), x) in EdgesFrom(nodes, producers, c)
    decreases d - c
  {
    var ids := Ids(nodes);
    assert ids[c] == nodes[c].id && ids[d] == nodes[d].id;
    var e := Edge(LastVertexOf(ids, producers[x]), LastVertexOf(ids, nodes[d].id), x);
    var head := EdgesInto(ids, producers, LastVertexOf(ids, nodes[c].id), Inputs(nodes[c].inputs));
    var rest := EdgesFrom(nodes, producers, c + 1);
    assert EdgesFrom(nodes, producers, c) == head + rest;
    if c < d {
      EdgesFromComplete(nodes, producers, c + 1, d, x);
      assert e in rest;
    } else {
      EdgesIntoComplete(ids, producers, LastVertexOf(ids, nodes[d].id), Inputs(nodes[d].inputs), x);
      assert e in head;
    }
  }

  /** With distinct ids, the edges are exactly the (producer, consumer, name)
      triples: `a` declares output `x` and `b` declares input `x`. Inputs
      nobody produces get no edge. */
  lemma WireEdges<T>(nodes: seq<Node<T>>, a: nat, b: nat, x: Source)
    requires Wire(nodes).Success?
    requires DistinctIds(nodes)
    ensures Edge(a, b, x) in Wire(nodes).value.edges <==>
      a < |nodes| && b < |nodes| && x in Outputs(nodes[a].outputs) && x in Inputs(nodes[b].inputs)
  {
    if Edge(a, b, x) in Wire(nodes).value.edges {
      WireEdgeSound(nodes, a, b, x);
    }
    if a < |nodes| && b < |nodes| && x in Outputs(nodes[a].outputs) && x in Inputs(nodes[b].inputs) {
      WireEdgeComplete(nodes, a, b, x);
    }
  }

  /** Each edge of the wiring runs from a producer of its datum to a
      consumer of it. */
  lemma WireEdgeSound<T>(nodes: seq<Node<T>>, a: nat, b: nat, x: Source)
    requires Wire(nodes).Success? && DistinctIds(nodes)
    requires Edge(a, b, x) in Wire(nodes).value.edges
    ensures a < |nodes| && b < |nodes| && x in Outputs(nodes[a].outputs) && x in Inputs(nodes[b].inputs)
  {
    var producers := Producers(nodes).value;
    assert Wire(nodes).value.edges == EdgesFrom(nodes, producers, 0);
    var d := EdgesFromSound(nodes, producers, 0, Edge(a, b, x));
    VertexOfDistinct(nodes, d);
    var into := EdgesInto(Ids(nodes), producers, d, Inputs(nodes[d].inputs));
    var k' :| 0 <= k' < |into| && into[k'] == Edge(a, b, x);
    var ps := Productions(nodes);
    var i :| 0 <= i < |ps| && ps[i].name == x;
    RegisterMaps(map[], ps);
    ProductionsFromNodes(nodes, i);
    var j :| 0 <= j < |nodes| && ps[i].node == nodes[j].id && ps[i].name in Outputs(nodes[j].outputs);
    VertexOfDistinct(nodes, j);
  }

  /** Every datum a node produces and another consumes gives an edge. */
  lemma WireEdgeComplete<T>(nodes: seq<Node<T>>, a: nat, b: nat, x: Source)
    requires Wire(nodes).Success? && DistinctIds(nodes)
    requires a < |nodes| && b < |nodes| && x in Outputs(nodes[a].outputs) && x in Inputs(nodes[b].inputs)
    ensures Edge(a, b, x) in Wire(nodes).value.edges
  {
    var producers := Producers(nodes).value;
    assert Wire(nodes).value.edges == EdgesFrom(nodes, producers, 0);
    ProducerOf(nodes, a, x);
    EdgesFromComplete(nodes, producers, 0, b, x);
    VertexOfDistinct(nodes, a);
    VertexOfDistinct(nodes, b);
  }

  // -----------------------------------------------------------------------
  // Order and cycles.
  // -----------------------------------------------------------------------

  /** With distinct ids and a successful wiring, a permutation of the
      vertices is topological exactly when it lists the nodes producers
      first. */
  lemma TopoOrderedIffProducersFirst<T>(nodes: seq<Node<T>>, order: seq<nat>)
    requires Wire(nodes).Success? && DistinctIds(nodes)
    requires IsPermutation(order, |nodes|)
    ensures forall k :: 0 <= k < |order| ==> order[k] < |nodes|
    ensures TopoOrdered(order, Wire(nodes).value.edges) <==> ProducersFirst(Reorder(nodes, order))
  {
    assert forall k :: 0 <= k < |order| ==> order[k] in order;
    if TopoOrdered(order, Wire(nodes).value.edges) {
      TopoOrderedProducersFirst(nodes, order);
    }
    if ProducersFirst(Reorder(nodes, order)) {
      ProducersFirstTopoOrdered(nodes, order);
    }
  }

  lemma TopoOrderedProducersFirst<T>(nodes: seq<Node<T>>, order: seq<nat>)
    requires Wire(nodes).Success? && DistinctIds(nodes)
    requires IsPermutation(order, |nodes|)
    requires forall k :: 0 <= k < |order| ==> order[k] < |nodes|
    requires TopoOrdered(order, Wire(nodes).value.edges)
    ensures ProducersFirst(Reorder(nodes, order))
  {
    var edges := Wire(nodes).value.edges;
    var out := Reorder(nodes, order);
    forall i, j, x | 0 <= i < |out| && 0 <= j < |out| && Feeds(out[i], out[j], x) ensures i < j {
      WireEdges(nodes, order[i], order[j], x);
      var k :| 0 <= k < |edges| && edges[k] == Edge(order[i], order[j], x);
      EdgeGoesForward(edges, order, order[i], order[j], i, j);
    }
  }

  lemma ProducersFirstTopoOrdered<T>(nodes: seq<Node<T>>, order: seq<nat>)
    requires Wire(nodes).Success? && DistinctIds(nodes)
    requires IsPermutation(order, |nodes|)
    requires forall k :: 0 <= k < |order| ==> order[k] < |nodes|
    requires ProducersFirst(Reorder(nodes, order))
    ensures TopoOrdered(order, Wire(nodes).value.edges)
  {
    var edges := Wire(nodes).value.edges;
    var out := Reorder(nodes, order);
    forall j, k | 0 <= j < |order| && 0 <= k < |edges| && edges[k].dst == order[j] ensures edges[k].src in order[..j] {
      var e := edges[k];
      WireEdges(nodes, e.src, e.dst, e.name);
      assert e.src in order;
      var i :| 0 <= i < |order| && order[i] == e.src;
      assert Feeds(out[i], out[j], e.name);
      assert order[..j][i] == e.src;
    }
  }

  /** The vertices in their given order are a permutation. */
  lemma RangeIsPermutation(n: nat)
    ensures IsPermutation(Range(0, n), n)
  {
    var r := Range(0, n);
    forall v: nat | v < n ensures v in r {
      assert r[v] == v;
    }
  }

  /** Listing the nodes in the vertex order `order` puts producers first. */
  ghost predicate OrdersProducersFirst<T>(nodes: seq<Node<T>>, order: seq<nat>) {
    && IsPermutation(order, |nodes|)
    && (forall k :: 0 <= k < |order| ==> order[k] < |nodes|)
    && ProducersFirst(Reorder(nodes, order))
  }

  /** Some rearrangement of the nodes puts producers first. */
  ghost predicate CanOrder<T>(nodes: seq<Node<T>>) {
    exists order :: OrdersProducersFirst(nodes, order)
  }

  /** With distinct ids and distinct outputs, `from_nodes` succeeds exactly
      when some rearrangement of the nodes puts producers first, and fails
      with `InvalidPipeline` otherwise. */
  lemma BuildsIffOrderExists<T>(nodes: seq<Node<T>>)
    requires DistinctIds(nodes) && Distinct(OutputNames(nodes))
    ensures FromNodes(nodes).Success? <==> CanOrder(nodes)
    ensures FromNodes(nodes).Failure? ==> FromNodes(nodes).error == InvalidPipeline
  {
    WireSucceedsIff(nodes);
    var edges := Wire(nodes).value.edges;
    RangeIsPermutation(|nodes|);
    ToposortFailsOnlyWithoutOrder(|nodes|, edges, Range(0, |nodes|));
    if FromNodes(nodes).Success? {
      var order := Toposort(|nodes|, edges).value;
      TopoOrderedIffProducersFirst(nodes, order);
      assert OrdersProducersFirst(nodes, order);
    } else {
      forall order | OrdersProducersFirst(nodes, order) ensures false {
        TopoOrderedIffProducersFirst(nodes, order);
      }
    }
  }

  /** A built pipeline keeps the graph the wiring produced. */
  lemma BuiltFromWire<T>(nodes: seq<Node<T>>, p: Pipeline<T>)
    requires FromNodes(nodes) == Success(p)
    ensures Wire(nodes) == Success(p.graph)
  {
  }

  /** On success the stored nodes are the argument rearranged: every node
      kept once, none added. */
  lemma BuildRearranges<T>(nodes: seq<Node<T>>, p: Pipeline<T>) returns (order: seq<nat>)
    requires FromNodes(nodes) == Success(p)
    ensures RearrangedBy(p.nodes, nodes, order)
  {
    var g := Wire(nodes).value;
    order := Toposort(|nodes|, g.edges).value;
    PermutationBounded(order, |nodes|);
    assert p == Pipeline(Reorder(nodes, order), g);
  }

  /** Every entry of a permutation of 0 .. n-1 is below n. */
  lemma PermutationBounded(order: seq<nat>, n: nat)
    requires IsPermutation(order, n)
    ensures forall k :: 0 <= k < |order| ==> order[k] < n
  {
    assert forall k :: 0 <= k < |order| ==> order[k] in order;
  }

  /** With distinct ids, the rearrangement puts every producer before its
      consumers. */
  lemma BuildPutsProducersFirst<T>(nodes: seq<Node<T>>, p: Pipeline<T>)
    requires FromNodes(nodes) == Success(p)
    requires DistinctIds(nodes)
    ensures exists order :: RearrangedBy(p.nodes, nodes, order)
    ensures ProducersFirst(p.nodes)
  {
    var edges := Wire(nodes).value.edges;
    var order := Toposort(|nodes|, edges).value;
    TopoOrderedIffProducersFirst(nodes, order);
    assert RearrangedBy(p.nodes, nodes, order);
  }

  /** A closed chain of nodes, each feeding the next and the last the
      first; a single node feeding itself is the shortest one. */
  ghost predicate FeedsCycle<T>(nodes: seq<Node<T>>, path: seq<nat>) {
    && |path| > 0
    && (forall i :: 0 <= i < |path| ==> path[i] < |nodes|)
    && forall i :: 0 <= i < |path| ==> FeedsNext(nodes, path, i)
  }

  /** The `i`-th node of the chain feeds the next one, wrapping round. */
  ghost predicate FeedsNext<T>(nodes: seq<Node<T>>, path: seq<nat>, i: nat)
    requires i < |path| && forall i :: 0 <= i < |path| ==> path[i] < |nodes|
  {
    FeedsSome(nodes[path[i]], nodes[path[(i + 1) % |path|]])
  }

  /** `a` feeds `b` some datum. */
  ghost predicate FeedsSome<T>(a: Node<T>, b: Node<T>) {
    exists x :: Feeds(a, b, x)
  }

  /** A datum flowing from node `a` to node `b` puts an edge between the
      vertices the wiring gives their ids. */
  lemma FeedEdge<T>(nodes: seq<Node<T>>, a: nat, b: nat, x: Source)
    requires Producers(nodes).Success?
    requires a < |nodes| && b < |nodes| && Feeds(nodes[a], nodes[b], x)
    ensures nodes[a].id in Ids(nodes) && nodes[b].id in Ids(nodes)
    ensures HasEdge(Wire(nodes).value.edges, LastVertexOf(Ids(nodes), nodes[a].id), LastVertexOf(Ids(nodes), nodes[b].id))
  {
    var producers := Producers(nodes).value;
    var edges := Wire(nodes).value.edges;
    assert Ids(nodes)[a] == nodes[a].id;
    ProducerOf(nodes, a, x);
    EdgesFromComplete(nodes, producers, 0, b, x);
    var e := Edge(LastVertexOf(Ids(nodes), nodes[a].id), LastVertexOf(Ids(nodes), nodes[b].id), x);
    var k :| 0 <= k < |edges| && edges[k] == e;
  }

  /** A chain of nodes feeding each other in a circle makes `from_nodes`
      fail with `InvalidPipeline`, unless an output is duplicated (which is
      reported first). Ids need not be distinct. */
  lemma CycleFails<T>(nodes: seq<Node<T>>, path: seq<nat>)
    requires Distinct(OutputNames(nodes))
    requires FeedsCycle(nodes, path)
    ensures FromNodes(nodes) == Failure(InvalidPipeline)
  {
    WireSucceedsIff(nodes);
    var edges := Wire(nodes).value.edges;
    var ids := Ids(nodes);
    assert forall i :: 0 <= i < |path| ==> ids[path[i]] == nodes[path[i]].id;
    var vpath := seq(|path|, i requires 0 <= i < |path| => LastVertexOf(ids, nodes[path[i]].id));
    forall i | 0 <= i < |vpath| ensures Linked(edges, vpath, i) {
      var i' := (i + 1) % |path|;
      assert FeedsNext(nodes, path, i);
      var x :| Feeds(nodes[path[i]], nodes[path[i']], x);
      FeedEdge(nodes, path[i], path[i'], x);
    }
    CycleFailsToposort(|nodes|, edges, vpath);
  }

  /** A node that consumes one of its own outputs makes `from_nodes` fail
      with `InvalidPipeline`. */
  lemma SelfFeedingFails<T>(nodes: seq<Node<T>>, i: nat, x: Source)
    requires Distinct(OutputNames(nodes))
    requires i < |nodes| && Feeds(nodes[i], nodes[i], x)
    ensures FromNodes(nodes) == Failure(InvalidPipeline)
  {
    SelfCycle(nodes, i, x);
    CycleFails(nodes, [i]);
  }

  /** A node feeding itself is a chain of length one. */
  lemma SelfCycle<T>(nodes: seq<Node<T>>, i: nat, x: Source)
    requires i < |nodes| && Feeds(nodes[i], nodes[i], x)
    ensures FeedsCycle(nodes, [i])
  {
    var path := [i];
    assert FeedsSome(nodes[i], nodes[i]);
    assert path[(0 + 1) % |path|] == i;
    forall k | 0 <= k < |path| ensures FeedsNext(nodes, path, k) {
      assert k == 0;
    }
  }
}

=== FILE: compose_facts.dfy ===
/** What `Pipeline::add` and `Pipeline::with_namespace` guarantee: which
    outputs a combined pipeline has, when combining fails, and that moving a
    built pipeline into a namespace renames its names and nothing else. */
module ComposeFacts {
  import opened Wrappers
  import opened Names
  import opened Sources
  import opened GenericContainer
  import opened Nodes
  import opened TopoSort
  import opened Pipelines
  import opened BuildFacts
  import opened QueryFacts
  import opened RunFacts

  // -----------------------------------------------------------------------
  // Repeated outputs, node by node.
  // -----------------------------------------------------------------------

  /** A concatenation has no repeats exactly when neither part has and the
      parts share nothing. */
  lemma DistinctConcat<X>(a: seq<X>, b: seq<X>)
    ensures Distinct(a + b) <==> Distinct(a) && Distinct(b) && forall x :: x in a ==> x !in b
  {
    var ab := a + b;
    if Distinct(ab) {
      forall i, j | 0 <= i < j < |a| ensures a[i] != a[j] {
        assert ab[i] == a[i] && ab[j] == a[j];
      }
      forall i, j | 0 <= i < j < |b| ensures b[i] != b[j] {
        assert ab[|a| + i] == b[i] && ab[|a| + j] == b[j];
      }
      forall x | x in a ensures x !in b {
        var i :| 0 <= i < |a| && a[i] == x;
        forall j | 0 <= j < |b| ensures b[j] != x {
          assert ab[i] == a[i] && ab[|a| + j] == b[j];
        }
      }
    }
    if Distinct(a) && Distinct(b) && forall x :: x in a ==> x !in b {
      forall i, j | 0 <= i < j < |ab| ensures ab[i] != ab[j] {
        if j < |a| {
          assert ab[i] == a[i] && ab[j] == a[j];
        } else if i >= |a| {
          assert ab[i] == b[i - |a|] && ab[j] == b[j - |a|];
        } else {
          assert ab[j] == b[j - |a|] && ab[i] == a[i];
          assert a[i] in a && b[j - |a|] in b;
        }
      }
    }
  }

  /** No node repeats one of its outputs and no two nodes declare the same
      output. */
  ghost predicate OutputsApart<T>(nodes: seq<Node<T>>) {
    && (forall i :: 0 <= i < |nodes| ==> Distinct(Outputs(nodes[i].outputs)))
    && (forall i, j, x :: 0 <= i < |nodes| && 0 <= j < |nodes| && i != j && x in Outputs(nodes[i].outputs) ==>
          x !in Outputs(nodes[j].outputs))
  }

  /** The list of all outputs is free of repeats exactly when the outputs are
      apart node by node. */
  lemma {:induction false} DistinctOutputsIffApart<T>(nodes: seq<Node<T>>)
    ensures Distinct(OutputNames(nodes)) <==> OutputsApart(nodes)
    decreases |nodes|
  {
    if nodes != [] {
      var head := Outputs(nodes[0].outputs);
      var tail := nodes[1..];
      DistinctOutputsIffApart(tail);
      DistinctConcat(head, OutputNames(tail));
      assert OutputNames(nodes) == head + OutputNames(tail);
      forall x ensures x in OutputNames(tail) <==> exists j :: 1 <= j < |nodes| && x in Outputs(nodes[j].outputs) {
        OutputNamesTail(nodes, x);
      }
      if OutputsApart(nodes) {
        ApartSplits(nodes);
      }
      if Distinct(head) && OutputsApart(tail) && forall x :: x in head ==> x !in OutputNames(tail) {
        ApartJoins(nodes);
      }
    }
  }

  /** The outputs of all but the first node are those some later node
      declares. */
  lemma OutputNamesTail<T>(nodes: seq<Node<T>>, x: Source)
    requires nodes != []
    ensures x in OutputNames(nodes[1..]) <==> exists j :: 1 <= j < |nodes| && x in Outputs(nodes[j].outputs)
  {
    var tail := nodes[1..];
    OutputNamesMember(tail, x);
    if x in OutputNames(tail) {
      var j :| 0 <= j < |tail| && x in Outputs(tail[j].outputs);
      assert tail[j] == nodes[j + 1];
    }
    if exists j :: 1 <= j < |nodes| && x in Outputs(nodes[j].outputs) {
      var j :| 1 <= j < |nodes| && x in Outputs(nodes[j].outputs);
      assert tail[j - 1] == nodes[j];
    }
  }

  /** Outputs apart node by node are apart in the tail, and the first
      node's outputs are declared by no later node. */
  lemma ApartSplits<T>(nodes: seq<Node<T>>)
    requires nodes != [] && OutputsApart(nodes)
    requires forall x :: x in OutputNames(nodes[1..]) <==> exists j :: 1 <= j < |nodes| && x in Outputs(nodes[j].outputs)
    ensures Distinct(Outputs(nodes[0].outputs)) && OutputsApart(nodes[1..])
    ensures forall x :: x in Outputs(nodes[0].outputs) ==> x !in OutputNames(nodes[1..])
  {
    var tail := nodes[1..];
    assert forall i :: 0 <= i < |tail| ==> tail[i] == nodes[i + 1];
    forall x | x in Outputs(nodes[0].outputs) ensures x !in OutputNames(tail) {
      forall j | 1 <= j < |nodes| ensures x !in Outputs(nodes[j].outputs) {
        assert 0 != j;
      }
    }
  }

  /** Conversely, a first node apart from a tail whose outputs are apart
      makes the whole list's outputs apart. */
  lemma ApartJoins<T>(nodes: seq<Node<T>>)
    requires nodes != [] && Distinct(Outputs(nodes[0].outputs)) && OutputsApart(nodes[1..])
    requires forall x :: x in Outputs(nodes[0].outputs) ==> x !in OutputNames(nodes[1..])
    requires forall x :: x in OutputNames(nodes[1..]) <==> exists j :: 1 <= j < |nodes| && x in Outputs(nodes[j].outputs)
    ensures OutputsApart(nodes)
  {
    var head := Outputs(nodes[0].outputs);
    var tail := nodes[1..];
    forall i, j, x | 0 <= i < |nodes| && 0 <= j < |nodes| && i != j && x in Outputs(nodes[i].outputs)
      ensures x !in Outputs(nodes[j].outputs)
    {
      if i == 0 {
        assert x in head;
      } else if j == 0 {
        assert x in OutputNames(tail) by { assert tail[i - 1] == nodes[i]; }
      } else {
        assert tail[i - 1] == nodes[i] && tail[j - 1] == nodes[j];
      }
    }
    forall i | 0 <= i < |nodes| ensures Distinct(Outputs(nodes[i].outputs)) {
      if i > 0 { assert tail[i - 1] == nodes[i]; }
    }
  }

  /** Rearranging the nodes keeps their outputs free of repeats. */
  lemma RearrangedKeepsDistinct<T>(out: seq<Node<T>>, nodes: seq<Node<T>>, order: seq<nat>)
    requires RearrangedBy(out, nodes, order)
    requires Distinct(OutputNames(nodes))
    ensures Distinct(OutputNames(out))
  {
    DistinctOutputsIffApart(nodes);
    DistinctOutputsIffApart(out);
    forall i, j, x | 0 <= i < |out| && 0 <= j < |out| && i != j && x in Outputs(out[i].outputs)
      ensures x !in Outputs(out[j].outputs)
    {
      assert order[i] != order[j];
    }
  }

  // -----------------------------------------------------------------------
  // Building nodes that are already in order.
  // -----------------------------------------------------------------------

  /** Nodes with distinct ids and outputs that already put every producer
      first build, and are stored in the order given: every edge goes
      forward, so the topological sort leaves them where they are. */
  lemma BuildKeepsOrder<T>(nodes: seq<Node<T>>)
    requires DistinctIds(nodes) && Distinct(OutputNames(nodes))
    requires ProducersFirst(nodes)
    ensures FromNodes(nodes).Success? && FromNodes(nodes).value.nodes == nodes
  {
    WireSucceedsIff(nodes);
    var edges := Wire(nodes).value.edges;
    forall k | 0 <= k < |edges| ensures edges[k].src < edges[k].dst < |nodes| {
      var e := edges[k];
      assert Edge(e.src, e.dst, e.name) in edges;
      WireEdges(nodes, e.src, e.dst, e.name);
      assert Feeds(nodes[e.src], nodes[e.dst], e.name);
    }
    ToposortKeepsForwardOrder(|nodes|, edges);
    assert Reorder(nodes, Range(0, |nodes|)) == nodes;
  }

  // -----------------------------------------------------------------------
  // `add`.
  // -----------------------------------------------------------------------

  /** The combined pipeline declares exactly the outputs of the two. */
  lemma AddOutputs<T>(p: Pipeline<T>, q: Pipeline<T>, r: Pipeline<T>)
    requires Add(p, q) == Success(r)
    ensures forall x :: x in AllOutputs(r) <==> x in AllOutputs(p) || x in AllOutputs(q)
  {
    var order := BuildRearranges(p.nodes + q.nodes, r);
    OutputNamesAppend(p.nodes, q.nodes);
    forall x ensures x in OutputNames(r.nodes) <==> x in OutputNames(p.nodes + q.nodes) {
      RearrangedNames(r.nodes, p.nodes + q.nodes, order, x);
    }
  }

  /** An output declared by both pipelines makes `add` fail with
      `DuplicateData`. */
  lemma AddSharedOutputFails<T>(p: Pipeline<T>, q: Pipeline<T>, x: Source)
    requires x in OutputNames(p.nodes) && x in OutputNames(q.nodes)
    ensures Add(p, q).Failure? && Add(p, q).error.DuplicateData?
  {
    OutputNamesAppend(p.nodes, q.nodes);
    DistinctConcat(OutputNames(p.nodes), OutputNames(q.nodes));
    DuplicateOutputFails(p.nodes + q.nodes);
  }

  /** Two lists that each put producers first, where nothing in the second
      feeds the first, put producers first one after the other. */
  lemma ConcatProducersFirst<T>(a: seq<Node<T>>, b: seq<Node<T>>)
    requires ProducersFirst(a) && ProducersFirst(b)
    requires forall i, j, x :: 0 <= i < |b| && 0 <= j < |a| ==> !Feeds(b[i], a[j], x)
    ensures ProducersFirst(a + b)
  {
    var all := a + b;
    forall i, j, x | 0 <= i < |all| && 0 <= j < |all| && Feeds(all[i], all[j], x) ensures i < j {
      if i >= |a| {
        assert all[i] == b[i - |a|];
        if j >= |a| {
          assert all[j] == b[j - |a|];
        }
      } else if j < |a| {
        assert all[i] == a[i] && all[j] == a[j];
      }
    }
  }

  /** Two pipelines in order, with distinct ids and outputs, where nothing
      the second produces feeds the first: `add` succeeds and keeps the
      first's nodes ahead of the second's. */
  lemma AddInOrder<T>(p: Pipeline<T>, q: Pipeline<T>)
    requires DistinctIds(p.nodes + q.nodes) && Distinct(OutputNames(p.nodes + q.nodes))
    requires ProducersFirst(p.nodes) && ProducersFirst(q.nodes)
    requires forall i, j, x :: 0 <= i < |q.nodes| && 0 <= j < |p.nodes| ==> !Feeds(q.nodes[i], p.nodes[j], x)
    ensures Add(p, q).Success? && Add(p, q).value.nodes == p.nodes + q.nodes
  {
    ConcatProducersFirst(p.nodes, q.nodes);
    BuildKeepsOrder(p.nodes + q.nodes);
  }

  // -----------------------------------------------------------------------
  // `with_namespace`.
  // -----------------------------------------------------------------------

  /** A port whose renaming keeps every entry: a list without repeats (the
      source turns it into a hash map keyed by name), or a map with unique
      local names. */
  ghost predicate PortOk(s: NodeSources) {
    (s.List? ==> Distinct(s.names)) && Valid(s)
  }

  ghost predicate PortsOk<T>(nodes: seq<Node<T>>) {
    forall i :: 0 <= i < |nodes| ==> PortOk(nodes[i].inputs) && PortOk(nodes[i].outputs)
  }

  /** Renaming a port namespaces its external names, in order. */
  lemma RenamedPort(s: NodeSources, ns: string)
    requires PortOk(s)
    ensures Inputs(MapNames(s, Prefixer(ns))) == PrefixAll(ns, Inputs(s))
    ensures Outputs(MapNames(s, Prefixer(ns))) == PrefixAll(ns, Outputs(s))
  {
    var r := MapNames(s, Prefixer(ns));
    MapNamesInOrder(s, Prefixer(ns));
    BindingsExternals(s);
    assert |r.pairs| == |Locals(r.pairs)| == |Locals(Bindings(s))| == |Bindings(s)|;
    forall i | 0 <= i < |r.pairs| ensures Outputs(r)[i] == PrefixAll(ns, Outputs(s))[i] {
      assert Externals(Bindings(s))[i] == Bindings(s)[i].external;
    }
  }

  /** `r` is `nodes` with every port renamed into `ns`. */
  ghost predicate RenamedInto<T>(r: seq<Node<T>>, nodes: seq<Node<T>>, ns: string) {
    && |r| == |nodes|
    && forall i :: 0 <= i < |r| ==>
         && r[i].inputs == MapNames(nodes[i].inputs, Prefixer(ns))
         && r[i].outputs == MapNames(nodes[i].outputs, Prefixer(ns))
  }

  /** `with_namespace` renames every port of every node. */
  lemma NamespaceNodesRenamed<T>(nodes: seq<Node<T>>, ns: string, m: Mint)
    ensures RenamedInto(NamespaceNodes(nodes, ns, m), nodes, ns)
  {
    var r := NamespaceNodes(nodes, ns, m);
    forall i | 0 <= i < |r|
      ensures r[i].inputs == MapNames(nodes[i].inputs, Prefixer(ns))
      ensures r[i].outputs == MapNames(nodes[i].outputs, Prefixer(ns))
    {
      assert r[i] == NamespaceNode(nodes[i], ns, m.next + i);
    }
  }

  /** The renamed nodes declare the namespaced names, node by node. */
  lemma {:induction false} RenamedNames<T>(r: seq<Node<T>>, nodes: seq<Node<T>>, ns: string)
    requires RenamedInto(r, nodes, ns) && PortsOk(nodes)
    ensures OutputNames(r) == PrefixAll(ns, OutputNames(nodes))
    ensures InputNames(r) == PrefixAll(ns, InputNames(nodes))
    decreases |nodes|
  {
    if nodes != [] {
      assert forall i :: 0 <= i < |nodes| - 1 ==> r[1..][i] == r[i + 1] && nodes[1..][i] == nodes[i + 1];
      RenamedNames(r[1..], nodes[1..], ns);
      RenamedPort(nodes[0].outputs, ns);
      RenamedPort(nodes[0].inputs, ns);
      PrefixAllAppend(ns, Outputs(nodes[0].outputs), OutputNames(nodes[1..]));
      PrefixAllAppend(ns, Inputs(nodes[0].inputs), InputNames(nodes[1..]));
    }
  }

  /** A renamed node feeds another exactly when the originals did, under
      the namespaced name. */
  lemma FeedsRenamed<T>(a: Node<T>, b: Node<T>, a': Node<T>, b': Node<T>, ns: string, y: Source)
    requires Valid(a.outputs) && Valid(b.inputs)
    requires a'.outputs == MapNames(a.outputs, Prefixer(ns)) && b'.inputs == MapNames(b.inputs, Prefixer(ns))
    ensures Feeds(a', b', y) <==> exists x :: Feeds(a, b, x) && y == Namespaced(ns, x)
  {
    MapNamesExternals(a.outputs, Prefixer(ns), y);
    MapNamesExternals(b.inputs, Prefixer(ns), y);
    if Feeds(a', b', y) {
      var x :| x in Outputs(a.outputs) && y == Namespaced(ns, x);
      var x' :| x' in Inputs(b.inputs) && y == Namespaced(ns, x');
      NamespacedInjective(ns, x, x');
      assert Feeds(a, b, x);
    }
  }

  /** Renaming keeps every producer ahead of its consumers. */
  lemma RenamedProducersFirst<T>(r: seq<Node<T>>, nodes: seq<Node<T>>, ns: string)
    requires RenamedInto(r, nodes, ns) && PortsOk(nodes)
    requires ProducersFirst(nodes)
    ensures ProducersFirst(r)
  {
    forall i, j, y | 0 <= i < |r| && 0 <= j < |r| && Feeds(r[i], r[j], y) ensures i < j {
      FeedsRenamed(nodes[i], nodes[j], r[i], r[j], ns, y);
    }
  }

  /** A rearrangement keeps every port as it was. */
  lemma RearrangedPortsOk<T>(out: seq<Node<T>>, nodes: seq<Node<T>>, order: seq<nat>)
    requires RearrangedBy(out, nodes, order) && PortsOk(nodes)
    ensures PortsOk(out)
  {
  }

  /** A pipeline built from nodes with distinct ids and well-formed ports
      can be moved into any namespace: the result builds, and holds the
      renamed nodes in the same order, with fresh ids. */
  lemma NamespacedBuildsInOrder<T>(nodes: seq<Node<T>>, p: Pipeline<T>, ns: string, m: Mint)
    requires FromNodes(nodes) == Success(p) && DistinctIds(nodes) && PortsOk(nodes)
    ensures WithNamespace(p, ns, m).0.Success?
    ensures WithNamespace(p, ns, m).0.value.nodes == NamespaceNodes(p.nodes, ns, m)
  {
    var order := BuildRearranges(nodes, p);
    BuildPutsProducersFirst(nodes, p);
    WireSucceedsIff(nodes);
    RearrangedKeepsDistinct(p.nodes, nodes, order);
    RearrangedPortsOk(p.nodes, nodes, order);
    var r := NamespaceNodes(p.nodes, ns, m);
    NamespaceNodesRenamed(p.nodes, ns, m);
    RenamedNames(r, p.nodes, ns);
    PrefixAllDistinct(ns, OutputNames(p.nodes));
    RenamedProducersFirst(r, p.nodes, ns);
    BuildKeepsOrder(r);
  }

  /** Filtering commutes with namespacing. */
  lemma {:induction false} WithoutPrefix(ns: string, xs: seq<Source>, avoid: seq<Source>)
    ensures Without(PrefixAll(ns, xs), PrefixAll(ns, avoid)) == PrefixAll(ns, Without(xs, avoid))
    decreases |xs|
  {
    if xs != [] {
      var ps := PrefixAll(ns, xs);
      assert ps[1..] == PrefixAll(ns, xs[1..]);
      PrefixAllMember(ns, avoid, ps[0]);
      WithoutPrefix(ns, xs[1..], avoid);
    }
  }

  /** The unproduced inputs of renamed nodes are the namespaced unproduced
      inputs of the originals. */
  lemma {:induction false} InputsNotInRenamed<T>(r: seq<Node<T>>, nodes: seq<Node<T>>, ns: string, avoid: seq<Source>)
    requires RenamedInto(r, nodes, ns) && PortsOk(nodes)
    ensures InputsNotIn(r, PrefixAll(ns, avoid)) == PrefixAll(ns, InputsNotIn(nodes, avoid))
    decreases |nodes|
  {
    if nodes != [] {
      assert forall i :: 0 <= i < |nodes| - 1 ==> r[1..][i] == r[i + 1] && nodes[1..][i] == nodes[i + 1];
      InputsNotInRenamed(r[1..], nodes[1..], ns, avoid);
      RenamedPort(nodes[0].inputs, ns);
      WithoutPrefix(ns, Inputs(nodes[0].inputs), avoid);
      PrefixAllAppend(ns, Without(Inputs(nodes[0].inputs), avoid), InputsNotIn(nodes[1..], avoid));
    }
  }

  /** The unconsumed outputs of renamed nodes are the namespaced unconsumed
      outputs of the originals. */
  lemma {:induction false} OutputsNotInRenamed<T>(r: seq<Node<T>>, nodes: seq<Node<T>>, ns: string, avoid: seq<Source>)
    requires RenamedInto(r, nodes, ns) && PortsOk(nodes)
    ensures OutputsNotIn(r, PrefixAll(ns, avoid)) == PrefixAll(ns, OutputsNotIn(nodes, avoid))
    decreases |nodes|
  {
    if nodes != [] {
      assert forall i :: 0 <= i < |nodes| - 1 ==> r[1..][i] == r[i + 1] && nodes[1..][i] == nodes[i + 1];
      OutputsNotInRenamed(r[1..], nodes[1..], ns, avoid);
      RenamedPort(nodes[0].outputs, ns);
      WithoutPrefix(ns, Outputs(nodes[0].outputs), avoid);
      PrefixAllAppend(ns, Without(Outputs(nodes[0].outputs), avoid), OutputsNotIn(nodes[1..], avoid));
    }
  }

  /** Moving a pipeline into a namespace namespaces the inputs it reports. */
  lemma NamespacedFreeInputs<T>(nodes: seq<Node<T>>, p: Pipeline<T>, ns: string, m: Mint, q: Pipeline<T>)
    requires FromNodes(nodes) == Success(p) && DistinctIds(nodes) && PortsOk(nodes)
    requires WithNamespace(p, ns, m).0 == Success(q)
    ensures FreeInputs(q) == PrefixAll(ns, FreeInputs(p))
  {
    var r := NamespacedNodesOf(nodes, p, ns, m, q);
    FreeInputsAreUnproduced(nodes, p);
    FreeInputsAreUnproduced(r, q);
    InputsNotInRenamed(r, p.nodes, ns, OutputNames(p.nodes));
    SortPrefix(ns, InputsNotIn(p.nodes, OutputNames(p.nodes)));
  }

  /** Moving a pipeline into a namespace namespaces the terminal outputs
      it reports. */
  lemma NamespacedTerminalOutputs<T>(nodes: seq<Node<T>>, p: Pipeline<T>, ns: string, m: Mint, q: Pipeline<T>)
    requires FromNodes(nodes) == Success(p) && DistinctIds(nodes) && PortsOk(nodes)
    requires WithNamespace(p, ns, m).0 == Success(q)
    ensures TerminalOutputs(q) == PrefixAll(ns, TerminalOutputs(p))
  {
    var r := NamespacedNodesOf(nodes, p, ns, m, q);
    TerminalOutputsAreUnconsumed(nodes, p);
    TerminalOutputsAreUnconsumed(r, q);
    OutputsNotInRenamed(r, p.nodes, ns, InputNames(p.nodes));
    SortPrefix(ns, OutputsNotIn(p.nodes, InputNames(p.nodes)));
  }

  /** Moving a pipeline into a namespace namespaces all its outputs. */
  lemma NamespacedAllOutputs<T>(nodes: seq<Node<T>>, p: Pipeline<T>, ns: string, m: Mint, q: Pipeline<T>)
    requires FromNodes(nodes) == Success(p) && DistinctIds(nodes) && PortsOk(nodes)
    requires WithNamespace(p, ns, m).0 == Success(q)
    ensures forall y :: y in AllOutputs(q) <==> exists x :: x in AllOutputs(p) && y == Namespaced(ns, x)
  {
    var r := NamespacedNodesOf(nodes, p, ns, m, q);
    forall y ensures y in AllOutputs(q) <==> exists x :: x in AllOutputs(p) && y == Namespaced(ns, x) {
      PrefixAllMember(ns, OutputNames(p.nodes), y);
    }
  }

  /** The namespaced pipeline holds the renamed nodes, in order, with their
      names namespaced. */
  lemma NamespacedNodesOf<T>(nodes: seq<Node<T>>, p: Pipeline<T>, ns: string, m: Mint, q: Pipeline<T>) returns (r: seq<Node<T>>)
    requires FromNodes(nodes) == Success(p) && DistinctIds(nodes) && PortsOk(nodes)
    requires WithNamespace(p, ns, m).0 == Success(q)
    ensures r == q.nodes && r == NamespaceNodes(p.nodes, ns, m)
    ensures FromNodes(r) == Success(q) && DistinctIds(r)
    ensures RenamedInto(r, p.nodes, ns) && PortsOk(p.nodes)
    ensures OutputNames(r) == PrefixAll(ns, OutputNames(p.nodes))
    ensures InputNames(r) == PrefixAll(ns, InputNames(p.nodes))
  {
    NamespacedBuildsInOrder(nodes, p, ns, m);
    var order := BuildRearranges(nodes, p);
    RearrangedPortsOk(p.nodes, nodes, order);
    r := NamespaceNodes(p.nodes, ns, m);
    NamespaceNodesRenamed(p.nodes, ns, m);
    RenamedNames(r, p.nodes, ns);
  }

  // -----------------------------------------------------------------------
  // Running a namespaced pipeline.
  // -----------------------------------------------------------------------

  /** Namespacing a key is injective. */
  lemma PrefixInjective(ns: string)
    ensures forall a: string, b: string :: ns + "." + a == ns + "." + b ==> a == b
  {
    forall a: string, b: string | ns + "." + a == ns + "." + b ensures a == b {
      NamespacedInjective(ns, Id(a), Id(b));
    }
  }

  /** The store `s` moved into namespace `ns`: the value under `k` now sits
      under `ns.k`, and nothing else is stored. */
  function PrefixStore<T>(ns: string, s: Container<T>): (r: Container<T>)
    ensures forall k :: k in s.data ==> ns + "." + k in r.data && r.data[ns + "." + k] == s.data[k]
    ensures forall k :: k in r.data ==> exists j :: j in s.data && k == ns + "." + j
  {
    PrefixInjective(ns);
    Container(map k | k in s.data :: ns + "." + k := s.data[k])
  }

  /** A run's outcome moved into namespace `ns`: a resulting store is
      moved, an error stays as it is. */
  function PrefixResult<T>(ns: string, r: Result<Container<T>>): Result<Container<T>> {
    match r
    case Success(c) => Success(PrefixStore(ns, c))
    case Failure(e) => Failure(e)
  }

  /** Storing and then moving is moving and then storing under `ns.k`. */
  lemma PrefixUpsert<T>(ns: string, s: Container<T>, k: string, v: T)
    ensures PrefixStore(ns, Upsert(s, k, v)) == Upsert(PrefixStore(ns, s), ns + "." + k, v)
  {
    var a := PrefixStore(ns, Upsert(s, k, v)).data;
    var b := Upsert(PrefixStore(ns, s), ns + "." + k, v).data;
    PrefixUpsertForth(ns, s, k, v);
    PrefixUpsertBack(ns, s, k, v);
    assert a == b;
  }

  lemma PrefixUpsertForth<T>(ns: string, s: Container<T>, k: string, v: T)
    ensures forall key :: key in PrefixStore(ns, Upsert(s, k, v)).data ==>
      && key in Upsert(PrefixStore(ns, s), ns + "." + k, v).data
      && PrefixStore(ns, Upsert(s, k, v)).data[key] == Upsert(PrefixStore(ns, s), ns + "." + k, v).data[key]
  {
    var u := Upsert(s, k, v);
    var a := PrefixStore(ns, u).data;
    var b := Upsert(PrefixStore(ns, s), ns + "." + k, v).data;
    forall key | key in a ensures key in b && a[key] == b[key] {
      var j :| j in u.data && key == ns + "." + j;
      if j != k {
        NamespacedInjective(ns, Id(j), Id(k));
      }
    }
  }

  lemma PrefixUpsertBack<T>(ns: string, s: Container<T>, k: string, v: T)
    ensures forall key :: key in Upsert(PrefixStore(ns, s), ns + "." + k, v).data ==> key in PrefixStore(ns, Upsert(s, k, v)).data
  {
    var u := Upsert(s, k, v);
    forall key | key in Upsert(PrefixStore(ns, s), ns + "." + k, v).data ensures key in PrefixStore(ns, u).data {
      if key != ns + "." + k {
        var j :| j in s.data && key == ns + "." + j;
        assert j in u.data;
      }
    }
  }

  /** `l` does not begin with `ns.`. */
  predicate OutsideNamespace(ns: string, l: Source) {
    !(|ns| + 1 <= |l.id| && l.id[..|ns| + 1] == ns + ".")
  }

  /** A name outside `ns` is no namespaced name. */
  lemma OutsideDiffers(ns: string, l: Source, y: Source)
    requires OutsideNamespace(ns, l)
    ensures l != Namespaced(ns, y)
  {
    assert Namespaced(ns, y).id[..|ns| + 1] == ns + ".";
  }

  /** Two stores agree on `names`: each name is in both or in neither, with
      the same value. */
  ghost predicate AgreeOn<T>(names: seq<Source>, a: Container<T>, b: Container<T>) {
    forall i :: 0 <= i < |names| ==>
      && (names[i].id in a.data <==> names[i].id in b.data)
      && (names[i].id in a.data ==> a.data[names[i].id] == b.data[names[i].id])
  }

  /** The node's function looks at nothing but its local input names. */
  ghost predicate ReadsOnlyInputs<T(!new)>(n: Node<T>) {
    forall a, b :: AgreeOn(Locals(Bindings(n.inputs)), a, b) ==> n.func(a) == n.func(b)
  }

  /** What node `n` needs for its step to move into namespace `ns`
      unchanged: its function reads only its inputs, its input entries do
      not read each other's local names, and no local input name begins
      with `ns.`, so none overwrites a namespaced value. */
  ghost predicate MovesWith<T(!new)>(n: Node<T>, ns: string) {
    && PortOk(n.inputs) && PortOk(n.outputs)
    && ReadsOnlyInputs(n)
    && NoCrossReads(Bindings(n.inputs))
    && forall l :: l in Locals(Bindings(n.inputs)) ==> OutsideNamespace(ns, l)
  }

  /** `n'` is `n` with its ports renamed into `ns` and the same function. */
  ghost predicate MovedInto<T>(n': Node<T>, n: Node<T>, ns: string) {
    && n'.inputs == MapNames(n.inputs, Prefixer(ns))
    && n'.outputs == MapNames(n.outputs, Prefixer(ns))
    && n'.func == n.func
  }

  /** A renamed port pairs the same local names with the namespaced
      external names, entry by entry. */
  lemma RenamedBindings(s: NodeSources, ns: string)
    requires PortOk(s)
    ensures |MapNames(s, Prefixer(ns)).pairs| == |Bindings(s)|
    ensures forall i :: 0 <= i < |Bindings(s)| ==>
      && MapNames(s, Prefixer(ns)).pairs[i].local == Bindings(s)[i].local
      && MapNames(s, Prefixer(ns)).pairs[i].external == Namespaced(ns, Bindings(s)[i].external)
  {
    var r := MapNames(s, Prefixer(ns)).pairs;
    MapNamesInOrder(s, Prefixer(ns));
    assert |r| == |Locals(r)| == |Locals(Bindings(s))| == |Bindings(s)|;
    forall i | 0 <= i < |Bindings(s)| ensures r[i].local == Bindings(s)[i].local {
      assert Locals(r)[i] == Locals(Bindings(s))[i];
    }
  }

  /** The store a node is shown, when every input is present: each local
      input name holds the value of its external name. */
  lemma ViewReadsStore<T>(n: Node<T>, s: Container<T>)
    requires PortOk(n.inputs) && NoCrossReads(Bindings(n.inputs))
    requires forall x :: x in Inputs(n.inputs) ==> x.id in s.data
    ensures View(n.inputs, s).Success?
    ensures forall i :: 0 <= i < |Bindings(n.inputs)| ==>
      && Bindings(n.inputs)[i].local.id in View(n.inputs, s).value.data
      && View(n.inputs, s).value.data[Bindings(n.inputs)[i].local.id] == s.data[Bindings(n.inputs)[i].external.id]
  {
    if n.inputs.Map? {
      var m := n.inputs.pairs;
      RemapSucceedsIff(m, s);
      assert forall i :: 0 <= i < |m| ==> Supplied(m, s.data.Keys, i) by {
        forall i | 0 <= i < |m| ensures Supplied(m, s.data.Keys, i) {
          assert Inputs(n.inputs)[i] == m[i].external;
        }
      }
      forall i | 0 <= i < |m|
        ensures m[i].local.id in Remap(m, s).value.data
        ensures Remap(m, s).value.data[m[i].local.id] == s.data[m[i].external.id]
      {
        assert Locals(m)[i] == m[i].local;
        RemapReadsStartAt(m, s, i);
      }
    }
  }

  /** The store the renamed node is shown, on the moved store: each local
      input name holds the value the original store has under its external
      name. */
  lemma MovedViewReads<T>(n: Node<T>, ns: string, s: Container<T>)
    requires PortOk(n.inputs)
    requires forall l :: l in Locals(Bindings(n.inputs)) ==> OutsideNamespace(ns, l)
    requires forall x :: x in Inputs(n.inputs) ==> x.id in s.data
    ensures View(MapNames(n.inputs, Prefixer(ns)), PrefixStore(ns, s)).Success?
    ensures forall i :: 0 <= i < |Bindings(n.inputs)| ==>
      && Bindings(n.inputs)[i].local.id in View(MapNames(n.inputs, Prefixer(ns)), PrefixStore(ns, s)).value.data
      && View(MapNames(n.inputs, Prefixer(ns)), PrefixStore(ns, s)).value.data[Bindings(n.inputs)[i].local.id]
           == s.data[Bindings(n.inputs)[i].external.id]
  {
    var b := Bindings(n.inputs);
    var m := MapNames(n.inputs, Prefixer(ns)).pairs;
    var ps := PrefixStore(ns, s);
    RenamedBindings(n.inputs, ns);
    BindingsExternals(n.inputs);
    forall i | 0 <= i < |b| ensures b[i].external.id in s.data {
      assert Externals(b)[i] == b[i].external;
    }
    RemapSucceedsIff(m, ps);
    assert forall i :: 0 <= i < |m| ==> Supplied(m, ps.data.Keys, i);
    assert SeparateNames(m) by {
      forall i, j | 0 <= i < |m| && 0 <= j < |m| ensures m[i].local.id != m[j].external.id {
        assert Locals(b)[i] == b[i].local;
        OutsideDiffers(ns, b[i].local, b[j].external);
      }
    }
    forall i | 0 <= i < |b|
      ensures b[i].local.id in Remap(m, ps).value.data
      ensures Remap(m, ps).value.data[b[i].local.id] == s.data[b[i].external.id]
    {
      assert Locals(m)[i] == m[i].local;
      RemapCopiesAt(m, ps, i);
    }
  }

  /** Folding outputs into the moved store under namespaced names is moving
      the fold: the same values, or the same error. */
  lemma {:induction false} CollectMoved<T>(bs: seq<Binding>, bs': seq<Binding>, ns: string, res: Container<T>, st: Container<T>)
    requires |bs'| == |bs|
    requires forall i :: 0 <= i < |bs| ==> bs'[i].local == bs[i].local && bs'[i].external == Namespaced(ns, bs[i].external)
    ensures Collect(bs', res, PrefixStore(ns, st)) == PrefixResult(ns, Collect(bs, res, st))
    decreases |bs|
  {
    if bs != [] {
      var l := bs[0].local.id;
      if l in res.data {
        PrefixUpsert(ns, st, bs[0].external.id, res.data[l]);
        assert forall i :: 0 <= i < |bs| - 1 ==> bs'[1..][i] == bs'[i + 1] && bs[1..][i] == bs[i + 1];
        CollectMoved(bs[1..], bs'[1..], ns, Container(res.data - {l}), Upsert(st, bs[0].external.id, res.data[l]));
      }
    }
  }

  /** One step of a moved node on the moved store is the original step,
      moved: the same error or the moved result. */
  lemma StepMoved<T(!new)>(n: Node<T>, n': Node<T>, ns: string, s: Container<T>)
    requires MovesWith(n, ns) && MovedInto(n', n, ns)
    requires forall x :: x in Inputs(n.inputs) ==> x.id in s.data
    ensures Step(n', PrefixStore(ns, s)) == PrefixResult(ns, Step(n, s))
  {
    var ps := PrefixStore(ns, s);
    ViewReadsStore(n, s);
    MovedViewReads(n, ns, s);
    var v := View(n.inputs, s).value;
    var v' := View(n'.inputs, ps).value;
    var b := Bindings(n.inputs);
    assert AgreeOn(Locals(b), v, v') by {
      forall i | 0 <= i < |Locals(b)| ensures Locals(b)[i].id in v.data && Locals(b)[i].id in v'.data
        && v.data[Locals(b)[i].id] == v'.data[Locals(b)[i].id]
      {
        assert Locals(b)[i] == b[i].local;
      }
    }
    assert n.func(v) == n'.func(v');
    if n.func(v).Success? {
      var res := n.func(v).value;
      RenamedBindings(n.outputs, ns);
      CollectMoved(Bindings(n.outputs), Bindings(n'.outputs), ns, res, s);
    }
  }

  /** Every input of each node is in the starting store or is an output of
      an earlier node. */
  ghost predicate FedFrom<T>(nodes: seq<Node<T>>, keys: set<string>) {
    forall j, x :: 0 <= j < |nodes| && x in Inputs(nodes[j].inputs) ==> x.id in keys || x in OutputNames(nodes[..j])
  }

  /** After a successful first step, the remaining nodes are fed from the
      new store. */
  lemma FedFromTail<T>(nodes: seq<Node<T>>, st: Container<T>, next: Container<T>)
    requires nodes != [] && FedFrom(nodes, st.data.Keys)
    requires Step(nodes[0], st) == Success(next)
    ensures FedFrom(nodes[1..], next.data.Keys)
  {
    var tail := nodes[1..];
    forall j, x | 0 <= j < |tail| && x in Inputs(tail[j].inputs)
      ensures x.id in next.data.Keys || x in OutputNames(tail[..j])
    {
      assert tail[j] == nodes[j + 1];
      assert nodes[..j + 1][1..] == tail[..j];
      if x in Outputs(nodes[0].outputs) {
        var k :| 0 <= k < |Outputs(nodes[0].outputs)| && Outputs(nodes[0].outputs)[k] == x;
        assert x.id in NameKeys(Outputs(nodes[0].outputs));
      }
    }
  }

  /** Each node of `r` is the node of `nodes` at the same place, moved
      into `ns`, and each of those can move. */
  ghost predicate AllMoved<T(!new)>(r: seq<Node<T>>, nodes: seq<Node<T>>, ns: string) {
    && |r| == |nodes|
    && forall i :: 0 <= i < |nodes| ==> MovesWith(nodes[i], ns) && MovedInto(r[i], nodes[i], ns)
  }

  lemma AllMovedTail<T(!new)>(r: seq<Node<T>>, nodes: seq<Node<T>>, ns: string)
    requires AllMoved(r, nodes, ns) && nodes != []
    ensures AllMoved(r[1..], nodes[1..], ns)
    ensures MovesWith(nodes[0], ns) && MovedInto(r[0], nodes[0], ns)
  {
    assert forall i :: 0 <= i < |nodes| - 1 ==> r[1..][i] == r[i + 1] && nodes[1..][i] == nodes[i + 1];
  }

  /** Running moved nodes on a moved store is the original run, moved. */
  lemma {:induction false} RunNodesMoved<T(!new)>(r: seq<Node<T>>, nodes: seq<Node<T>>, ns: string, st: Container<T>)
    requires AllMoved(r, nodes, ns)
    requires FedFrom(nodes, st.data.Keys)
    ensures RunNodes(r, PrefixStore(ns, st)) == PrefixResult(ns, RunNodes(nodes, st))
    decreases |nodes|
  {
    if nodes != [] {
      AllMovedTail(r, nodes, ns);
      assert nodes[..0] == [];
      StepMoved(nodes[0], r[0], ns, st);
      var first := Step(nodes[0], st);
      if first.Success? {
        FedFromTail(nodes, st, first.value);
        RunNodesMoved(r[1..], nodes[1..], ns, first.value);
      }
    }
  }

  /** An input of node `j` that is not in `avoid` is among the inputs not
      in `avoid`. */
  lemma {:induction false} InputsNotInHas<T>(nodes: seq<Node<T>>, avoid: seq<Source>, j: nat, x: Source)
    requires j < |nodes| && x in Inputs(nodes[j].inputs) && x !in avoid
    ensures x in InputsNotIn(nodes, avoid)
    decreases j
  {
    if j > 0 {
      assert nodes[1..][j - 1] == nodes[j];
      InputsNotInHas(nodes[1..], avoid, j - 1, x);
    }
  }

  /** With producers first, nodes are fed from any store that holds every
      input no node produces. */
  lemma FreeInputsFeed<T>(nodes: seq<Node<T>>, keys: set<string>)
    requires ProducersFirst(nodes)
    requires forall x :: x in InputsNotIn(nodes, OutputNames(nodes)) ==> x.id in keys
    ensures FedFrom(nodes, keys)
  {
    forall j, x | 0 <= j < |nodes| && x in Inputs(nodes[j].inputs)
      ensures x.id in keys || x in OutputNames(nodes[..j])
    {
      OutputNamesMember(nodes, x);
      if x in OutputNames(nodes) {
        var i :| 0 <= i < |nodes| && x in Outputs(nodes[i].outputs);
        assert Feeds(nodes[i], nodes[j], x);
        OutputNamesMember(nodes[..j], x);
        assert nodes[..j][i] == nodes[i];
      } else {
        InputsNotInHas(nodes, OutputNames(nodes), j, x);
      }
    }
  }

  /** Ports that are well formed after a rearrangement were well formed
      before it. */
  lemma RearrangedPortsBack<T>(out: seq<Node<T>>, nodes: seq<Node<T>>, order: seq<nat>)
    requires RearrangedBy(out, nodes, order) && PortsOk(out)
    ensures PortsOk(nodes)
  {
    forall k | 0 <= k < |nodes| ensures PortOk(nodes[k].inputs) && PortOk(nodes[k].outputs) {
      assert k in order;
      var i :| 0 <= i < |order| && order[i] == k;
      assert out[i] == nodes[k];
    }
  }

  /** Nodes moved into `ns`, run on a moved store that holds every input no
      node produces, give the original run's outcome, moved. */
  lemma MovedRun<T(!new)>(r: seq<Node<T>>, nodes: seq<Node<T>>, ns: string, s: Container<T>)
    requires AllMoved(r, nodes, ns)
    requires ProducersFirst(nodes)
    requires forall x :: x in InputsNotIn(nodes, OutputNames(nodes)) ==> x.id in s.data
    ensures RunNodes(r, PrefixStore(ns, s)) == PrefixResult(ns, RunNodes(nodes, s))
  {
    FreeInputsFeed(nodes, s.data.Keys);
    RunNodesMoved(r, nodes, ns, s);
  }

  /** `with_namespace` moves every node into `ns`. */
  lemma NamespaceNodesMoved<T>(nodes: seq<Node<T>>, ns: string, m: Mint)
    ensures forall i :: 0 <= i < |nodes| ==> MovedInto(NamespaceNodes(nodes, ns, m)[i], nodes[i], ns)
  {
    var r := NamespaceNodes(nodes, ns, m);
    forall i | 0 <= i < |nodes| ensures MovedInto(r[i], nodes[i], ns) {
      assert r[i] == NamespaceNode(nodes[i], ns, m.next + i);
    }
  }

  /** The namespaced pipeline holds the built nodes, each moved into `ns`,
      in the same order, and the built nodes put producers first. */
  lemma NamespacedMoves<T>(nodes: seq<Node<T>>, p: Pipeline<T>, ns: string, m: Mint, q: Pipeline<T>)
    requires FromNodes(nodes) == Success(p) && DistinctIds(nodes)
    requires WithNamespace(p, ns, m).0 == Success(q)
    requires PortsOk(p.nodes)
    ensures ProducersFirst(p.nodes)
    ensures q.nodes == NamespaceNodes(p.nodes, ns, m)
  {
    var order := BuildRearranges(nodes, p);
    RearrangedPortsBack(p.nodes, nodes, order);
    var r := NamespacedNodesOf(nodes, p, ns, m, q);
    BuildPutsProducersFirst(nodes, p);
  }

  /** Running a namespaced pipeline on a store moved into the namespace
      gives the original run's outcome, moved: the same error, or the
      original result with every key namespaced. It holds when every node
      reads nothing but its inputs, no local input name begins with `ns.`,
      and the store holds every input the pipeline reports as free. */
  lemma NamespacedRuns<T(!new)>(nodes: seq<Node<T>>, p: Pipeline<T>, ns: string, m: Mint, q: Pipeline<T>, s: Container<T>)
    requires FromNodes(nodes) == Success(p) && DistinctIds(nodes)
    requires WithNamespace(p, ns, m).0 == Success(q)
    requires forall i :: 0 <= i < |p.nodes| ==> MovesWith(p.nodes[i], ns)
    requires forall x :: x in FreeInputs(p) ==> x.id in s.data
    ensures Run(q, PrefixStore(ns, s)) == PrefixResult(ns, Run(p, s))
    ensures Run(p, s).Success? ==> Run(q, PrefixStore(ns, s)) == Success(PrefixStore(ns, Run(p, s).value))
  {
    NamespacedMoves(nodes, p, ns, m, q);
    NamespaceNodesMoved(p.nodes, ns, m);
    FreeInputsAreUnproduced(nodes, p);
    var free := InputsNotIn(p.nodes, OutputNames(p.nodes));
    forall x | x in free ensures x.id in s.data {
      assert x in multiset(Sort(free));
    }
    MovedRun(q.nodes, p.nodes, ns, s);
  }
}

=== FILE: container.dfy ===
/** The homogeneous named store `Container<T>`: a string-keyed map with a
    strict insert, an overwriting upsert and a failing lookup. Payloads are
    values here; the source shares them behind reference counts, which
    changes nothing observable. */
module GenericContainer {
  import opened Wrappers

  datatype Container<T> = Container(data: map<string, T>)

  /** The empty store. */
  function New<T>(): (c: Container<T>)
    ensures forall k :: k !in c.data
  {
    Container(map[])
  }

  /** Stores `value` under `key`, overwriting silently. */
  function Upsert<T>(c: Container<T>, key: string, value: T): (r: Container<T>)
    ensures key in r.data && r.data[key] == value
    ensures r.data.Keys == c.data.Keys + {key}
    ensures forall k :: k in c.data && k != key ==> r.data[k] == c.data[k]
  {
    Container(c.data[key := value])
  }

  /** Stores `value` under a key that must be absent. */
  function Insert<T>(c: Container<T>, key: string, value: T): (r: Result<Container<T>>)
    ensures key in c.data ==> r == Failure(DuplicateData(key))
    ensures key !in c.data ==> r.Success?
    ensures r.Success? ==> r.value.data.Keys == c.data.Keys + {key}
    ensures r.Success? ==> r.value.data[key] == value
    ensures r.Success? ==> forall k :: k in c.data ==> r.value.data[k] == c.data[k]
  {
    if key in c.data then Failure(DuplicateData(key))
    else Success(Upsert(c, key, value))
  }

  /** The value stored under `key`. */
  function Get<T>(c: Container<T>, key: string): (r: Result<T>)
    ensures key !in c.data ==> r == Failure(DataNotFound(key))
    ensures key in c.data ==> r.Success? && r.value == c.data[key]
  {
    if key in c.data then Success(c.data[key])
    else Failure(DataNotFound(key))
  }

  /** A successful insert is read back by get. */
  lemma InsertThenGet<T>(c: Container<T>, key: string, value: T)
    requires key !in c.data
    ensures Insert(c, key, value).Success?
    ensures Get(Insert(c, key, value).value, key) == Success(value)
  {
  }

  /** Insert on a present key changes nothing: the caller keeps `c`. */
  lemma InsertDuplicateFails<T>(c: Container<T>, key: string, value: T)
    requires key in c.data
    ensures Insert(c, key, value) == Failure(DuplicateData(key))
    ensures Get(c, key) == Success(c.data[key])
  {
  }

  /** Upsert is seen by get under its key and invisible under every other. */
  lemma UpsertThenGet<T>(c: Container<T>, key: string, value: T, other: string)
    ensures Get(Upsert(c, key, value), key) == Success(value)
    ensures other != key ==> Get(Upsert(c, key, value), other) == Get(c, other)
  {
  }
}

=== FILE: erased_container.dfy ===
/** The type-erased named store: each value is kept next to the tag of its
    runtime type, and a lookup names the type it expects. */
module ErasedContainer {
  import opened Wrappers

  /** A stored value with the tag of its type. */
  datatype Boxed<P> = Boxed(ty: TypeTag, payload: P)

  datatype Container<P> = Container(data: map<string, Boxed<P>>)

  /** The empty store. */
  function New<P>(): (c: Container<P>)
    ensures forall k :: k !in c.data
  {
    Container(map[])
  }

  /** Stores `value` of type `ty` under `key`, overwriting silently. */
  function Upsert<P>(c: Container<P>, key: string, ty: TypeTag, value: P): (r: Container<P>)
    ensures key in r.data && r.data[key] == Boxed(ty, value)
    ensures r.data.Keys == c.data.Keys + {key}
    ensures forall k :: k in c.data && k != key ==> r.data[k] == c.data[k]
  {
    Container(c.data[key := Boxed(ty, value)])
  }

  /** Stores `value` of type `ty` under a key that must be absent. */
  function Insert<P>(c: Container<P>, key: string, ty: TypeTag, value: P): (r: Result<Container<P>>)
    ensures key in c.data ==> r == Failure(DuplicateData(key))
    ensures key !in c.data ==> r.Success?
    ensures r.Success? ==> r.value.data.Keys == c.data.Keys + {key}
    ensures r.Success? ==> r.value.data[key] == Boxed(ty, value)
    ensures r.Success? ==> forall k :: k in c.data ==> r.value.data[k] == c.data[k]
  {
    if key in c.data then Failure(DuplicateData(key))
    else Success(Upsert(c, key, ty, value))
  }

  /** The value under `key`, provided it was stored at type `requested`. */
  function Get<P>(c: Container<P>, key: string, requested: TypeTag): (r: Result<P>)
    ensures key !in c.data ==> r == Failure(DataNotFound(key))
    ensures key in c.data ==> (r.Success? <==> c.data[key].ty == requested)
    ensures r.Success? ==> r.value == c.data[key].payload
    ensures key in c.data && c.data[key].ty != requested ==>
              r == Failure(DataTypeMismatch(key, requested, c.data[key].ty))
  {
    if key !in c.data then Failure(DataNotFound(key))
    else
      var b := c.data[key];
      if b.ty == requested then Success(b.payload)
      else Failure(DataTypeMismatch(key, requested, b.ty))
  }

  /** After an insert at type `ty`, get at `ty` returns the value and get at
      any other type reports the mismatch with both tags. */
  lemma InsertThenGet<P>(c: Container<P>, key: string, ty: TypeTag, value: P, other: TypeTag)
    requires key !in c.data
    ensures Insert(c, key, ty, value).Success?
    ensures Get(Insert(c, key, ty, value).value, key, ty) == Success(value)
    ensures other != ty ==>
              Get(Insert(c, key, ty, value).value, key, other) == Failure(DataTypeMismatch(key, other, ty))
  {
  }

  /** Upsert replaces both the value and its type tag. */
  lemma UpsertRetypes<P>(c: Container<P>, key: string, ty: TypeTag, value: P)
    ensures Get(Upsert(c, key, ty, value), key, ty) == Success(value)
  {
  }
}

=== FILE: legacy.dfy ===
/** The first, strict version of `Pipeline::from_nodes`: nodes carry plain
    lists of input and output names and no function, and every problem
    panics instead of returning an error. A repeated output panics, an input
    no node produces panics, and a cycle panics. The wiring is the same as
    in the current version, so the model reads each strict node as a node
    with list ports and reuses that wiring. */
module Legacy {
  import opened Wrappers
  import opened Names
  import opened Sources
  import opened GenericContainer
  import opened Nodes
  import opened TopoSort
  import opened Pipelines
  import opened BuildFacts
  import opened QueryFacts

  datatype StrictNode = StrictNode(id: NodeId, inputs: seq<Source>, outputs: seq<Source>)

  /** The three panics of the strict constructor. */
  datatype Panic = DuplicateOutput | NoSourceNode | CannotSort

  /** The message each panic prints. */
  function Message(p: Panic): string {
    match p
    case DuplicateOutput => "Duplicate output"
    case NoSourceNode => "No source node found"
    case CannotSort => "Can't topologically sort"
  }

  /** How the strict constructor ends: the sorted nodes, or a panic. */
  datatype Outcome = Built(nodes: seq<StrictNode>) | Panicked(reason: Panic)

  /** A strict node seen as a node with list ports, no tags, no namespace
      and a function that changes nothing (the strict node has none). */
  function AsNode(n: StrictNode): (r: Node<()>)
    ensures r.id == n.id && Inputs(r.inputs) == n.inputs && Outputs(r.outputs) == n.outputs
  {
    Node(n.id, List(n.inputs), List(n.outputs), [], c => Success(c), None)
  }

  function AsNodes(nodes: seq<StrictNode>): (r: seq<Node<()>>)
    ensures |r| == |nodes| && forall i :: 0 <= i < |nodes| ==> r[i] == AsNode(nodes[i])
  {
    seq(|nodes|, i requires 0 <= i < |nodes| => AsNode(nodes[i]))
  }

  /** Every input of every node that no node declares as an output. */
  function Unproduced(nodes: seq<StrictNode>): seq<Source> {
    Without(InputNames(AsNodes(nodes)), OutputNames(AsNodes(nodes)))
  }

  /** A node with list ports read back as a strict node. */
  function AsStrict(n: Node<()>): (r: StrictNode)
    ensures r.id == n.id && r.inputs == Inputs(n.inputs) && r.outputs == Outputs(n.outputs)
  {
    StrictNode(n.id, Inputs(n.inputs), Outputs(n.outputs))
  }

  function AsStricts(nodes: seq<Node<()>>): (r: seq<StrictNode>)
    ensures |r| == |nodes| && forall i :: 0 <= i < |nodes| ==> r[i] == AsStrict(nodes[i])
  {
    seq(|nodes|, i requires 0 <= i < |nodes| => AsStrict(nodes[i]))
  }

  /** Reading a strict node as a node and back gives it unchanged. */
  lemma AsStrictsAsNodes(nodes: seq<StrictNode>)
    ensures AsStricts(AsNodes(nodes)) == nodes
  {
  }

  /** The strict `Pipeline::from_nodes`: the producer map panics on a
      repeated output, the edge loop panics on an input without producer,
      and the sort panics on a cycle; the graph and the order are those of
      the current constructor. */
  function StrictFromNodes(nodes: seq<StrictNode>): (r: Outcome)
    ensures r.Built? ==> |r.nodes| == |nodes|
  {
    var lifted := AsNodes(nodes);
    if Wire(lifted).Failure? then Panicked(DuplicateOutput)
    else if Unproduced(nodes) != [] then Panicked(NoSourceNode)
    else
      match FromNodes(lifted)
      case Failure(_) => Panicked(CannotSort)
      case Success(p) => Built(AsStricts(p.nodes))
  }

  /** A successful strict build stores a permutation of the nodes given:
      every node kept exactly once, none added. */
  lemma StrictBuildRearranges(nodes: seq<StrictNode>) returns (order: seq<nat>)
    requires StrictFromNodes(nodes).Built?
    ensures IsPermutation(order, |nodes|) && |StrictFromNodes(nodes).nodes| == |nodes|
    ensures forall k :: 0 <= k < |nodes| ==> order[k] < |nodes| && StrictFromNodes(nodes).nodes[k] == nodes[order[k]]
  {
    var lifted := AsNodes(nodes);
    order := BuildRearranges(lifted, FromNodes(lifted).value);
    AsStrictsAsNodes(nodes);
  }

  /** Some node reads `x` and no node declares it. */
  ghost predicate Missing(nodes: seq<StrictNode>, x: Source) {
    && (exists i :: 0 <= i < |nodes| && x in nodes[i].inputs)
    && forall j :: 0 <= j < |nodes| ==> x !in nodes[j].outputs
  }

  /** The unproduced names are exactly the missing ones. */
  lemma UnproducedMissing(nodes: seq<StrictNode>, x: Source)
    ensures x in Unproduced(nodes) <==> Missing(nodes, x)
  {
    var lifted := AsNodes(nodes);
    InputNamesMember(lifted, x);
    OutputNamesMember(lifted, x);
    if x in InputNames(lifted) {
      var i :| 0 <= i < |lifted| && x in Inputs(lifted[i].inputs);
      assert x in nodes[i].inputs;
    }
    if exists i :: 0 <= i < |nodes| && x in nodes[i].inputs {
      var i :| 0 <= i < |nodes| && x in nodes[i].inputs;
      assert x in Inputs(lifted[i].inputs);
    }
    if x in OutputNames(lifted) {
      var j :| 0 <= j < |lifted| && x in Outputs(lifted[j].outputs);
      assert x in nodes[j].outputs;
    }
  }

  /** No name is unproduced exactly when nothing is missing. */
  lemma UnproducedEmpty(nodes: seq<StrictNode>)
    ensures Unproduced(nodes) == [] <==> forall x :: !Missing(nodes, x)
  {
    forall x ensures x in Unproduced(nodes) <==> Missing(nodes, x) {
      UnproducedMissing(nodes, x);
    }
    if Unproduced(nodes) != [] {
      assert Missing(nodes, Unproduced(nodes)[0]);
    }
  }

  /** The strict constructor panics with "Duplicate output" exactly when
      some output name is declared twice. */
  lemma StrictDuplicatePanics(nodes: seq<StrictNode>)
    ensures StrictFromNodes(nodes) == Panicked(DuplicateOutput) <==> !Distinct(OutputNames(AsNodes(nodes)))
  {
    WireSucceedsIff(AsNodes(nodes));
  }

  /** With outputs declared once, it panics with "No source node found"
      exactly when some input is declared by no node. */
  lemma StrictMissingSourcePanics(nodes: seq<StrictNode>)
    requires Distinct(OutputNames(AsNodes(nodes)))
    ensures StrictFromNodes(nodes) == Panicked(NoSourceNode) <==> exists x :: Missing(nodes, x)
  {
    WireSucceedsIff(AsNodes(nodes));
    assert StrictFromNodes(nodes) == Panicked(NoSourceNode) <==> Unproduced(nodes) != [];
    UnproducedEmpty(nodes);
  }

  /** Once the duplicate and missing-source checks pass, the strict
      constructor builds exactly when the current one does, and stores the
      same nodes in the same order. */
  lemma StrictMatchesCurrent(nodes: seq<StrictNode>)
    ensures StrictFromNodes(nodes).Built? ==>
      && FromNodes(AsNodes(nodes)).Success?
      && FromNodes(AsNodes(nodes)).value.nodes == AsNodes(StrictFromNodes(nodes).nodes)
    ensures Wire(AsNodes(nodes)).Success? && Unproduced(nodes) == [] ==>
      (StrictFromNodes(nodes).Built? <==> FromNodes(AsNodes(nodes)).Success?)
    ensures Wire(AsNodes(nodes)).Success? && Unproduced(nodes) == [] && StrictFromNodes(nodes).Panicked? ==>
      StrictFromNodes(nodes).reason == CannotSort
  {
    var lifted := AsNodes(nodes);
    if StrictFromNodes(nodes).Built? {
      var p := FromNodes(lifted).value;
      var order := BuildRearranges(lifted, p);
      var out := StrictFromNodes(nodes).nodes;
      forall k | 0 <= k < |out| ensures AsNodes(out)[k] == p.nodes[k] {
        assert p.nodes[k] == lifted[order[k]];
      }
    }
  }

  /** With distinct ids, outputs declared once and every input produced, it
      builds exactly when some arrangement of the nodes puts producers
      first, and panics with "Can't topologically sort" otherwise. */
  lemma StrictBuildsIffOrderExists(nodes: seq<StrictNode>)
    requires DistinctIds(AsNodes(nodes)) && Distinct(OutputNames(AsNodes(nodes)))
    requires forall x :: !Missing(nodes, x)
    ensures StrictFromNodes(nodes).Built? <==> CanOrder(AsNodes(nodes))
    ensures StrictFromNodes(nodes).Panicked? ==> StrictFromNodes(nodes).reason == CannotSort
  {
    WireSucceedsIff(AsNodes(nodes));
    if Unproduced(nodes) != [] {
      UnproducedMissing(nodes, Unproduced(nodes)[0]);
    }
    StrictMatchesCurrent(nodes);
    BuildsIffOrderExists(AsNodes(nodes));
  }

  /** A strict build in which every input is produced by an earlier node. */
  ghost predicate FedInOrder(out: seq<StrictNode>) {
    FedBefore(AsNodes(out))
  }

  /** When the strict constructor builds, every input of every stored node
      is produced by a node stored before it. */
  lemma StrictBuildFeedsInOrder(nodes: seq<StrictNode>)
    requires DistinctIds(AsNodes(nodes))
    requires StrictFromNodes(nodes).Built?
    ensures FedInOrder(StrictFromNodes(nodes).nodes)
  {
    var lifted := AsNodes(nodes);
    var out := StrictFromNodes(nodes).nodes;
    StrictMatchesCurrent(nodes);
    var p := FromNodes(lifted).value;
    var order := BuildRearranges(lifted, p);
    BuildPutsProducersFirst(lifted, p);
    assert Unproduced(nodes) == [];
    var stored := AsNodes(out);
    forall j, x | 0 <= j < |stored| && x in Inputs(stored[j].inputs)
      ensures exists i :: 0 <= i < j && x in Outputs(stored[i].outputs)
    {
      assert p.nodes[j] == AsNode(out[j]) == stored[j];
      ProducedSomewhere(nodes, out, order, j, x);
      var i :| 0 <= i < |out| && x in out[i].outputs;
      assert p.nodes[i] == AsNode(out[i]) == stored[i];
      assert Feeds(p.nodes[i], p.nodes[j], x);
    }
  }

  /** In a rearrangement of nodes with nothing missing, every input of a
      stored node is an output of some stored node. */
  lemma ProducedSomewhere(nodes: seq<StrictNode>, out: seq<StrictNode>, order: seq<nat>, j: nat, x: Source)
    requires Unproduced(nodes) == []
    requires RearrangedBy(AsNodes(out), AsNodes(nodes), order)
    requires j < |out| && x in out[j].inputs
    ensures exists i :: 0 <= i < |out| && x in out[i].outputs
  {
    var src := order[j];
    assert AsNodes(out)[j] == AsNodes(nodes)[src];
    assert x in nodes[src].inputs;
    UnproducedMissing(nodes, x);
    var i0 :| 0 <= i0 < |nodes| && x in nodes[i0].outputs;
    assert i0 in order;
    var i :| 0 <= i < |order| && order[i] == i0;
    assert AsNodes(out)[i] == AsNodes(nodes)[i0];
    assert x in out[i].outputs;
  }
}

=== FILE: names.dfy ===
/** Names of data slots (`Source`), their lexicographic order, and the
    sequence utilities the surface queries use: sorting and deduplication. */
module Names {

  /** A data-slot name. `Source::Id(String)` derives equality and hashing
      from its string. No ordering is declared in the files modelled; the
      `sort()` calls of the surface queries need one, and the model takes
      the string's. */
  datatype Source = Id(id: string)

  /** Derived equality on `Source`: two names are equal exactly when their
      strings are. */
  lemma SourceEquality(a: Source, b: Source)
    ensures a == b <==> a.id == b.id
  {
  }

  /** The name "{ns}.{n}" a namespace gives to `n`. */
  function Namespaced(ns: string, n: Source): (r: Source)
    ensures |r.id| == |ns| + 1 + |n.id|
  {
    Id(ns + "." + n.id)
  }

  /** Namespacing is injective, so it neither creates nor hides duplicates. */
  lemma NamespacedInjective(ns: string, a: Source, b: Source)
    ensures Namespaced(ns, a) == Namespaced(ns, b) <==> a == b
  {
    if Namespaced(ns, a) == Namespaced(ns, b) {
      var p := ns + ".";
      assert a.id == (p + a.id)[|p|..];
      assert b.id == (p + b.id)[|p|..];
    }
  }

  // ---------------------------------------------------------------------
  // Lexicographic order (String's `Ord`, character by character).
  // ---------------------------------------------------------------------

  /** `a` is lexicographically at most `b`. */
  predicate StrLe(a: string, b: string)
    decreases |a|
  {
    if |a| == 0 then true
    else if |b| == 0 then false
    else if a[0] != b[0] then a[0] < b[0]
    else StrLe(a[1..], b[1..])
  }

  lemma {:induction false} StrLeTotal(a: string, b: string)
    ensures StrLe(a, b) || StrLe(b, a)
    decreases |a|
  {
    if |a| != 0 && |b| != 0 && a[0] == b[0] {
      StrLeTotal(a[1..], b[1..]);
    }
  }

  lemma {:induction false} StrLeAntisymmetric(a: string, b: string)
    requires StrLe(a, b) && StrLe(b, a)
    ensures a == b
    decreases |a|
  {
    if |a| != 0 {
      StrLeAntisymmetric(a[1..], b[1..]);
      assert a == [a[0]] + a[1..];
      assert b == [b[0]] + b[1..];
    }
  }

  lemma {:induction false} StrLeTransitive(a: string, b: string, c: string)
    requires StrLe(a, b) && StrLe(b, c)
    ensures StrLe(a, c)
    decreases |a|
  {
    if |a| != 0 && |c| != 0 && a[0] == b[0] && b[0] == c[0] {
      StrLeTransitive(a[1..], b[1..], c[1..]);
    }
  }

  /** A common prefix does not change how two strings compare. */
  lemma {:induction false} StrLeCommonPrefix(p: string, a: string, b: string)
    ensures StrLe(p + a, p + b) == StrLe(a, b)
    decreases |p|
  {
    if |p| != 0 {
      assert (p + a)[1..] == p[1..] + a;
      assert (p + b)[1..] == p[1..] + b;
      StrLeCommonPrefix(p[1..], a, b);
    } else {
      assert p + a == a && p + b == b;
    }
  }

  /** Order on names. */
  predicate Le(a: Source, b: Source) {
    StrLe(a.id, b.id)
  }

  predicate Sorted(s: seq<Source>) {
    forall i, j :: 0 <= i < j < |s| ==> Le(s[i], s[j])
  }

  ghost predicate Distinct<X>(s: seq<X>) {
    forall i, j :: 0 <= i < j < |s| ==> s[i] != s[j]
  }

  // ---------------------------------------------------------------------
  // Sorting (`Vec::sort`): any sorting algorithm yields the same sequence,
  // see SortedPermutationUnique, so insertion sort stands for it.
  // ---------------------------------------------------------------------

  function InsertSorted(x: Source, s: seq<Source>): (r: seq<Source>)
    requires Sorted(s)
    ensures Sorted(r)
    ensures multiset(r) == multiset(s) + multiset{x}
  {
    if s == [] then [x]
    else if Le(x, s[0]) then
      assert forall j :: 0 <= j < |s| ==> Le(x, s[j]) by {
        forall j | 0 <= j < |s| ensures Le(x, s[j]) {
          if j > 0 { StrLeTransitive(x.id, s[0].id, s[j].id); }
        }
      }
      [x] + s
    else
      var t := InsertSorted(x, s[1..]);
      StrLeTotal(x.id, s[0].id);
      assert s == [s[0]] + s[1..];
      HeadBelowInsert(x, s, t);
      [s[0]] + t
  }

  /** The head of a sorted list is below everything its tail holds with a
      larger name inserted. */
  lemma HeadBelowInsert(x: Source, s: seq<Source>, t: seq<Source>)
    requires Sorted(s) && |s| > 0 && Le(s[0], x)
    requires multiset(t) == multiset(s[1..]) + multiset{x}
    ensures forall j :: 0 <= j < |t| ==> Le(s[0], t[j])
  {
    forall j | 0 <= j < |t| ensures Le(s[0], t[j]) {
      var y := t[j];
      assert y in multiset(t);
      assert y in multiset(s[1..]) || y == x;
      if y != x {
        var k :| 0 <= k < |s[1..]| && s[1..][k] == y;
        assert s[k + 1] == y;
      }
    }
  }

  /** The sorted rearrangement of `s`. */
  function Sort(s: seq<Source>): (r: seq<Source>)
    ensures Sorted(r)
    ensures multiset(r) == multiset(s)
  {
    if s == [] then []
    else
      assert s == [s[0]] + s[1..];
      InsertSorted(s[0], Sort(s[1..]))
  }

  /** A sorted permutation is unique: whatever sort the source calls, its
      result equals Sort. */
  lemma {:induction false} SortedPermutationUnique(a: seq<Source>, b: seq<Source>)
    requires Sorted(a) && Sorted(b)
    requires multiset(a) == multiset(b)
    ensures a == b
    decreases |a|
  {
    if |a| == 0 {
      assert |b| == |multiset(b)| == 0;
    } else {
      assert |b| == |multiset(b)| == |multiset(a)| == |a|;
      assert b[0] in multiset(a);
      var i :| 0 <= i < |a| && a[i] == b[0];
      assert a[0] in multiset(b);
      var j :| 0 <= j < |b| && b[j] == a[0];
      assert Le(a[0], b[0]) by {
        if i > 0 { } else { StrLeTotal(a[0].id, a[0].id); }
      }
      assert Le(b[0], a[0]) by {
        if j > 0 { } else { StrLeTotal(b[0].id, b[0].id); }
      }
      StrLeAntisymmetric(a[0].id, b[0].id);
      assert a[0] == b[0];
      MultisetTail(a);
      MultisetTail(b);
      SortedPermutationUnique(a[1..], b[1..]);
    }
  }

  lemma MultisetTail<X>(a: seq<X>)
    requires |a| > 0
    ensures multiset(a[1..]) == multiset(a) - multiset{a[0]}
  {
    assert a == [a[0]] + a[1..];
    assert multiset(a) == multiset{a[0]} + multiset(a[1..]);
  }

  /** Any sorted rearrangement of `s` is Sort(s). */
  lemma SortIsOnlySortedPermutation(s: seq<Source>, r: seq<Source>)
    requires Sorted(r) && multiset(r) == multiset(s)
    ensures r == Sort(s)
  {
    SortedPermutationUnique(r, Sort(s));
  }

  // ---------------------------------------------------------------------
  // Namespacing a sequence of names.
  // ---------------------------------------------------------------------

  function PrefixAll(ns: string, s: seq<Source>): (r: seq<Source>)
    ensures |r| == |s|
    ensures forall i :: 0 <= i < |s| ==> r[i] == Namespaced(ns, s[i])
  {
    if s == [] then [] else [Namespaced(ns, s[0])] + PrefixAll(ns, s[1..])
  }

  /** Namespacing a concatenation namespaces each part. */
  lemma PrefixAllAppend(ns: string, a: seq<Source>, b: seq<Source>)
    ensures PrefixAll(ns, a + b) == PrefixAll(ns, a) + PrefixAll(ns, b)
  {
    var l := PrefixAll(ns, a + b);
    var pa, pb := PrefixAll(ns, a), PrefixAll(ns, b);
    var r := pa + pb;
    assert |l| == |r|;
    forall i | 0 <= i < |l| ensures l[i] == r[i] {
      if i < |a| {
        assert (a + b)[i] == a[i] && r[i] == pa[i];
      } else {
        assert (a + b)[i] == b[i - |a|] && r[i] == pb[i - |a|];
      }
    }
  }

  /** A namespaced name is among the namespaced names exactly when the
      original name is among the originals, and only namespaced names are. */
  lemma PrefixAllMember(ns: string, s: seq<Source>, y: Source)
    ensures y in PrefixAll(ns, s) <==> exists x :: x in s && y == Namespaced(ns, x)
    ensures forall x :: Namespaced(ns, x) in PrefixAll(ns, s) <==> x in s
  {
    var ps := PrefixAll(ns, s);
    if y in ps {
      var i :| 0 <= i < |ps| && ps[i] == y;
      assert s[i] in s;
    }
    forall x ensures Namespaced(ns, x) in ps <==> x in s {
      if Namespaced(ns, x) in ps {
        var i :| 0 <= i < |ps| && ps[i] == Namespaced(ns, x);
        NamespacedInjective(ns, s[i], x);
      }
      if x in s {
        var i :| 0 <= i < |s| && s[i] == x;
        assert ps[i] == Namespaced(ns, x);
      }
    }
  }

  /** Namespacing neither creates nor hides repeats. */
  lemma PrefixAllDistinct(ns: string, s: seq<Source>)
    ensures Distinct(PrefixAll(ns, s)) <==> Distinct(s)
  {
    var ps := PrefixAll(ns, s);
    forall i, j | 0 <= i < j < |s| ensures ps[i] == ps[j] <==> s[i] == s[j] {
      NamespacedInjective(ns, s[i], s[j]);
    }
  }

  lemma NamespacedLe(ns: string, a: Source, b: Source)
    ensures Le(Namespaced(ns, a), Namespaced(ns, b)) == Le(a, b)
  {
    assert Namespaced(ns, a).id == (ns + ".") + a.id;
    assert Namespaced(ns, b).id == (ns + ".") + b.id;
    StrLeCommonPrefix(ns + ".", a.id, b.id);
  }

  lemma {:induction false} InsertSortedPrefix(ns: string, x: Source, s: seq<Source>)
    requires Sorted(s)
    ensures Sorted(PrefixAll(ns, s))
    ensures InsertSorted(Namespaced(ns, x), PrefixAll(ns, s)) == PrefixAll(ns, InsertSorted(x, s))
    decreases |s|
  {
    var ps := PrefixAll(ns, s);
    forall i, j | 0 <= i < j < |ps| ensures Le(ps[i], ps[j]) {
      NamespacedLe(ns, s[i], s[j]);
    }
    if s != [] {
      NamespacedLe(ns, x, s[0]);
      if !Le(x, s[0]) {
        InsertSortedPrefix(ns, x, s[1..]);
        assert ps[1..] == PrefixAll(ns, s[1..]);
      }
    }
  }

  /** Sorting commutes with namespacing: the namespace prefix preserves order. */
  lemma {:induction false} SortPrefix(ns: string, s: seq<Source>)
    ensures Sort(PrefixAll(ns, s)) == PrefixAll(ns, Sort(s))
    decreases |s|
  {
    if s != [] {
      var ps := PrefixAll(ns, s);
      assert ps[1..] == PrefixAll(ns, s[1..]);
      SortPrefix(ns, s[1..]);
      InsertSortedPrefix(ns, s[0], Sort(s[1..]));
    }
  }

  // ---------------------------------------------------------------------
  // Deduplication by "push unless already contained".
  // ---------------------------------------------------------------------

  /** Appends to `acc` each element of `s` not already present, in order. */
  function PushNew(acc: seq<Source>, s: seq<Source>): (r: seq<Source>)
    requires Distinct(acc)
    ensures Distinct(r)
    ensures forall x :: x in r <==> x in acc || x in s
    ensures |r| >= |acc| && r[..|acc|] == acc
    decreases |s|
  {
    if s == [] then acc
    else if s[0] in acc then PushNew(acc, s[1..])
    else
      var r := PushNew(acc + [s[0]], s[1..]);
      assert r[..|acc|] == (r[..|acc| + 1])[..|acc|];
      r
  }

  /** A sorted duplicate-free sequence is strictly increasing. */
  lemma SortKeepsDistinct(s: seq<Source>)
    requires Distinct(s)
    ensures Distinct(Sort(s))
  {
    var r := Sort(s);
    forall i, j | 0 <= i < j < |r| ensures r[i] != r[j] {
      if r[i] == r[j] {
        assert r == r[..j] + r[j..];
        assert r[i] in multiset(r[..j]);
        assert r[j] in multiset(r[j..]);
        assert multiset(r)[r[i]] >= 2;
        DistinctCountAtMostOne(s, r[i]);
      }
    }
  }

  lemma {:induction false} DistinctCountAtMostOne(s: seq<Source>, x: Source)
    requires Distinct(s)
    ensures multiset(s)[x] <= 1
    decreases |s|
  {
    if s != [] {
      assert s == [s[0]] + s[1..];
      DistinctCountAtMostOne(s[1..], x);
      if s[0] == x {
        assert x !in s[1..];
      }
    }
  }
}

=== FILE: node.dfy ===
/** A node: an identity, an input port spec, an output port spec, a function
    from the store it is shown to the store it produces, tags and a
    namespace. The function is opaque: any total Dafny function value. */
module Nodes {
  import opened Wrappers
  import opened Names
  import opened Sources
  import opened GenericContainer

  /** A node identity; the source mints random 128-bit ids, the model
      counts. */
  type NodeId = nat

  datatype Node<!T> = Node(
    id: NodeId,
    inputs: NodeSources,
    outputs: NodeSources,
    tags: seq<string>,
    func: Container<T> -> Result<Container<T>>,
    namespace: Option<string>)

  /** The supply of fresh ids: every id handed out so far is below `next`. */
  datatype Mint = Mint(next: nat)

  /** Every node of `nodes` got its id from `m` before now. */
  ghost predicate MintedBefore<T>(nodes: seq<Node<T>>, m: Mint) {
    forall i :: 0 <= i < |nodes| ==> nodes[i].id < m.next
  }

  /** No two nodes share an id. */
  ghost predicate DistinctIds<T>(nodes: seq<Node<T>>) {
    forall i, j :: 0 <= i < j < |nodes| ==> nodes[i].id != nodes[j].id
  }

  /** `Node::new`: the given ports and function, a fresh id, no tags and no
      namespace. Returns the advanced id supply alongside. */
  function New<T>(m: Mint, inputs: NodeSources, outputs: NodeSources,
                  func: Container<T> -> Result<Container<T>>): (r: (Node<T>, Mint))
    ensures r.0.inputs == inputs && r.0.outputs == outputs && r.0.func == func
    ensures r.0.tags == [] && r.0.namespace == None
    ensures m.next <= r.0.id < r.1.next
  {
    (Node(m.next, inputs, outputs, [], func, None), Mint(m.next + 1))
  }

  /** A node made by `New` has an id no earlier node has, and the supply
      stays ahead of every id handed out, so ids stay pairwise distinct. */
  lemma NewIsFresh<T>(existing: seq<Node<T>>, m: Mint, inputs: NodeSources, outputs: NodeSources,
                      func: Container<T> -> Result<Container<T>>)
    requires MintedBefore(existing, m)
    requires DistinctIds(existing)
    ensures forall i :: 0 <= i < |existing| ==> existing[i].id != New(m, inputs, outputs, func).0.id
    ensures MintedBefore(existing + [New(m, inputs, outputs, func).0], New(m, inputs, outputs, func).1)
    ensures DistinctIds(existing + [New(m, inputs, outputs, func).0])
  {
    var all := existing + [New(m, inputs, outputs, func).0];
    forall i, j | 0 <= i < j < |all| ensures all[i].id != all[j].id {
      if j == |existing| {
        assert all[i] == existing[i];
      } else {
        assert all[i] == existing[i] && all[j] == existing[j];
      }
    }
  }

  /** `Node::tag`: one more tag at the end; everything else as it was. */
  function Tag<T>(n: Node<T>, t: string): (r: Node<T>)
    ensures r.tags == n.tags + [t]
    ensures r.id == n.id && r.inputs == n.inputs && r.outputs == n.outputs
    ensures r.func == n.func && r.namespace == n.namespace
  {
    n.(tags := n.tags + [t])
  }
}

=== FILE: pipeline.dfy ===
/** The pipeline: a validated DAG over nodes. `FromNodes` checks that no
    external output is declared twice, wires producers to consumers by name
    and orders the nodes topologically; `Run` threads a store through the
    ordered nodes; the surface queries report free inputs, terminal outputs
    and all outputs; `Add` and `WithNamespace` build new pipelines. */
module Pipelines {
  import opened Wrappers
  import opened Names
  import opened Sources
  import opened GenericContainer
  import opened Nodes
  import opened TopoSort

  /** The graph kept by a pipeline: vertex `i` carries the id of the `i`-th
      node handed to `FromNodes`; edges are named by the datum they carry. */
  datatype Graph = Graph(weights: seq<NodeId>, edges: seq<Edge>)

  /** `nodes` in execution order, and the graph they were wired into. */
  datatype Pipeline<!T> = Pipeline(nodes: seq<Node<T>>, graph: Graph)

  /** What `FromNodes` guarantees of the pipelines it returns: every node's
      id names a vertex and every edge joins two vertices. */
  ghost predicate WellFormed<T>(p: Pipeline<T>) {
    && (forall i :: 0 <= i < |p.nodes| ==> p.nodes[i].id in p.graph.weights)
    && EdgesWithin(|p.graph.weights|, p.graph.edges)
  }

  // =======================================================================
  // Building (`Pipeline::from_nodes`).
  // =======================================================================

  /** The node ids in argument order: the vertex weights. */
  function Ids<T>(nodes: seq<Node<T>>): (r: seq<NodeId>)
    ensures |r| == |nodes|
    ensures forall i :: 0 <= i < |nodes| ==> r[i] == nodes[i].id
  {
    seq(|nodes|, i requires 0 <= i < |nodes| => nodes[i].id)
  }

  /** Every external output name of every node, node by node. */
  function OutputNames<T>(nodes: seq<Node<T>>): seq<Source> {
    if nodes == [] then [] else Outputs(nodes[0].outputs) + OutputNames(nodes[1..])
  }

  /** Every external input name of every node, node by node. */
  function InputNames<T>(nodes: seq<Node<T>>): seq<Source> {
    if nodes == [] then [] else Inputs(nodes[0].inputs) + InputNames(nodes[1..])
  }

  /** A name is an output of the list exactly when some node declares it. */
  lemma {:induction false} OutputNamesMember<T>(nodes: seq<Node<T>>, x: Source)
    ensures x in OutputNames(nodes) <==> exists j :: 0 <= j < |nodes| && x in Outputs(nodes[j].outputs)
    decreases |nodes|
  {
    if nodes != [] {
      OutputNamesMember(nodes[1..], x);
      assert forall j :: 1 <= j < |nodes| ==> nodes[j] == nodes[1..][j - 1];
    }
  }

  /** A name is an input of the list exactly when some node declares it. */
  lemma {:induction false} InputNamesMember<T>(nodes: seq<Node<T>>, x: Source)
    ensures x in InputNames(nodes) <==> exists j :: 0 <= j < |nodes| && x in Inputs(nodes[j].inputs)
    decreases |nodes|
  {
    if nodes != [] {
      InputNamesMember(nodes[1..], x);
      assert forall j :: 1 <= j < |nodes| ==> nodes[j] == nodes[1..][j - 1];
    }
  }

  /** Node `a` declares external output `x` and node `b` declares it as an
      input: `x` flows from `a` to `b`. */
  ghost predicate Feeds<T>(a: Node<T>, b: Node<T>, x: Source) {
    x in Outputs(a.outputs) && x in Inputs(b.inputs)
  }

  /** Every node comes after every node that feeds it (so no node feeds
      itself). */
  ghost predicate ProducersFirst<T>(nodes: seq<Node<T>>) {
    forall i, j, x :: 0 <= i < |nodes| && 0 <= j < |nodes| && Feeds(nodes[i], nodes[j], x) ==> i < j
  }

  /** Every input of every node is an output of an earlier node. */
  ghost predicate FedBefore<T>(nodes: seq<Node<T>>) {
    forall j, x :: 0 <= j < |nodes| && x in Inputs(nodes[j].inputs) ==>
      exists i :: 0 <= i < j && x in Outputs(nodes[i].outputs)
  }

  /** `out` is `nodes` rearranged by the permutation `order`. */
  ghost predicate RearrangedBy<T>(out: seq<Node<T>>, nodes: seq<Node<T>>, order: seq<nat>) {
    && IsPermutation(order, |nodes|)
    && |out| == |nodes|
    && forall k :: 0 <= k < |out| ==> order[k] < |nodes| && out[k] == nodes[order[k]]
  }

  /** One declared output and the id of the node declaring it. */
  datatype Production = Production(name: Source, node: NodeId)

  /** The declared outputs with their nodes, in the order the builder visits
      them: node by node, each node's outputs in order. */
  function Productions<T>(nodes: seq<Node<T>>): (r: seq<Production>)
    ensures |r| == |OutputNames(nodes)|
    ensures forall i :: 0 <= i < |r| ==> r[i].name == OutputNames(nodes)[i]
  {
    if nodes == [] then []
    else
      var outs := Outputs(nodes[0].outputs);
      seq(|outs|, k requires 0 <= k < |outs| => Production(outs[k], nodes[0].id)) + Productions(nodes[1..])
  }

  /** Records each production in the producer map, in order; a name that is
      already there is reported as `DuplicateData`. */
  function Register(acc: map<Source, NodeId>, ps: seq<Production>): (r: Result<map<Source, NodeId>>)
    ensures r.Success? ==> r.value.Keys == acc.Keys + ProducedNames(ps)
    ensures r.Failure? ==> exists i :: 0 <= i < |ps| && r.error == DuplicateData(ps[i].name.id)
    decreases |ps|
  {
    if ps == [] then Success(acc)
    else if ps[0].name in acc then Failure(DuplicateData(ps[0].name.id))
    else Register(acc[ps[0].name := ps[0].node], ps[1..])
  }

  /** The names of a run of productions, as a set. */
  function ProducedNames(ps: seq<Production>): (r: set<Source>)
    ensures forall x :: x in r <==> exists i :: 0 <= i < |ps| && ps[i].name == x
  {
    if ps == [] then {}
    else
      var r := {ps[0].name} + ProducedNames(ps[1..]);
      assert forall i :: 1 <= i < |ps| ==> ps[i] == ps[1..][i - 1];
      r
  }

  /** A successful registration maps every name to the node that declared it
      and keeps what was there before. */
  lemma {:induction false} RegisterMaps(acc: map<Source, NodeId>, ps: seq<Production>)
    requires Register(acc, ps).Success?
    ensures forall x :: x in acc ==> Register(acc, ps).value[x] == acc[x]
    ensures forall i :: 0 <= i < |ps| ==> Register(acc, ps).value[ps[i].name] == ps[i].node
    decreases |ps|
  {
    if ps != [] {
      RegisterMaps(acc[ps[0].name := ps[0].node], ps[1..]);
      forall i | 0 <= i < |ps| ensures Register(acc, ps).value[ps[i].name] == ps[i].node {
        if i > 0 { assert ps[i] == ps[1..][i - 1]; }
      }
    }
  }

  /** The vertex of a node id while wiring: the map from id to vertex keeps
      the last vertex inserted with that id. */
  function LastVertexOf(weights: seq<NodeId>, id: NodeId): (v: nat)
    requires id in weights
    ensures v < |weights| && weights[v] == id
    ensures forall j :: v < j < |weights| ==> weights[j] != id
  {
    if weights[|weights| - 1] == id then |weights| - 1
    else LastVertexOf(weights[..|weights| - 1], id)
  }

  /** The edges into consumer vertex `dst` for its inputs `ins`: one per
      input that some node produces. */
  function EdgesInto(weights: seq<NodeId>, producers: map<Source, NodeId>, dst: nat, ins: seq<Source>): (r: seq<Edge>)
    requires forall x :: x in producers ==> producers[x] in weights
    ensures forall k :: 0 <= k < |r| ==>
      && r[k].dst == dst && r[k].name in ins && r[k].name in producers
      && r[k].src == LastVertexOf(weights, producers[r[k].name])
  {
    if ins == [] then []
    else
      (if ins[0] in producers then [Edge(LastVertexOf(weights, producers[ins[0]]), dst, ins[0])] else [])
        + EdgesInto(weights, producers, dst, ins[1..])
  }

  /** The edges into consumers `c` .. |nodes|-1, consumer by consumer. */
  function EdgesFrom<T>(nodes: seq<Node<T>>, producers: map<Source, NodeId>, c: nat): (r: seq<Edge>)
    requires forall x :: x in producers ==> producers[x] in Ids(nodes)
    requires c <= |nodes|
    ensures EdgesWithin(|nodes|, r)
    decreases |nodes| - c
  {
    if c == |nodes| then []
    else
      var weights := Ids(nodes);
      assert weights[c] == nodes[c].id;
      var dst := LastVertexOf(weights, nodes[c].id);
      EdgesInto(weights, producers, dst, Inputs(nodes[c].inputs)) + EdgesFrom(nodes, producers, c + 1)
  }

  /** Every production names a node of the list and one of its outputs. */
  lemma {:induction false} ProductionsFromNodes<T>(nodes: seq<Node<T>>, i: nat)
    requires i < |Productions(nodes)|
    ensures exists j :: 0 <= j < |nodes| && Productions(nodes)[i].node == nodes[j].id
                        && Productions(nodes)[i].name in Outputs(nodes[j].outputs)
    decreases |nodes|
  {
    var outs := Outputs(nodes[0].outputs);
    if i >= |outs| {
      ProductionsFromNodes(nodes[1..], i - |outs|);
      var j :| 0 <= j < |nodes[1..]| && Productions(nodes[1..])[i - |outs|].node == nodes[1..][j].id
               && Productions(nodes[1..])[i - |outs|].name in Outputs(nodes[1..][j].outputs);
      assert nodes[j + 1] == nodes[1..][j];
    } else {
      assert Productions(nodes)[i].name == outs[i];
    }
  }

  /** The producer map of a list of nodes, or the first duplicated output. */
  function Producers<T>(nodes: seq<Node<T>>): (r: Result<map<Source, NodeId>>)
    ensures r.Success? ==> forall x :: x in r.value ==> r.value[x] in Ids(nodes)
  {
    var ps := Productions(nodes);
    var r := Register(map[], ps);
    if r.Success? then
      RegisterMaps(map[], ps);
      assert forall x :: x in r.value ==> r.value[x] in Ids(nodes) by {
        forall x | x in r.value ensures r.value[x] in Ids(nodes) {
          var i :| 0 <= i < |ps| && ps[i].name == x;
          ProductionsFromNodes(nodes, i);
        }
      }
      r
    else r
  }

  /** Steps 1-3 of the builder: the vertices, the producer map and the
      edges, or the first duplicated output. */
  function Wire<T>(nodes: seq<Node<T>>): (r: Result<Graph>)
    ensures r.Success? ==> r.value.weights == Ids(nodes) && EdgesWithin(|nodes|, r.value.edges)
  {
    var producers :- Producers(nodes);
    Success(Graph(Ids(nodes), EdgesFrom(nodes, producers, 0)))
  }

  /** The nodes in the order of the vertex sequence `order`. */
  function Reorder<T>(nodes: seq<Node<T>>, order: seq<nat>): (r: seq<Node<T>>)
    requires forall k :: 0 <= k < |order| ==> order[k] < |nodes|
    ensures |r| == |order| && forall k :: 0 <= k < |order| ==> r[k] == nodes[order[k]]
  {
    seq(|order|, k requires 0 <= k < |order| => nodes[order[k]])
  }

  /** `Pipeline::from_nodes`: wire the nodes and sort them topologically. */
  function FromNodes<T>(nodes: seq<Node<T>>): (r: Result<Pipeline<T>>)
    ensures r.Success? ==> WellFormed(r.value) && |r.value.nodes| == |nodes| && r.value.graph.weights == Ids(nodes)
    ensures r.Failure? ==> r.error == InvalidPipeline || r.error.DuplicateData?
  {
    var g :- Wire(nodes);
    match Toposort(|nodes|, g.edges)
    case None => Failure(InvalidPipeline)
    case Some(order) =>
      assert forall k :: 0 <= k < |order| ==> order[k] in order;
      var p := Pipeline(Reorder(nodes, order), g);
      assert forall i :: 0 <= i < |p.nodes| ==> p.nodes[i].id == g.weights[order[i]];
      Success(p)
  }

  // =======================================================================
  // Running (`Pipeline::run`).
  // =======================================================================

  /** The store keys a list of names denotes. */
  function NameKeys(s: seq<Source>): (r: set<string>)
    ensures forall k :: k in r <==> exists i :: 0 <= i < |s| && s[i].id == k
  {
    if s == [] then {}
    else
      assert forall i :: 1 <= i < |s| ==> s[i] == s[1..][i - 1];
      {s[0].id} + NameKeys(s[1..])
  }

  /** Remapping of `Map` inputs, entry by entry: the value under the
      external name is copied under the local name. The view is updated as it
      goes, so a later entry reads what an earlier one wrote. */
  function Remap<T>(pairs: seq<Binding>, view: Container<T>): (r: Result<Container<T>>)
    ensures r.Success? ==> r.value.data.Keys == view.data.Keys + NameKeys(Locals(pairs))
    ensures r.Failure? ==> exists i :: 0 <= i < |pairs| && r.error == DataNotFound(pairs[i].external.id)
                                       && pairs[i].external.id !in view.data
    decreases |pairs|
  {
    if pairs == [] then Success(view)
    else
      var g := pairs[0].external.id;
      if g !in view.data then Failure(DataNotFound(g))
      else
        var r := Remap(pairs[1..], Upsert(view, pairs[0].local.id, view.data[g]));
        assert forall i :: 1 <= i < |pairs| ==> pairs[i] == pairs[1..][i - 1];
        assert Locals(pairs) == [pairs[0].local] + Locals(pairs[1..]);
        r
  }

  /** The store a node is shown: the running store itself for `List` inputs,
      with the `Map` inputs copied under their local names otherwise. */
  function View<T>(inputs: NodeSources, state: Container<T>): (r: Result<Container<T>>)
    ensures r.Success? ==> state.data.Keys <= r.value.data.Keys
  {
    match inputs
    case List(_) => Success(state)
    case Map(m) => Remap(m, state)
  }

  /** Folding a node's result back: each binding's local name is removed from
      the result and its value stored under the external name. */
  function Collect<T>(bindings: seq<Binding>, res: Container<T>, state: Container<T>): (r: Result<Container<T>>)
    ensures r.Success? ==> r.value.data.Keys == state.data.Keys + NameKeys(Externals(bindings))
    ensures r.Success? ==> forall k :: k in state.data && k !in NameKeys(Externals(bindings)) ==> r.value.data[k] == state.data[k]
    ensures r.Failure? ==> exists i :: 0 <= i < |bindings| && r.error == DataNotFound(bindings[i].local.id)
    decreases |bindings|
  {
    if bindings == [] then Success(state)
    else
      var l := bindings[0].local.id;
      if l !in res.data then Failure(DataNotFound(l))
      else
        var r := Collect(bindings[1..], Container(res.data - {l}), Upsert(state, bindings[0].external.id, res.data[l]));
        assert forall i :: 1 <= i < |bindings| ==> bindings[i] == bindings[1..][i - 1];
        assert Externals(bindings) == [bindings[0].external] + Externals(bindings[1..]);
        r
  }

  /** One node of a run: build its view, call its function, fold its outputs
      into the running store. */
  function Step<T>(n: Node<T>, state: Container<T>): (r: Result<Container<T>>)
    ensures r.Success? ==> r.value.data.Keys == state.data.Keys + NameKeys(Outputs(n.outputs))
    ensures r.Success? ==> forall k :: k in state.data && k !in NameKeys(Outputs(n.outputs)) ==> r.value.data[k] == state.data[k]
  {
    var view :- View(n.inputs, state);
    var res :- n.func(view);
    BindingsExternals(n.outputs);
    Collect(Bindings(n.outputs), res, state)
  }

  /** The nodes run in order from `state`; the first error stops the run. */
  function RunNodes<T>(nodes: seq<Node<T>>, state: Container<T>): (r: Result<Container<T>>)
    ensures r.Success? ==> r.value.data.Keys == state.data.Keys + NameKeys(OutputNames(nodes))
    ensures r.Success? ==> forall k :: k in state.data && k !in NameKeys(OutputNames(nodes)) ==> r.value.data[k] == state.data[k]
  {
    if nodes == [] then Success(state)
    else
      var next :- Step(nodes[0], state);
      var r := RunNodes(nodes[1..], next);
      assert NameKeys(OutputNames(nodes)) == NameKeys(Outputs(nodes[0].outputs)) + NameKeys(OutputNames(nodes[1..])) by {
        NameKeysAppend(Outputs(nodes[0].outputs), OutputNames(nodes[1..]));
      }
      r
  }

  /** The keys of a concatenation are the keys of its parts. */
  lemma NameKeysAppend(a: seq<Source>, b: seq<Source>)
    ensures NameKeys(a + b) == NameKeys(a) + NameKeys(b)
  {
    forall k | k in NameKeys(a + b) ensures k in NameKeys(a) + NameKeys(b) {
      var i :| 0 <= i < |a + b| && (a + b)[i].id == k;
      if i >= |a| { assert b[i - |a|] == (a + b)[i]; }
    }
    forall k | k in NameKeys(a) ensures k in NameKeys(a + b) {
      var i :| 0 <= i < |a| && a[i].id == k;
      assert (a + b)[i] == a[i];
    }
    forall k | k in NameKeys(b) ensures k in NameKeys(a + b) {
      var i :| 0 <= i < |b| && b[i].id == k;
      assert (a + b)[|a| + i] == b[i];
    }
  }

  /** `Pipeline::run`: the seed store is only read; the result is a new
      store. */
  function Run<T>(p: Pipeline<T>, seed: Container<T>): (r: Result<Container<T>>)
    ensures r.Success? ==> r.value.data.Keys == seed.data.Keys + NameKeys(OutputNames(p.nodes))
    ensures r.Success? ==> forall k :: k in seed.data && k !in NameKeys(OutputNames(p.nodes)) ==> r.value.data[k] == seed.data[k]
  {
    RunNodes(p.nodes, seed)
  }

  // =======================================================================
  // Surface queries (`inputs`, `outputs`, `all_outputs`).
  // =======================================================================

  /** The vertex the surface queries use for a node id: the first vertex
      carrying it. */
  function FirstVertexOf(weights: seq<NodeId>, id: NodeId): (v: nat)
    requires id in weights
    ensures v < |weights| && weights[v] == id
    ensures forall j :: 0 <= j < v ==> weights[j] != id
  {
    if weights[0] == id then 0
    else 1 + FirstVertexOf(weights[1..], id)
  }

  /** Some edge named `x` enters vertex `v`. */
  predicate HasIncoming(edges: seq<Edge>, v: nat, x: Source) {
    exists k :: 0 <= k < |edges| && edges[k].dst == v && edges[k].name == x
  }

  /** Some edge named `x` leaves vertex `v`. */
  predicate HasOutgoing(edges: seq<Edge>, v: nat, x: Source) {
    exists k :: 0 <= k < |edges| && edges[k].src == v && edges[k].name == x
  }

  /** The names of `xs` with no edge of that name entering `v`, in order. */
  function Unfed(edges: seq<Edge>, v: nat, xs: seq<Source>): (r: seq<Source>)
    ensures forall x :: x in r <==> x in xs && !HasIncoming(edges, v, x)
  {
    if xs == [] then []
    else (if HasIncoming(edges, v, xs[0]) then [] else [xs[0]]) + Unfed(edges, v, xs[1..])
  }

  /** The names of `xs` with no edge of that name leaving `v`, in order. */
  function Unconsumed(edges: seq<Edge>, v: nat, xs: seq<Source>): (r: seq<Source>)
    ensures forall x :: x in r <==> x in xs && !HasOutgoing(edges, v, x)
  {
    if xs == [] then []
    else (if HasOutgoing(edges, v, xs[0]) then [] else [xs[0]]) + Unconsumed(edges, v, xs[1..])
  }

  /** The inputs of `nodes` that no edge feeds, node by node. */
  function UnfedInputs<T>(g: Graph, nodes: seq<Node<T>>): seq<Source>
    requires forall i :: 0 <= i < |nodes| ==> nodes[i].id in g.weights
  {
    if nodes == [] then []
    else Unfed(g.edges, FirstVertexOf(g.weights, nodes[0].id), Inputs(nodes[0].inputs)) + UnfedInputs(g, nodes[1..])
  }

  /** The outputs of `nodes` that no edge carries away, node by node. */
  function UnconsumedOutputs<T>(g: Graph, nodes: seq<Node<T>>): seq<Source>
    requires forall i :: 0 <= i < |nodes| ==> nodes[i].id in g.weights
  {
    if nodes == [] then []
    else Unconsumed(g.edges, FirstVertexOf(g.weights, nodes[0].id), Outputs(nodes[0].outputs)) + UnconsumedOutputs(g, nodes[1..])
  }

  /** `Pipeline::inputs`: the inputs no edge feeds, sorted, repeats kept. */
  function FreeInputs<T>(p: Pipeline<T>): (r: seq<Source>)
    requires WellFormed(p)
    ensures Sorted(r) && multiset(r) == multiset(UnfedInputs(p.graph, p.nodes))
  {
    Sort(UnfedInputs(p.graph, p.nodes))
  }

  /** `Pipeline::outputs`: the outputs no edge carries away, sorted. */
  function TerminalOutputs<T>(p: Pipeline<T>): (r: seq<Source>)
    requires WellFormed(p)
    ensures Sorted(r) && multiset(r) == multiset(UnconsumedOutputs(p.graph, p.nodes))
  {
    Sort(UnconsumedOutputs(p.graph, p.nodes))
  }

  /** `Pipeline::all_outputs`: every declared output once, sorted. */
  function AllOutputs<T>(p: Pipeline<T>): (r: seq<Source>)
    ensures Sorted(r) && Distinct(r)
    ensures forall x :: x in r <==> x in OutputNames(p.nodes)
  {
    var names := PushNew([], OutputNames(p.nodes));
    SortKeepsDistinct(names);
    assert forall x :: x in Sort(names) <==> x in multiset(Sort(names));
    Sort(names)
  }

  // =======================================================================
  // Composition (`add`, `with_namespace`).
  // =======================================================================

  /** `Pipeline::add`: a pipeline built from the nodes of both. */
  function Add<T>(p: Pipeline<T>, q: Pipeline<T>): (r: Result<Pipeline<T>>)
    ensures r.Success? ==> |r.value.nodes| == |p.nodes| + |q.nodes|
  {
    FromNodes(p.nodes + q.nodes)
  }

  /** The renaming `with_namespace(ns)` applies to external names. */
  function Prefixer(ns: string): Source -> Source {
    x => Namespaced(ns, x)
  }

  /** One node moved into namespace `ns`: ports renamed, a new id, the
      namespace set or extended; tags and function kept. */
  function NamespaceNode<T>(n: Node<T>, ns: string, id: NodeId): (r: Node<T>)
    ensures r.id == id && r.tags == n.tags && r.func == n.func
    ensures r.inputs == MapNames(n.inputs, Prefixer(ns)) && r.outputs == MapNames(n.outputs, Prefixer(ns))
    ensures n.namespace.None? ==> r.namespace == Some(ns)
    ensures n.namespace.Some? ==> r.namespace == Some(ns + "." + n.namespace.value)
  {
    Node(id, MapNames(n.inputs, Prefixer(ns)), MapNames(n.outputs, Prefixer(ns)), n.tags, n.func,
         Some(match n.namespace case Some(inner) => ns + "." + inner case None => ns))
  }

  /** The nodes of `p` moved into namespace `ns`, with ids drawn from `m`. */
  function NamespaceNodes<T>(nodes: seq<Node<T>>, ns: string, m: Mint): (r: seq<Node<T>>)
    ensures |r| == |nodes|
    ensures forall i :: 0 <= i < |r| ==> r[i] == NamespaceNode(nodes[i], ns, m.next + i)
    ensures DistinctIds(r) && MintedBefore(r, Mint(m.next + |nodes|))
  {
    seq(|nodes|, i requires 0 <= i < |nodes| => NamespaceNode(nodes[i], ns, m.next + i))
  }

  /** `Pipeline::with_namespace`: the pipeline rebuilt from its nodes moved
      into `ns`; returns the advanced id supply alongside. */
  function WithNamespace<T>(p: Pipeline<T>, ns: string, m: Mint): (r: (Result<Pipeline<T>>, Mint))
    ensures r.1.next == m.next + |p.nodes|
    ensures r.0.Success? ==> |r.0.value.nodes| == |p.nodes| && Distinct(r.0.value.graph.weights)
  {
    (FromNodes(NamespaceNodes(p.nodes, ns, m)), Mint(m.next + |p.nodes|))
  }
}

=== FILE: query_facts.dfy ===
/** What the surface queries report, stated without the graph: the free
    inputs are the inputs no node produces, the terminal outputs are the
    outputs no node consumes, and both lie within what the nodes declare. */
module QueryFacts {
  import opened Wrappers
  import opened Names
  import opened Sources
  import opened Nodes
  import opened TopoSort
  import opened Pipelines
  import opened BuildFacts

  /** The names of `xs` that are not in `avoid`, in order, repeats kept. */
  function Without(xs: seq<Source>, avoid: seq<Source>): (r: seq<Source>)
    ensures forall x :: x in r <==> x in xs && x !in avoid
  {
    if xs == [] then []
    else (if xs[0] in avoid then [] else [xs[0]]) + Without(xs[1..], avoid)
  }

  /** Every node's inputs that are not in `produced`, node by node. */
  function InputsNotIn<T>(nodes: seq<Node<T>>, produced: seq<Source>): seq<Source> {
    if nodes == [] then []
    else Without(Inputs(nodes[0].inputs), produced) + InputsNotIn(nodes[1..], produced)
  }

  /** Every node's outputs that are not in `consumed`, node by node. */
  function OutputsNotIn<T>(nodes: seq<Node<T>>, consumed: seq<Source>): seq<Source> {
    if nodes == [] then []
    else Without(Outputs(nodes[0].outputs), consumed) + OutputsNotIn(nodes[1..], consumed)
  }

  /** Filtering by incoming edges is filtering by `produced` when the two
      agree on every name of `xs`. */
  lemma {:induction false} UnfedIsWithout(edges: seq<Edge>, v: nat, xs: seq<Source>, produced: seq<Source>)
    requires forall x :: x in xs ==> (HasIncoming(edges, v, x) <==> x in produced)
    ensures Unfed(edges, v, xs) == Without(xs, produced)
    decreases |xs|
  {
    if xs != [] {
      assert xs[0] in xs;
      UnfedIsWithout(edges, v, xs[1..], produced);
    }
  }

  /** Filtering by outgoing edges is filtering by `consumed` when the two
      agree on every name of `xs`. */
  lemma {:induction false} UnconsumedIsWithout(edges: seq<Edge>, v: nat, xs: seq<Source>, consumed: seq<Source>)
    requires forall x :: x in xs ==> (HasOutgoing(edges, v, x) <==> x in consumed)
    ensures Unconsumed(edges, v, xs) == Without(xs, consumed)
    decreases |xs|
  {
    if xs != [] {
      assert xs[0] in xs;
      UnconsumedIsWithout(edges, v, xs[1..], consumed);
    }
  }

  /** At the vertex the query uses for node `ns[j]`, an input has an
      incoming edge exactly when it is in `produced`. */
  ghost predicate IncomingMeansProduced<T>(g: Graph, ns: seq<Node<T>>, produced: seq<Source>)
    requires forall i :: 0 <= i < |ns| ==> ns[i].id in g.weights
  {
    forall j, x :: 0 <= j < |ns| && x in Inputs(ns[j].inputs) ==>
      (HasIncoming(g.edges, FirstVertexOf(g.weights, ns[j].id), x) <==> x in produced)
  }

  /** At the vertex the query uses for node `ns[j]`, an output has an
      outgoing edge exactly when it is in `consumed`. */
  ghost predicate OutgoingMeansConsumed<T>(g: Graph, ns: seq<Node<T>>, consumed: seq<Source>)
    requires forall i :: 0 <= i < |ns| ==> ns[i].id in g.weights
  {
    forall j, x :: 0 <= j < |ns| && x in Outputs(ns[j].outputs) ==>
      (HasOutgoing(g.edges, FirstVertexOf(g.weights, ns[j].id), x) <==> x in consumed)
  }

  lemma {:induction false} UnfedInputsAgree<T>(g: Graph, ns: seq<Node<T>>, produced: seq<Source>)
    requires forall i :: 0 <= i < |ns| ==> ns[i].id in g.weights
    requires IncomingMeansProduced(g, ns, produced)
    ensures UnfedInputs(g, ns) == InputsNotIn(ns, produced)
    decreases |ns|
  {
    if ns != [] {
      UnfedIsWithout(g.edges, FirstVertexOf(g.weights, ns[0].id), Inputs(ns[0].inputs), produced);
      assert forall j :: 1 <= j < |ns| ==> ns[j] == ns[1..][j - 1];
      UnfedInputsAgree(g, ns[1..], produced);
    }
  }

  lemma {:induction false} UnconsumedOutputsAgree<T>(g: Graph, ns: seq<Node<T>>, consumed: seq<Source>)
    requires forall i :: 0 <= i < |ns| ==> ns[i].id in g.weights
    requires OutgoingMeansConsumed(g, ns, consumed)
    ensures UnconsumedOutputs(g, ns) == OutputsNotIn(ns, consumed)
    decreases |ns|
  {
    if ns != [] {
      UnconsumedIsWithout(g.edges, FirstVertexOf(g.weights, ns[0].id), Outputs(ns[0].outputs), consumed);
      assert forall j :: 1 <= j < |ns| ==> ns[j] == ns[1..][j - 1];
      UnconsumedOutputsAgree(g, ns[1..], consumed);
    }
  }

  /** A rearrangement declares the same outputs and inputs. */
  lemma RearrangedNames<T>(out: seq<Node<T>>, nodes: seq<Node<T>>, order: seq<nat>, x: Source)
    requires RearrangedBy(out, nodes, order)
    ensures x in OutputNames(out) <==> x in OutputNames(nodes)
    ensures x in InputNames(out) <==> x in InputNames(nodes)
  {
    OutputNamesMember(out, x);
    OutputNamesMember(nodes, x);
    InputNamesMember(out, x);
    InputNamesMember(nodes, x);
    forall j | 0 <= j < |nodes| ensures exists k :: 0 <= k < |out| && out[k] == nodes[j] {
      assert j in order;
      var k :| 0 <= k < |order| && order[k] == j;
      assert out[k] == nodes[j];
    }
  }

  /** An edge enters its target and leaves its source. */
  lemma EdgeIsIncomingAndOutgoing(edges: seq<Edge>, e: Edge)
    requires e in edges
    ensures HasIncoming(edges, e.dst, e.name) && HasOutgoing(edges, e.src, e.name)
  {
    var k :| 0 <= k < |edges| && edges[k] == e;
  }

  /** In a wired pipeline with distinct ids, the vertex the queries use
      for the `i`-th stored node has an incoming edge named `x` exactly when
      some node produces `x`. */
  lemma IncomingAtStoredNode<T>(nodes: seq<Node<T>>, p: Pipeline<T>, order: seq<nat>, i: nat, x: Source)
    requires Wire(nodes) == Success(p.graph) && DistinctIds(nodes)
    requires RearrangedBy(p.nodes, nodes, order)
    requires i < |p.nodes| && x in Inputs(p.nodes[i].inputs)
    ensures p.nodes[i].id in p.graph.weights
    ensures HasIncoming(p.graph.edges, FirstVertexOf(p.graph.weights, p.nodes[i].id), x) <==> x in OutputNames(p.nodes)
  {
    var c := order[i];
    VertexOfDistinct(nodes, c);
    var edges := p.graph.edges;
    RearrangedNames(p.nodes, nodes, order, x);
    OutputNamesMember(nodes, x);
    if HasIncoming(edges, c, x) {
      var k :| 0 <= k < |edges| && edges[k].dst == c && edges[k].name == x;
      WireEdges(nodes, edges[k].src, c, x);
    }
    if x in OutputNames(nodes) {
      var j :| 0 <= j < |nodes| && x in Outputs(nodes[j].outputs);
      WireEdges(nodes, j, c, x);
      EdgeIsIncomingAndOutgoing(edges, Edge(j, c, x));
    }
  }

  /** In a wired pipeline with distinct ids, the vertex the queries use
      for the `i`-th stored node has an outgoing edge named `x` exactly when
      some node consumes `x`. */
  lemma OutgoingAtStoredNode<T>(nodes: seq<Node<T>>, p: Pipeline<T>, order: seq<nat>, i: nat, x: Source)
    requires Wire(nodes) == Success(p.graph) && DistinctIds(nodes)
    requires RearrangedBy(p.nodes, nodes, order)
    requires i < |p.nodes| && x in Outputs(p.nodes[i].outputs)
    ensures p.nodes[i].id in p.graph.weights
    ensures HasOutgoing(p.graph.edges, FirstVertexOf(p.graph.weights, p.nodes[i].id), x) <==> x in InputNames(p.nodes)
  {
    var c := order[i];
    VertexOfDistinct(nodes, c);
    var edges := p.graph.edges;
    RearrangedNames(p.nodes, nodes, order, x);
    InputNamesMember(nodes, x);
    if HasOutgoing(edges, c, x) {
      var k :| 0 <= k < |edges| && edges[k].src == c && edges[k].name == x;
      WireEdges(nodes, c, edges[k].dst, x);
    }
    if x in InputNames(nodes) {
      var j :| 0 <= j < |nodes| && x in Inputs(nodes[j].inputs);
      WireEdges(nodes, c, j, x);
      EdgeIsIncomingAndOutgoing(edges, Edge(c, j, x));
    }
  }

  /** `inputs()` of a built pipeline is the sorted list of every input that
      no node of the pipeline produces, repeats kept. */
  lemma FreeInputsAreUnproduced<T>(nodes: seq<Node<T>>, p: Pipeline<T>)
    requires FromNodes(nodes) == Success(p) && DistinctIds(nodes)
    ensures FreeInputs(p) == Sort(InputsNotIn(p.nodes, OutputNames(p.nodes)))
  {
    BuildPutsProducersFirst(nodes, p);
    var order :| RearrangedBy(p.nodes, nodes, order);
    BuiltFromWire(nodes, p);
    forall j, x | 0 <= j < |p.nodes| && x in Inputs(p.nodes[j].inputs)
      ensures HasIncoming(p.graph.edges, FirstVertexOf(p.graph.weights, p.nodes[j].id), x) <==> x in OutputNames(p.nodes)
    {
      IncomingAtStoredNode(nodes, p, order, j, x);
    }
    UnfedInputsAgree(p.graph, p.nodes, OutputNames(p.nodes));
  }

  /** `outputs()` of a built pipeline is the sorted list of every output that
      no node of the pipeline consumes. */
  lemma TerminalOutputsAreUnconsumed<T>(nodes: seq<Node<T>>, p: Pipeline<T>)
    requires FromNodes(nodes) == Success(p) && DistinctIds(nodes)
    ensures TerminalOutputs(p) == Sort(OutputsNotIn(p.nodes, InputNames(p.nodes)))
  {
    BuildPutsProducersFirst(nodes, p);
    var order :| RearrangedBy(p.nodes, nodes, order);
    BuiltFromWire(nodes, p);
    forall j, x | 0 <= j < |p.nodes| && x in Outputs(p.nodes[j].outputs)
      ensures HasOutgoing(p.graph.edges, FirstVertexOf(p.graph.weights, p.nodes[j].id), x) <==> x in InputNames(p.nodes)
    {
      OutgoingAtStoredNode(nodes, p, order, j, x);
    }
    UnconsumedOutputsAgree(p.graph, p.nodes, InputNames(p.nodes));
  }

  /** Every unconsumed output is a declared output. */
  lemma {:induction false} UnconsumedAreDeclared<T>(g: Graph, ns: seq<Node<T>>, x: Source)
    requires forall i :: 0 <= i < |ns| ==> ns[i].id in g.weights
    requires x in UnconsumedOutputs(g, ns)
    ensures x in OutputNames(ns)
    decreases |ns|
  {
    var here := Unconsumed(g.edges, FirstVertexOf(g.weights, ns[0].id), Outputs(ns[0].outputs));
    if x !in here {
      UnconsumedAreDeclared(g, ns[1..], x);
    }
  }

  /** `outputs()` lies within `all_outputs()`, for every valid pipeline. */
  lemma TerminalWithinAll<T>(p: Pipeline<T>)
    requires WellFormed(p)
    ensures forall x :: x in TerminalOutputs(p) ==> x in AllOutputs(p)
  {
    forall x | x in TerminalOutputs(p) ensures x in AllOutputs(p) {
      assert x in multiset(TerminalOutputs(p));
      UnconsumedAreDeclared(p.graph, p.nodes, x);
    }
  }
}

=== FILE: run_facts.dfy ===
/** What `Pipeline::run` guarantees: when input remapping and output
    collection succeed, which values they move where, and which errors
    they report. */
module RunFacts {
  import opened Wrappers
  import opened Names
  import opened Sources
  import opened GenericContainer
  import opened Nodes
  import opened Pipelines

  // -----------------------------------------------------------------------
  // Input remapping.
  // -----------------------------------------------------------------------

  /** Entry `i` of a `Map` input can be read: its external name is in the
      store, or an earlier entry already copied a value under that name. */
  ghost predicate Supplied(pairs: seq<Binding>, keys: set<string>, i: nat)
    requires i < |pairs|
  {
    || pairs[i].external.id in keys
    || exists j :: 0 <= j < i && pairs[j].local.id == pairs[i].external.id
  }

  /** Remapping succeeds exactly when every entry can be read. */
  lemma {:induction false} RemapSucceedsIff<T>(pairs: seq<Binding>, view: Container<T>)
    ensures Remap(pairs, view).Success? <==> forall i :: 0 <= i < |pairs| ==> Supplied(pairs, view.data.Keys, i)
    decreases |pairs|
  {
    if pairs != [] && pairs[0].external.id !in view.data {
      assert !Supplied(pairs, view.data.Keys, 0);
    } else if pairs != [] {
      var view' := Upsert(view, pairs[0].local.id, view.data[pairs[0].external.id]);
      var tail := pairs[1..];
      RemapSucceedsIff(tail, view');
      assert Remap(pairs, view) == Remap(tail, view');
      assert Supplied(pairs, view.data.Keys, 0);
      forall i | 1 <= i < |pairs|
        ensures Supplied(pairs, view.data.Keys, i) <==> Supplied(tail, view'.data.Keys, i - 1)
      {
        SuppliedStep(pairs, view.data.Keys, view'.data.Keys, i);
      }
      if Remap(pairs, view).Success? {
        forall i | 0 <= i < |pairs| ensures Supplied(pairs, view.data.Keys, i) {
          if i > 0 { assert Supplied(tail, view'.data.Keys, i - 1); }
        }
      } else {
        var i :| 0 <= i < |tail| && !Supplied(tail, view'.data.Keys, i);
        assert !Supplied(pairs, view.data.Keys, i + 1);
      }
    }
  }

  /** Reading entry `i` after the first entry has been copied. */
  lemma SuppliedStep(pairs: seq<Binding>, keys: set<string>, keys': set<string>, i: nat)
    requires 1 <= i < |pairs|
    requires keys' == keys + {pairs[0].local.id}
    ensures Supplied(pairs, keys, i) <==> Supplied(pairs[1..], keys', i - 1)
  {
    var tail := pairs[1..];
    var view' := keys';
    {
      assert tail[i - 1] == pairs[i];
      if Supplied(tail, keys', i - 1) && tail[i - 1].external.id !in keys' {
        var j :| 0 <= j < i - 1 && tail[j].local.id == tail[i - 1].external.id;
        assert pairs[j + 1] == tail[j];
      }
      if Supplied(pairs, keys, i) && pairs[i].external.id !in keys' {
        var j :| 0 <= j < i && pairs[j].local.id == pairs[i].external.id;
        assert j > 0;
        assert tail[j - 1] == pairs[j];
      }
    }
  }

  /** No local name repeats and none is also an external name of the port:
      remapping then never reads a value it wrote itself. */
  ghost predicate SeparateNames(pairs: seq<Binding>) {
    && (forall i, j :: 0 <= i < j < |pairs| ==> pairs[i].local.id != pairs[j].local.id)
    && (forall i, j :: 0 <= i < |pairs| && 0 <= j < |pairs| ==> pairs[i].local.id != pairs[j].external.id)
  }

  /** Remapping leaves every key that is not a local name alone. */
  lemma {:induction false} RemapKeepsAt<T>(pairs: seq<Binding>, view: Container<T>, k: string)
    requires Remap(pairs, view).Success?
    requires k in view.data && k !in NameKeys(Locals(pairs))
    ensures Remap(pairs, view).value.data[k] == view.data[k]
    decreases |pairs|
  {
    if pairs != [] {
      var view' := Upsert(view, pairs[0].local.id, view.data[pairs[0].external.id]);
      var tail := pairs[1..];
      assert Remap(pairs, view) == Remap(tail, view');
      assert Locals(pairs)[0] == pairs[0].local;
      assert forall i :: 0 <= i < |tail| ==> Locals(tail)[i] == Locals(pairs)[i + 1];
      RemapKeepsAt(tail, view', k);
    }
  }

  /** With separate names, remapping copies entry `i`'s external value under
      its local name. */
  lemma {:induction false} RemapCopiesAt<T>(pairs: seq<Binding>, view: Container<T>, i: nat)
    requires Remap(pairs, view).Success?
    requires SeparateNames(pairs)
    requires i < |pairs|
    ensures pairs[i].external.id in view.data
    ensures Remap(pairs, view).value.data[pairs[i].local.id] == view.data[pairs[i].external.id]
    decreases i
  {
    var l0 := pairs[0].local.id;
    var view' := Upsert(view, l0, view.data[pairs[0].external.id]);
    var tail := pairs[1..];
    assert Remap(pairs, view) == Remap(tail, view');
    SeparateNamesTail(pairs);
    if i == 0 {
      RemapKeepsAt(tail, view', l0);
    } else {
      assert tail[i - 1] == pairs[i];
      RemapCopiesAt(tail, view', i - 1);
      assert pairs[i].external.id != l0;
    }
  }

  /** Dropping the first entry keeps the names separate, and no later local
      name is the first one's. */
  lemma SeparateNamesTail(pairs: seq<Binding>)
    requires SeparateNames(pairs) && |pairs| > 0
    ensures SeparateNames(pairs[1..])
    ensures pairs[0].local.id !in NameKeys(Locals(pairs[1..]))
  {
    var tail := pairs[1..];
    assert forall m :: 0 <= m < |tail| ==> tail[m] == pairs[m + 1];
    forall m | 0 <= m < |tail| ensures Locals(tail)[m].id != pairs[0].local.id {
      assert tail[m] == pairs[m + 1];
    }
  }

  /** Every entry at once. */
  lemma RemapCopies<T>(pairs: seq<Binding>, view: Container<T>)
    requires Remap(pairs, view).Success?
    requires SeparateNames(pairs)
    ensures forall i :: 0 <= i < |pairs| ==>
      && pairs[i].external.id in view.data
      && Remap(pairs, view).value.data[pairs[i].local.id] == view.data[pairs[i].external.id]
  {
    forall i | 0 <= i < |pairs|
      ensures pairs[i].external.id in view.data
      ensures Remap(pairs, view).value.data[pairs[i].local.id] == view.data[pairs[i].external.id]
    {
      RemapCopiesAt(pairs, view, i);
    }
  }

  /** No entry reads the local name another entry writes; an entry may
      read its own. Whatever the iteration order, remapping then reads every
      value from the store it starts from. */
  ghost predicate NoCrossReads(pairs: seq<Binding>) {
    forall i, j :: 0 <= i < |pairs| && 0 <= j < |pairs| && i != j ==> pairs[i].local != pairs[j].external
  }

  /** With unique local names and no cross reads, remapping copies entry
      `i`'s value from the starting store under its local name. */
  lemma {:induction false} RemapReadsStartAt<T>(pairs: seq<Binding>, view: Container<T>, i: nat)
    requires Remap(pairs, view).Success?
    requires UniqueLocals(pairs) && NoCrossReads(pairs)
    requires i < |pairs|
    ensures pairs[i].external.id in view.data
    ensures Remap(pairs, view).value.data[pairs[i].local.id] == view.data[pairs[i].external.id]
    decreases i
  {
    var view' := Upsert(view, pairs[0].local.id, view.data[pairs[0].external.id]);
    assert Remap(pairs, view) == Remap(pairs[1..], view');
    if i == 0 {
      RemapReadsFirst(pairs, view);
    } else {
      RemapTailConditions(pairs);
      RemapReadsStartAt(pairs[1..], view', i - 1);
      assert pairs[1..][i - 1] == pairs[i];
      assert pairs[i].external != pairs[0].local;
    }
  }

  /** The first binding's copy survives the rest of the remap. */
  lemma RemapReadsFirst<T>(pairs: seq<Binding>, view: Container<T>)
    requires Remap(pairs, view).Success?
    requires UniqueLocals(pairs) && |pairs| > 0
    ensures pairs[0].external.id in view.data
    ensures Remap(pairs, view).value.data[pairs[0].local.id] == view.data[pairs[0].external.id]
  {
    var l0 := pairs[0].local.id;
    var view' := Upsert(view, l0, view.data[pairs[0].external.id]);
    var tail := pairs[1..];
    assert Remap(pairs, view) == Remap(tail, view');
    forall m | 0 <= m < |tail| ensures Locals(tail)[m].id != l0 {
      assert tail[m] == pairs[m + 1];
    }
    RemapKeepsAt(tail, view', l0);
  }

  /** Dropping the first binding keeps local names unique and reads apart. */
  lemma RemapTailConditions(pairs: seq<Binding>)
    requires UniqueLocals(pairs) && NoCrossReads(pairs) && |pairs| > 0
    ensures UniqueLocals(pairs[1..]) && NoCrossReads(pairs[1..])
  {
    var tail := pairs[1..];
    assert forall m :: 0 <= m < |tail| ==> tail[m] == pairs[m + 1];
  }

  // -----------------------------------------------------------------------
  // Output collection.
  // -----------------------------------------------------------------------

  /** A successful collection found entry `i`'s local name in the result. */
  lemma {:induction false} CollectNeedsAt<T>(bindings: seq<Binding>, res: Container<T>, state: Container<T>, i: nat)
    requires Collect(bindings, res, state).Success?
    requires i < |bindings|
    ensures bindings[i].local.id in res.data
    decreases i
  {
    if i > 0 {
      var l0 := bindings[0].local.id;
      var tail := bindings[1..];
      var res' := Container(res.data - {l0});
      var state' := Upsert(state, bindings[0].external.id, res.data[l0]);
      assert Collect(bindings, res, state) == Collect(tail, res', state');
      assert tail[i - 1] == bindings[i];
      CollectNeedsAt(tail, res', state', i - 1);
    }
  }

  /** A successful collection never met a local name twice. */
  lemma {:induction false} CollectDistinctAt<T>(bindings: seq<Binding>, res: Container<T>, state: Container<T>, i: nat, j: nat)
    requires Collect(bindings, res, state).Success?
    requires i < j < |bindings|
    ensures bindings[i].local.id != bindings[j].local.id
    decreases i
  {
    var l0 := bindings[0].local.id;
    var tail := bindings[1..];
    var res' := Container(res.data - {l0});
    var state' := Upsert(state, bindings[0].external.id, res.data[l0]);
    assert Collect(bindings, res, state) == Collect(tail, res', state');
    assert tail[j - 1] == bindings[j];
    if i == 0 {
      CollectNeedsAt(tail, res', state', j - 1);
    } else {
      assert tail[i - 1] == bindings[i];
      CollectDistinctAt(tail, res', state', i - 1, j - 1);
    }
  }

  /** Every local name present and none used twice: collection succeeds. */
  lemma {:induction false} CollectSucceeds<T>(bindings: seq<Binding>, res: Container<T>, state: Container<T>)
    requires forall i :: 0 <= i < |bindings| ==> bindings[i].local.id in res.data
    requires forall i, j :: 0 <= i < j < |bindings| ==> bindings[i].local.id != bindings[j].local.id
    ensures Collect(bindings, res, state).Success?
    decreases |bindings|
  {
    if bindings != [] {
      var l0 := bindings[0].local.id;
      var tail := bindings[1..];
      var res' := Container(res.data - {l0});
      var state' := Upsert(state, bindings[0].external.id, res.data[l0]);
      assert Collect(bindings, res, state) == Collect(tail, res', state');
      assert forall m :: 0 <= m < |tail| ==> tail[m] == bindings[m + 1];
      CollectSucceeds(tail, res', state');
    }
  }

  /** Collection succeeds exactly when the result holds every local name and
      no local name is used twice (the first use removes it). */
  lemma CollectSucceedsIff<T>(bindings: seq<Binding>, res: Container<T>, state: Container<T>)
    ensures Collect(bindings, res, state).Success? <==>
      && (forall i :: 0 <= i < |bindings| ==> bindings[i].local.id in res.data)
      && (forall i, j :: 0 <= i < j < |bindings| ==> bindings[i].local.id != bindings[j].local.id)
  {
    if Collect(bindings, res, state).Success? {
      forall i | 0 <= i < |bindings| ensures bindings[i].local.id in res.data {
        CollectNeedsAt(bindings, res, state, i);
      }
      forall i, j | 0 <= i < j < |bindings| ensures bindings[i].local.id != bindings[j].local.id {
        CollectDistinctAt(bindings, res, state, i, j);
      }
    } else if (forall i :: 0 <= i < |bindings| ==> bindings[i].local.id in res.data)
           && (forall i, j :: 0 <= i < j < |bindings| ==> bindings[i].local.id != bindings[j].local.id) {
      CollectSucceeds(bindings, res, state);
    }
  }

  /** When no two bindings share an external name, collection stores entry
      `i`'s result value under its external name. */
  lemma {:induction false} CollectValueAt<T>(bindings: seq<Binding>, res: Container<T>, state: Container<T>, i: nat)
    requires Collect(bindings, res, state).Success?
    requires forall i, j :: 0 <= i < j < |bindings| ==> bindings[i].external.id != bindings[j].external.id
    requires i < |bindings|
    ensures bindings[i].local.id in res.data
    ensures Collect(bindings, res, state).value.data[bindings[i].external.id] == res.data[bindings[i].local.id]
    decreases i
  {
    var l0 := bindings[0].local.id;
    var e0 := bindings[0].external.id;
    var tail := bindings[1..];
    CollectNeedsAt(bindings, res, state, 0);
    var res' := Container(res.data - {l0});
    var state' := Upsert(state, e0, res.data[l0]);
    assert Collect(bindings, res, state) == Collect(tail, res', state');
    ExternalsApartTail(bindings);
    if i > 0 {
      assert tail[i - 1] == bindings[i];
      CollectValueAt(tail, res', state', i - 1);
    }
  }

  /** Dropping the first binding keeps the external names apart, and no
      later external name is the first one's. */
  lemma ExternalsApartTail(bindings: seq<Binding>)
    requires |bindings| > 0
    requires forall i, j :: 0 <= i < j < |bindings| ==> bindings[i].external.id != bindings[j].external.id
    ensures forall i, j :: 0 <= i < j < |bindings[1..]| ==> bindings[1..][i].external.id != bindings[1..][j].external.id
    ensures bindings[0].external.id !in NameKeys(Externals(bindings[1..]))
  {
    var tail := bindings[1..];
    assert forall m :: 0 <= m < |tail| ==> tail[m] == bindings[m + 1];
    forall m | 0 <= m < |tail| ensures Externals(tail)[m].id != bindings[0].external.id {
      assert tail[m] == bindings[m + 1];
    }
  }

  /** Every binding at once. */
  lemma CollectValues<T>(bindings: seq<Binding>, res: Container<T>, state: Container<T>)
    requires Collect(bindings, res, state).Success?
    requires forall i, j :: 0 <= i < j < |bindings| ==> bindings[i].external.id != bindings[j].external.id
    ensures forall i :: 0 <= i < |bindings| ==>
      && bindings[i].local.id in res.data
      && Collect(bindings, res, state).value.data[bindings[i].external.id] == res.data[bindings[i].local.id]
  {
    forall i | 0 <= i < |bindings|
      ensures bindings[i].local.id in res.data
      ensures Collect(bindings, res, state).value.data[bindings[i].external.id] == res.data[bindings[i].local.id]
    {
      CollectValueAt(bindings, res, state, i);
    }
  }

  // -----------------------------------------------------------------------
  // One node.
  // -----------------------------------------------------------------------

  /** How one node's step ends. A `Map` input whose external name cannot be
      read fails with `DataNotFound` of that external name; an error of the
      node's function is passed on unchanged; a declared output missing from
      the function's result fails with `DataNotFound` of its local name,
      which for a `List` port is the external name itself. */
  lemma StepOutcome<T>(n: Node<T>, state: Container<T>)
    ensures View(n.inputs, state).Failure? ==>
      && n.inputs.Map?
      && Step(n, state) == Failure(View(n.inputs, state).error)
      && exists i :: 0 <= i < |n.inputs.pairs| && !Supplied(n.inputs.pairs, state.data.Keys, i)
    ensures View(n.inputs, state).Failure? ==>
      exists i :: 0 <= i < |n.inputs.pairs| && Step(n, state) == Failure(DataNotFound(n.inputs.pairs[i].external.id))
    ensures View(n.inputs, state).Success? && n.func(View(n.inputs, state).value).Failure? ==>
      Step(n, state) == n.func(View(n.inputs, state).value)
    ensures View(n.inputs, state).Success? && n.func(View(n.inputs, state).value).Success? ==>
      var res := n.func(View(n.inputs, state).value).value;
      var bs := Bindings(n.outputs);
      && Step(n, state) == Collect(bs, res, state)
      && (Step(n, state).Success? <==>
            && (forall i :: 0 <= i < |bs| ==> bs[i].local.id in res.data)
            && (forall i, j :: 0 <= i < j < |bs| ==> bs[i].local.id != bs[j].local.id))
      && (Step(n, state).Failure? ==> exists i :: 0 <= i < |bs| && Step(n, state).error == DataNotFound(bs[i].local.id))
  {
    if View(n.inputs, state).Failure? {
      RemapSucceedsIff(n.inputs.pairs, state);
    } else if n.func(View(n.inputs, state).value).Success? {
      var res := n.func(View(n.inputs, state).value).value;
      CollectSucceedsIff(Bindings(n.outputs), res, state);
    }
  }

  /** A successful step stores, under each declared external output name,
      the value the node's function returned under the matching local name;
      every other key it returned is dropped. */
  lemma StepWrites<T>(n: Node<T>, state: Container<T>)
    requires Step(n, state).Success?
    requires Distinct(Outputs(n.outputs))
    ensures View(n.inputs, state).Success? && n.func(View(n.inputs, state).value).Success?
    ensures var res := n.func(View(n.inputs, state).value).value;
      forall b :: b in Bindings(n.outputs) ==>
        b.local.id in res.data && Step(n, state).value.data[b.external.id] == res.data[b.local.id]
  {
    var res := n.func(View(n.inputs, state).value).value;
    var bs := Bindings(n.outputs);
    BindingsExternals(n.outputs);
    forall i, j | 0 <= i < j < |bs| ensures bs[i].external.id != bs[j].external.id {
      assert Externals(bs)[i] == bs[i].external && Externals(bs)[j] == bs[j].external;
      SourceEquality(bs[i].external, bs[j].external);
    }
    CollectValues(bs, res, state);
  }

  // -----------------------------------------------------------------------
  // A whole run.
  // -----------------------------------------------------------------------

  /** Running a concatenation is running the first part, then the second
      from where the first left off. */
  lemma {:induction false} RunAppend<T>(a: seq<Node<T>>, b: seq<Node<T>>, state: Container<T>)
    ensures RunNodes(a + b, state) ==
      match RunNodes(a, state)
      case Success(mid) => RunNodes(b, mid)
      case Failure(e) => Failure(e)
    decreases |a|
  {
    if a == [] {
      assert a + b == b;
    } else {
      assert (a + b)[0] == a[0];
      assert (a + b)[1..] == a[1..] + b;
      match Step(a[0], state)
      case Failure(e) =>
        assert RunNodes(a + b, state) == Failure(e);
      case Success(next) =>
        assert RunNodes(a + b, state) == RunNodes(a[1..] + b, next);
        RunAppend(a[1..], b, next);
    }
  }

  /** Running a list is running its first part, then the rest from there. */
  lemma RunSplit<T>(nodes: seq<Node<T>>, state: Container<T>, j: nat)
    requires j <= |nodes|
    ensures RunNodes(nodes, state) ==
      match RunNodes(nodes[..j], state)
      case Success(mid) => RunNodes(nodes[j..], mid)
      case Failure(e) => Failure(e)
  {
    assert nodes[..j] + nodes[j..] == nodes;
    RunAppend(nodes[..j], nodes[j..], state);
  }

  /** A failed run failed at some node `j`: every node before it stepped
      successfully, and the run reports node `j`'s error. */
  lemma {:induction false} RunStopsAtFirstError<T>(nodes: seq<Node<T>>, seed: Container<T>) returns (j: nat)
    requires RunNodes(nodes, seed).Failure?
    ensures j < |nodes| && RunNodes(nodes[..j], seed).Success?
    ensures Step(nodes[j], RunNodes(nodes[..j], seed).value).Failure?
    ensures RunNodes(nodes, seed) == Step(nodes[j], RunNodes(nodes[..j], seed).value)
    decreases |nodes|
  {
    match Step(nodes[0], seed)
    case Failure(_) =>
      j := 0;
      assert nodes[..0] == [];
    case Success(next) =>
      var k := RunStopsAtFirstError(nodes[1..], next);
      j := k + 1;
      assert nodes[1..][..k] == nodes[..j][1..];
      assert nodes[1..][k] == nodes[j];
      assert RunNodes(nodes[..j], seed) == RunNodes(nodes[..j][1..], next);
  }

  /** In a successful run where no output name is declared twice, the
      final store holds, under each output of node `j`, what node `j`'s
      step stored there: no later node overwrites it. */
  lemma RunKeepsEachOutput<T>(nodes: seq<Node<T>>, seed: Container<T>, j: nat, x: Source)
    requires RunNodes(nodes, seed).Success?
    requires Distinct(OutputNames(nodes))
    requires j < |nodes| && x in Outputs(nodes[j].outputs)
    ensures RunNodes(nodes[..j], seed).Success?
    ensures Step(nodes[j], RunNodes(nodes[..j], seed).value).Success?
    ensures x.id in Step(nodes[j], RunNodes(nodes[..j], seed).value).value.data
    ensures x.id in RunNodes(nodes, seed).value.data
    ensures RunNodes(nodes, seed).value.data[x.id] == Step(nodes[j], RunNodes(nodes[..j], seed).value).value.data[x.id]
  {
    RunSplit(nodes, seed, j);
    var mid := RunNodes(nodes[..j], seed).value;
    var rest := nodes[j..];
    assert rest[0] == nodes[j];
    var after := Step(nodes[j], mid).value;
    assert RunNodes(rest, mid) == RunNodes(rest[1..], after);
    assert x.id in NameKeys(Outputs(nodes[j].outputs)) by {
      var k :| 0 <= k < |Outputs(nodes[j].outputs)| && Outputs(nodes[j].outputs)[k] == x;
    }
    assert x.id !in NameKeys(OutputNames(rest[1..])) by {
      LaterOutputsDiffer(nodes, j, x);
    }
  }

  /** With no output declared twice, the outputs after node `j` do not
      include node `j`'s outputs, not even under the same key. */
  lemma LaterOutputsDiffer<T>(nodes: seq<Node<T>>, j: nat, x: Source)
    requires Distinct(OutputNames(nodes))
    requires j < |nodes| && x in Outputs(nodes[j].outputs)
    ensures x.id !in NameKeys(OutputNames(nodes[j + 1..]))
  {
    var later := OutputNames(nodes[j + 1..]);
    OutputNamesSplit(nodes, j);
    DistinctParts(OutputNames(nodes[..j]), Outputs(nodes[j].outputs), later);
    forall k | 0 <= k < |later| ensures later[k].id != x.id {
      SourceEquality(later[k], x);
    }
  }

  /** The middle part of a duplicate-free concatenation shares nothing with
      the last part. */
  lemma DistinctParts<X>(a: seq<X>, b: seq<X>, c: seq<X>)
    requires Distinct(a + b + c)
    ensures forall x :: x in b ==> x !in c
  {
    forall x | x in b ensures x !in c {
      var m :| 0 <= m < |b| && b[m] == x;
      assert (a + b + c)[|a| + m] == x;
      forall k | 0 <= k < |c| ensures c[k] != x {
        assert (a + b + c)[|a| + |b| + k] == c[k];
      }
    }
  }

  /** The outputs of a list are those of a prefix followed by those of the
      rest, and the prefix up to `j` ends with node `j`'s outputs. */
  lemma OutputNamesSplit<T>(nodes: seq<Node<T>>, j: nat)
    requires j < |nodes|
    ensures OutputNames(nodes) == OutputNames(nodes[..j + 1]) + OutputNames(nodes[j + 1..])
    ensures OutputNames(nodes[..j + 1]) == OutputNames(nodes[..j]) + Outputs(nodes[j].outputs)
  {
    OutputNamesCut(nodes, j + 1);
    OutputNamesLast(nodes[..j + 1]);
    assert nodes[..j + 1][..j] == nodes[..j];
  }

  /** The outputs of a list are those before the cut followed by those
      after it. */
  lemma OutputNamesCut<T>(nodes: seq<Node<T>>, k: nat)
    requires k <= |nodes|
    ensures OutputNames(nodes) == OutputNames(nodes[..k]) + OutputNames(nodes[k..])
  {
    assert nodes[..k] + nodes[k..] == nodes;
    OutputNamesAppend(nodes[..k], nodes[k..]);
  }

  /** The outputs of a non-empty list end with its last node's outputs. */
  lemma OutputNamesLast<T>(nodes: seq<Node<T>>)
    requires |nodes| > 0
    ensures OutputNames(nodes) == OutputNames(nodes[..|nodes| - 1]) + Outputs(nodes[|nodes| - 1].outputs)
  {
    var n := |nodes| - 1;
    assert nodes[..n] + [nodes[n]] == nodes;
    OutputNamesAppend(nodes[..n], [nodes[n]]);
    OutputNamesSingle(nodes[n]);
  }

  lemma OutputNamesSingle<T>(n: Node<T>)
    ensures OutputNames([n]) == Outputs(n.outputs)
  {
    assert [n][1..] == [];
  }

  /** The outputs of a concatenation are the outputs of its parts. */
  lemma {:induction false} OutputNamesAppend<T>(a: seq<Node<T>>, b: seq<Node<T>>)
    ensures OutputNames(a + b) == OutputNames(a) + OutputNames(b)
    decreases |a|
  {
    if a == [] {
      assert a + b == b;
    } else {
      assert (a + b)[1..] == a[1..] + b;
      OutputNamesAppend(a[1..], b);
    }
  }
}

=== FILE: scenarios.dfy ===
/** The pipelines the repository's own tests build, stated as lemmas about
    the model. */
module Scenarios {
  import opened Wrappers
  import opened Names
  import opened Sources
  import opened GenericContainer
  import opened Nodes
  import opened TopoSort
  import opened Pipelines
  import opened BuildFacts
  import opened QueryFacts
  import opened ComposeFacts
  import opened Legacy

  /** When no output is declared twice, a list in which every input is an
      output of an earlier node puts every producer first. */
  lemma FedBeforeProducersFirst<T>(nodes: seq<Node<T>>)
    requires OutputsApart(nodes) && FedBefore(nodes)
    ensures ProducersFirst(nodes)
  {
    forall i, j, x | 0 <= i < |nodes| && 0 <= j < |nodes| && Feeds(nodes[i], nodes[j], x) ensures i < j {
      var k :| 0 <= k < j && x in Outputs(nodes[k].outputs);
      assert i == k;
    }
  }

  // -----------------------------------------------------------------------
  // The diamond of the strict constructor's test: a feeds b, c and d;
  // c feeds d and e; b feeds e; f stands alone.
  // -----------------------------------------------------------------------

  function Diamond(): seq<StrictNode> {
    [ StrictNode(0, [], [Id("foo")]),
      StrictNode(1, [Id("foo")], [Id("zzz")]),
      StrictNode(2, [Id("foo")], [Id("bar")]),
      StrictNode(3, [Id("bar"), Id("foo")], [Id("xyz")]),
      StrictNode(4, [Id("zzz"), Id("bar")], [Id("123")]),
      StrictNode(5, [], [Id("456")]) ]
  }

  /** The diamond's nodes declare one output each: `foo`, `zzz`, `bar`,
      `xyz`, `123` and `456`. */
  lemma DiamondOutputs()
    ensures Outputs(AsNodes(Diamond())[0].outputs) == [Id("foo")]
    ensures Outputs(AsNodes(Diamond())[1].outputs) == [Id("zzz")]
    ensures Outputs(AsNodes(Diamond())[2].outputs) == [Id("bar")]
    ensures Outputs(AsNodes(Diamond())[3].outputs) == [Id("xyz")]
    ensures Outputs(AsNodes(Diamond())[4].outputs) == [Id("123")]
    ensures Outputs(AsNodes(Diamond())[5].outputs) == [Id("456")]
  {
  }

  /** Two diamond nodes declare different outputs: the six outputs already
      differ in their first character. */
  lemma DiamondOutputsDiffer(i: nat, j: nat)
    requires i < 6 && j < 6 && i != j
    ensures |Outputs(AsNodes(Diamond())[i].outputs)| == 1 && |Outputs(AsNodes(Diamond())[j].outputs)| == 1
    ensures Outputs(AsNodes(Diamond())[i].outputs)[0] != Outputs(AsNodes(Diamond())[j].outputs)[0]
  {
    DiamondOutputs();
    assert "foo"[0] == 'f' && "zzz"[0] == 'z' && "bar"[0] == 'b';
    assert "xyz"[0] == 'x' && "123"[0] == '1' && "456"[0] == '4';
  }

  /** The diamond's ids and outputs are distinct. */
  lemma DiamondApart()
    ensures DistinctIds(AsNodes(Diamond())) && OutputsApart(AsNodes(Diamond()))
  {
    var lifted := AsNodes(Diamond());
    assert forall i :: 0 <= i < 6 ==> lifted[i].id == i;
    forall i | 0 <= i < 6 ensures Distinct(Outputs(lifted[i].outputs)) {
      DiamondOutputsDiffer(i, (i + 1) % 6);
    }
    forall i, j, x | 0 <= i < 6 && 0 <= j < 6 && i != j && x in Outputs(lifted[i].outputs)
      ensures x !in Outputs(lifted[j].outputs)
    {
      DiamondOutputsDiffer(i, j);
      assert x == Outputs(lifted[i].outputs)[0];
    }
  }

  /** Each input of the diamond is an output of an earlier node. */
  lemma DiamondFedBefore()
    ensures FedBefore(AsNodes(Diamond()))
  {
    var lifted := AsNodes(Diamond());
    assert Outputs(lifted[0].outputs) == [Id("foo")];
    assert Outputs(lifted[1].outputs) == [Id("zzz")];
    assert Outputs(lifted[2].outputs) == [Id("bar")];
    forall j, x | 0 <= j < |lifted| && x in Inputs(lifted[j].inputs)
      ensures exists i :: 0 <= i < j && x in Outputs(lifted[i].outputs)
    {
      assert x == Id("foo") || x == Id("zzz") || x == Id("bar");
      if x == Id("foo") {
        assert j > 0 && x in Outputs(lifted[0].outputs);
      } else if x == Id("zzz") {
        assert j > 1 && x in Outputs(lifted[1].outputs);
      } else {
        assert j > 2 && x in Outputs(lifted[2].outputs);
      }
    }
  }

  /** Nodes fed from earlier nodes leave no input without a producer. */
  lemma FedBeforeNothingMissing(nodes: seq<StrictNode>)
    requires FedBefore(AsNodes(nodes))
    ensures Unproduced(nodes) == []
  {
    var lifted := AsNodes(nodes);
    forall x ensures !Missing(nodes, x) {
      if exists j :: 0 <= j < |nodes| && x in nodes[j].inputs {
        var j :| 0 <= j < |nodes| && x in nodes[j].inputs;
        assert x in Inputs(lifted[j].inputs);
        var i :| 0 <= i < j && x in Outputs(lifted[i].outputs);
        assert x in nodes[i].outputs;
      }
    }
    UnproducedEmpty(nodes);
  }

  /** The diamond builds, and every stored node comes after the nodes that
      produce its inputs. */
  lemma DiamondBuilds()
    ensures StrictFromNodes(Diamond()).Built?
    ensures FedInOrder(StrictFromNodes(Diamond()).nodes)
  {
    var nodes := Diamond();
    var lifted := AsNodes(nodes);
    DiamondApart();
    DiamondFedBefore();
    FedBeforeProducersFirst(lifted);
    DistinctOutputsIffApart(lifted);
    BuildKeepsOrder(lifted);
    WireSucceedsIff(lifted);
    FedBeforeNothingMissing(nodes);
    StrictMatchesCurrent(nodes);
    StrictBuildFeedsInOrder(nodes);
  }

  // -----------------------------------------------------------------------
  // The adder of the namespace test: one node summing `x` and `y` into
  // `x+y`, run bare and inside the namespace "calc".
  // -----------------------------------------------------------------------

  /** The adder's function: reads `x` and `y`, returns a fresh store with
      their sum under `x+y`. */
  function SumXY(c: Container<int>): Result<Container<int>> {
    var x :- Get(c, "x");
    var y :- Get(c, "y");
    Insert(GenericContainer.New(), "x+y", x + y)
  }

  function NumCalc(): Node<int> {
    Nodes.New(Mint(0), FromNames([Id("x"), Id("y")]), FromNames([Id("x+y")]), SumXY).0
  }

  function Store2(k1: string, v1: int, k2: string, v2: int): Container<int> {
    Container(map[k1 := v1, k2 := v2])
  }

  /** A one-node list declares that node's names. */
  lemma SingleNames<T>(n: Node<T>)
    ensures OutputNames([n]) == Outputs(n.outputs) && InputNames([n]) == Inputs(n.inputs)
    ensures forall avoid :: InputsNotIn([n], avoid) == Without(Inputs(n.inputs), avoid)
    ensures forall avoid :: OutputsNotIn([n], avoid) == Without(Outputs(n.outputs), avoid)
  {
    assert [n][1..] == [];
  }

  /** Filtering out names none of which occur changes nothing. */
  lemma {:induction false} WithoutNone(xs: seq<Source>, avoid: seq<Source>)
    requires forall x :: x in xs ==> x !in avoid
    ensures Without(xs, avoid) == xs
    decreases |xs|
  {
    if xs != [] {
      assert xs[0] in xs;
      WithoutNone(xs[1..], avoid);
      assert xs == [xs[0]] + xs[1..];
    }
  }

  /** Two names in order sort to themselves. */
  lemma SortPair(a: Source, b: Source)
    requires Le(a, b)
    ensures Sort([a, b]) == [a, b]
  {
    assert [a, b][1..] == [b];
    assert Sort([b]) == [b] by { assert [b][1..] == []; }
  }

  /** The adder's names: `x`, `y` and `x+y` differ, and `x` sorts first. */
  lemma AdderNames()
    ensures Id("x") != Id("y") && Id("x") != Id("x+y") && Id("y") != Id("x+y")
    ensures Le(Id("x"), Id("y"))
    ensures Namespaced("calc", Id("x")) == Id("calc.x") && Namespaced("calc", Id("y")) == Id("calc.y")
    ensures Namespaced("calc", Id("x+y")) == Id("calc.x+y")
  {
    assert "x"[0] != "y"[0];
    assert |"x"| != |"x+y"|;
  }

  /** A node shaped like the adder: it reads `x` and `y` as listed
      inputs, writes `x+y` and computes with `SumXY`. */
  ghost predicate IsAdder(n: Node<int>) {
    n.inputs == List([Id("x"), Id("y")]) && n.outputs == List([Id("x+y")]) && n.func == SumXY
  }

  /** The adder as renamed into "calc": mapped inputs and output. */
  ghost predicate IsCalcAdder(n: Node<int>) {
    && n.inputs == Map([Binding(Id("x"), Id("calc.x")), Binding(Id("y"), Id("calc.y"))])
    && n.outputs == Map([Binding(Id("x+y"), Id("calc.x+y"))])
    && n.func == SumXY
  }

  lemma NumCalcIsAdder()
    ensures IsAdder(NumCalc())
  {
  }

  /** A single node whose outputs are distinct and which reads none of its
      own outputs builds into a pipeline holding just that node. */
  lemma SingleBuilds<T>(n: Node<T>)
    requires Distinct(Outputs(n.outputs))
    requires forall x :: x in Inputs(n.inputs) ==> x !in Outputs(n.outputs)
    ensures FromNodes([n]).Success? && FromNodes([n]).value.nodes == [n]
  {
    SingleNames(n);
    assert ProducersFirst([n]) by {
      forall i, j, x | 0 <= i < 1 && 0 <= j < 1 ensures !Feeds([n][i], [n][j], x) {
        assert [n][i] == n && [n][j] == n;
      }
    }
    BuildKeepsOrder([n]);
  }

  /** The adder's step, on any state holding `x` and `y`, stores their sum
      under `x+y` and changes nothing else. */
  lemma AdderStep(n: Node<int>, state: Container<int>)
    requires IsAdder(n) && "x" in state.data && "y" in state.data
    ensures Step(n, state) == Success(Upsert(state, "x+y", state.data["x"] + state.data["y"]))
  {
    var res := Container(map["x+y" := state.data["x"] + state.data["y"]]);
    assert SumXY(state) == Success(res);
    assert Bindings(n.outputs) == [Binding(Id("x+y"), Id("x+y"))];
    var out := Upsert(state, "x+y", res.data["x+y"]);
    assert Collect(Bindings(n.outputs), res, state) == Collect([], Container(res.data - {"x+y"}), out);
  }

  /** The renamed adder's step, on any state holding `calc.x` and `calc.y`,
      stores their sum under `calc.x+y`. */
  lemma CalcAdderStep(n: Node<int>, state: Container<int>)
    requires IsCalcAdder(n) && "calc.x" in state.data && "calc.y" in state.data
    ensures Step(n, state).Success?
    ensures "calc.x+y" in Step(n, state).value.data
    ensures Step(n, state).value.data["calc.x+y"] == state.data["calc.x"] + state.data["calc.y"]
  {
    var pairs := n.inputs.pairs;
    var v1 := Upsert(state, "x", state.data["calc.x"]);
    var v2 := Upsert(v1, "y", state.data["calc.y"]);
    assert Remap(pairs, state) == Remap(pairs[1..], v1);
    assert Remap(pairs[1..], v1) == Remap([], v2);
    assert v2.data["x"] == state.data["calc.x"] && v2.data["y"] == state.data["calc.y"];
    var res := Container(map["x+y" := v2.data["x"] + v2.data["y"]]);
    assert SumXY(v2) == Success(res);
    var out := Upsert(state, "calc.x+y", res.data["x+y"]);
    assert Collect(n.outputs.pairs, res, state) == Collect([], Container(res.data - {"x+y"}), out);
  }

  /** A pipeline holding one node runs as that node's step. */
  lemma SingleRuns<T>(p: Pipeline<T>, state: Container<T>)
    requires |p.nodes| == 1
    ensures Run(p, state) == Step(p.nodes[0], state)
  {
    assert p.nodes[1..] == [];
    var r := Step(p.nodes[0], state);
    if r.Success? {
      assert RunNodes(p.nodes[1..], r.value) == Success(r.value);
    }
  }

  /** A pipeline built from one node reports that node's inputs it does not
      produce itself, and its outputs it does not read, in sorted order. */
  lemma SingleQueries<T>(n: Node<T>, p: Pipeline<T>)
    requires FromNodes([n]) == Success(p)
    ensures FreeInputs(p) == Sort(Without(Inputs(n.inputs), Outputs(n.outputs)))
    ensures TerminalOutputs(p) == Sort(Without(Outputs(n.outputs), Inputs(n.inputs)))
  {
    var order := BuildRearranges([n], p);
    assert p.nodes == [n] by {
      assert order[0] < 1;
    }
    SingleNames(n);
    FreeInputsAreUnproduced([n], p);
    TerminalOutputsAreUnconsumed([n], p);
  }

  /** The adder builds on its own, as the only node. */
  lemma NumCalcBuilds()
    ensures FromNodes([NumCalc()]).Success? && FromNodes([NumCalc()]).value.nodes == [NumCalc()]
    ensures PortsOk([NumCalc()])
  {
    NumCalcIsAdder();
    AdderBuilds(NumCalc());
  }

  /** Any node shaped like the adder builds on its own. */
  lemma AdderBuilds(n: Node<int>)
    requires IsAdder(n)
    ensures FromNodes([n]).Success? && FromNodes([n]).value.nodes == [n]
    ensures PortsOk([n])
  {
    AdderNames();
    assert Outputs(n.outputs) == [Id("x+y")] && Inputs(n.inputs) == [Id("x"), Id("y")];
    assert Distinct([Id("x+y")]) && Distinct([Id("x"), Id("y")]);
    SingleBuilds(n);
    assert PortOk(n.inputs) && PortOk(n.outputs);
    assert [n][0] == n;
  }

  /** The bare adder reports `x` and `y` as inputs and `x+y` as output. */
  lemma NumCalcQueries(p: Pipeline<int>)
    requires FromNodes([NumCalc()]) == Success(p)
    ensures FreeInputs(p) == [Id("x"), Id("y")]
    ensures TerminalOutputs(p) == [Id("x+y")]
  {
    var n := NumCalc();
    NumCalcIsAdder();
    AdderNames();
    SingleQueries(n, p);
    assert Outputs(n.outputs) == [Id("x+y")] && Inputs(n.inputs) == [Id("x"), Id("y")];
    WithoutNone([Id("x"), Id("y")], [Id("x+y")]);
    WithoutNone([Id("x+y")], [Id("x"), Id("y")]);
    SortPair(Id("x"), Id("y"));
    assert Sort([Id("x+y")]) == [Id("x+y")] by { assert [Id("x+y")][1..] == []; }
  }

  /** Run on x = -3 and y = 12, the adder stores 9 under `x+y`. */
  lemma NumCalcRuns(p: Pipeline<int>)
    requires FromNodes([NumCalc()]) == Success(p)
    ensures Run(p, Store2("x", -3, "y", 12)).Success?
    ensures "x+y" in Run(p, Store2("x", -3, "y", 12)).value.data
    ensures Run(p, Store2("x", -3, "y", 12)).value.data["x+y"] == 9
  {
    NumCalcBuilds();
    NumCalcIsAdder();
    var seed := Store2("x", -3, "y", 12);
    SingleRuns(p, seed);
    AdderStep(p.nodes[0], seed);
  }

  /** Inside "calc" the adder reads `calc.x` and `calc.y` under its own
      names and writes `x+y` back as `calc.x+y`. */
  lemma NumCalcNamespacedPorts(id: NodeId)
    ensures IsCalcAdder(NamespaceNode(NumCalc(), "calc", id))
  {
    var n := NumCalc();
    var f := Prefixer("calc");
    AdderNames();
    NumCalcIsAdder();
    assert Distinct([Id("x"), Id("y")]);
    MapNamesInOrder(n.inputs, f);
    MapNamesInOrder(n.outputs, f);
    var ins := MapNames(n.inputs, f).pairs;
    var outs := MapNames(n.outputs, f).pairs;
    assert |ins| == 2 && ins[0].local == Id("x") && ins[1].local == Id("y");
    assert ins[0].external == Id("calc.x") && ins[1].external == Id("calc.y");
    assert |outs| == 1 && outs[0].local == Id("x+y") && outs[0].external == Id("calc.x+y");
  }

  /** Namespacing the adder under "calc" succeeds and holds the renamed
      adder. */
  lemma NumCalcNamespaces(p: Pipeline<int>, m: Mint)
    requires FromNodes([NumCalc()]) == Success(p)
    ensures WithNamespace(p, "calc", m).0.Success?
    ensures WithNamespace(p, "calc", m).0.value.nodes == [NamespaceNode(NumCalc(), "calc", m.next)]
  {
    NumCalcBuilds();
    NamespacedBuildsInOrder([NumCalc()], p, "calc", m);
  }

  /** Namespacing two names prefixes each. */
  lemma PrefixTwo(ns: string, a: Source, b: Source)
    ensures PrefixAll(ns, [a, b]) == [Namespaced(ns, a), Namespaced(ns, b)]
    ensures PrefixAll(ns, [a]) == [Namespaced(ns, a)]
  {
  }

  /** Inside "calc" the adder reports `calc.x` and `calc.y` as inputs and
      `calc.x+y` as output. */
  lemma NumCalcNamespacedQueries(p: Pipeline<int>, m: Mint, q: Pipeline<int>)
    requires FromNodes([NumCalc()]) == Success(p)
    requires WithNamespace(p, "calc", m).0 == Success(q)
    ensures FreeInputs(q) == [Id("calc.x"), Id("calc.y")]
    ensures TerminalOutputs(q) == [Id("calc.x+y")]
  {
    NumCalcBuilds();
    AdderNames();
    NumCalcQueries(p);
    NamespacedFreeInputs([NumCalc()], p, "calc", m, q);
    NamespacedTerminalOutputs([NumCalc()], p, "calc", m, q);
    PrefixTwo("calc", Id("x"), Id("y"));
    PrefixTwo("calc", Id("x+y"), Id("x+y"));
  }

  /** Inside "calc", run on calc.x = 5 and calc.y = 10, the adder stores 15
      under `calc.x+y`. */
  lemma NumCalcNamespacedRuns(p: Pipeline<int>, m: Mint, q: Pipeline<int>)
    requires FromNodes([NumCalc()]) == Success(p)
    requires WithNamespace(p, "calc", m).0 == Success(q)
    ensures Run(q, Store2("calc.x", 5, "calc.y", 10)).Success?
    ensures "calc.x+y" in Run(q, Store2("calc.x", 5, "calc.y", 10)).value.data
    ensures Run(q, Store2("calc.x", 5, "calc.y", 10)).value.data["calc.x+y"] == 15
  {
    NumCalcNamespaces(p, m);
    NumCalcNamespacedPorts(m.next);
    var seed := Store2("calc.x", 5, "calc.y", 10);
    SingleRuns(q, seed);
    CalcAdderStep(q.nodes[0], seed);
  }

  // -----------------------------------------------------------------------
  // The map-port adder of the namespace test: the same sum, computed under
  // the node's own names `my_x`, `my_y` and `my_x+y`, run bare and inside
  // the namespace "foo".
  // -----------------------------------------------------------------------

  /** The map adder's function: reads `my_x` and `my_y`, returns a fresh
      store with their sum under `my_x+y`. */
  function SumMine(c: Container<int>): Result<Container<int>> {
    var x :- Get(c, "my_x");
    var y :- Get(c, "my_y");
    Insert(GenericContainer.New(), "my_x+y", x + y)
  }

  function NumCalcMap(): Node<int> {
    Nodes.New(Mint(0),
              FromPairs([Binding(Id("my_x"), Id("x")), Binding(Id("my_y"), Id("y"))]),
              FromPairs([Binding(Id("my_x+y"), Id("x+y"))]),
              SumMine).0
  }

  /** A node shaped like the map adder, reading `ex` and `ey` as `my_x` and
      `my_y` and writing `my_x+y` back as `eo`. */
  ghost predicate IsMapAdder(n: Node<int>, ex: Source, ey: Source, eo: Source) {
    && n.inputs == Map([Binding(Id("my_x"), ex), Binding(Id("my_y"), ey)])
    && n.outputs == Map([Binding(Id("my_x+y"), eo)])
    && n.func == SumMine
  }

  /** The map adder's local names differ. */
  lemma MineNames()
    ensures Id("my_x") != Id("my_y")
  {
    assert "my_x"[3] != "my_y"[3];
  }

  /** Two bindings with different local names convert to themselves. */
  lemma FromTwoPairs(a: Binding, b: Binding)
    requires a.local != b.local
    ensures FromPairs([a, b]) == Map([a, b])
  {
    assert [a, b][1..] == [b];
    assert [b][1..] == [];
    assert Put([], a.local, a.external) == [a];
    assert Put([a], b.local, b.external) == [a, b];
    calc {
      PutAll([], [a, b]);
      PutAll([a], [b]);
      PutAll([a, b], []);
    }
  }

  lemma NumCalcMapIsAdder()
    ensures IsMapAdder(NumCalcMap(), Id("x"), Id("y"), Id("x+y"))
  {
    MineNames();
    FromTwoPairs(Binding(Id("my_x"), Id("x")), Binding(Id("my_y"), Id("y")));
    assert Put([], Id("my_x+y"), Id("x+y")) == [Binding(Id("my_x+y"), Id("x+y"))];
  }

  /** The map adder's view of a state holding `ex` and `ey`: the state with
      their values copied under `my_x` and `my_y`. */
  lemma MapAdderView(n: Node<int>, ex: Source, ey: Source, eo: Source, state: Container<int>)
    requires IsMapAdder(n, ex, ey, eo)
    requires ex.id in state.data && ey.id in state.data && ey.id != "my_x"
    ensures View(n.inputs, state) == Success(Upsert(Upsert(state, "my_x", state.data[ex.id]), "my_y", state.data[ey.id]))
  {
    var pairs := n.inputs.pairs;
    var v1 := Upsert(state, "my_x", state.data[ex.id]);
    assert Remap(pairs, state) == Remap(pairs[1..], v1);
    assert Remap(pairs[1..], v1) == Remap([], Upsert(v1, "my_y", state.data[ey.id]));
  }

  /** The map adder's step, on any state holding `ex` and `ey` (where `ey`
      is not the local name `my_x`), stores their sum under `eo`. */
  lemma MapAdderStep(n: Node<int>, ex: Source, ey: Source, eo: Source, state: Container<int>)
    requires IsMapAdder(n, ex, ey, eo)
    requires ex.id in state.data && ey.id in state.data && ey.id != "my_x"
    ensures Step(n, state).Success?
    ensures eo.id in Step(n, state).value.data
    ensures Step(n, state).value.data[eo.id] == state.data[ex.id] + state.data[ey.id]
  {
    MapAdderView(n, ex, ey, eo, state);
    MineNames();
    var v2 := Upsert(Upsert(state, "my_x", state.data[ex.id]), "my_y", state.data[ey.id]);
    assert v2.data["my_x"] == state.data[ex.id] && v2.data["my_y"] == state.data[ey.id];
    var res := Container(map["my_x+y" := v2.data["my_x"] + v2.data["my_y"]]);
    assert SumMine(v2) == Success(res);
    var out := Upsert(state, eo.id, res.data["my_x+y"]);
    assert Collect(n.outputs.pairs, res, state) == Collect([], Container(res.data - {"my_x+y"}), out);
  }

  /** A map adder whose output is neither of its inputs builds on its own,
      as the only node, and its ports keep every entry when renamed. */
  lemma MapAdderBuilds(n: Node<int>, ex: Source, ey: Source, eo: Source)
    requires IsMapAdder(n, ex, ey, eo) && eo != ex && eo != ey
    ensures FromNodes([n]).Success? && FromNodes([n]).value.nodes == [n]
    ensures PortsOk([n])
  {
    MineNames();
    assert Outputs(n.outputs) == [eo] && Inputs(n.inputs) == [ex, ey];
    assert Distinct([eo]);
    SingleBuilds(n);
    assert PortOk(n.inputs) && PortOk(n.outputs);
    assert [n][0] == n;
  }

  /** The map adder builds on its own, as the only node. */
  lemma NumCalcMapBuilds()
    ensures FromNodes([NumCalcMap()]).Success? && FromNodes([NumCalcMap()]).value.nodes == [NumCalcMap()]
    ensures PortsOk([NumCalcMap()])
  {
    NumCalcMapIsAdder();
    AdderNames();
    MapAdderBuilds(NumCalcMap(), Id("x"), Id("y"), Id("x+y"));
  }

  /** Run on x = -5 and y = 6, the map adder stores 1 under `x+y`. */
  lemma NumCalcMapRuns(p: Pipeline<int>)
    requires FromNodes([NumCalcMap()]) == Success(p)
    ensures Run(p, Store2("x", -5, "y", 6)).Success?
    ensures "x+y" in Run(p, Store2("x", -5, "y", 6)).value.data
    ensures Run(p, Store2("x", -5, "y", 6)).value.data["x+y"] == 1
  {
    NumCalcMapBuilds();
    NumCalcMapIsAdder();
    var seed := Store2("x", -5, "y", 6);
    SingleRuns(p, seed);
    MapAdderStep(p.nodes[0], Id("x"), Id("y"), Id("x+y"), seed);
  }

  /** Inside "foo" the map adder keeps its own names and reads `foo.x` and
      `foo.y`, writing `foo.x+y`. */
  lemma NumCalcMapNamespacedPorts(id: NodeId)
    ensures IsMapAdder(NamespaceNode(NumCalcMap(), "foo", id), Id("foo.x"), Id("foo.y"), Id("foo.x+y"))
  {
    var n := NumCalcMap();
    var f := Prefixer("foo");
    NumCalcMapIsAdder();
    MineNames();
    assert Namespaced("foo", Id("x")) == Id("foo.x") && Namespaced("foo", Id("y")) == Id("foo.y");
    assert Namespaced("foo", Id("x+y")) == Id("foo.x+y");
    MapNamesInOrder(n.inputs, f);
    MapNamesInOrder(n.outputs, f);
    var ins := MapNames(n.inputs, f).pairs;
    var outs := MapNames(n.outputs, f).pairs;
    assert |ins| == 2 && ins[0].local == Id("my_x") && ins[1].local == Id("my_y");
    assert ins[0].external == Id("foo.x") && ins[1].external == Id("foo.y");
    assert |outs| == 1 && outs[0].local == Id("my_x+y") && outs[0].external == Id("foo.x+y");
  }

  /** Namespacing the map adder under "foo" succeeds and holds the renamed
      adder. */
  lemma NumCalcMapNamespaces(p: Pipeline<int>, m: Mint)
    requires FromNodes([NumCalcMap()]) == Success(p)
    ensures WithNamespace(p, "foo", m).0.Success?
    ensures WithNamespace(p, "foo", m).0.value.nodes == [NamespaceNode(NumCalcMap(), "foo", m.next)]
  {
    NumCalcMapBuilds();
    NamespacedBuildsInOrder([NumCalcMap()], p, "foo", m);
  }

  /** Inside "foo", run on foo.x = -5 and foo.y = 6, the map adder stores 1
      under `foo.x+y`. */
  lemma NumCalcMapNamespacedRuns(p: Pipeline<int>, m: Mint, q: Pipeline<int>)
    requires FromNodes([NumCalcMap()]) == Success(p)
    requires WithNamespace(p, "foo", m).0 == Success(q)
    ensures Run(q, Store2("foo.x", -5, "foo.y", 6)).Success?
    ensures "foo.x+y" in Run(q, Store2("foo.x", -5, "foo.y", 6)).value.data
    ensures Run(q, Store2("foo.x", -5, "foo.y", 6)).value.data["foo.x+y"] == 1
  {
    NumCalcMapNamespaces(p, m);
    NumCalcMapNamespacedPorts(m.next);
    var seed := Store2("foo.x", -5, "foo.y", 6);
    SingleRuns(q, seed);
    MapAdderStep(q.nodes[0], Id("foo.x"), Id("foo.y"), Id("foo.x+y"), seed);
  }
}

=== FILE: source.dfy ===
/** Port specifications (`NodeSources`): a node's inputs or outputs are either
    a plain list of external names, or a map from node-local names to
    external names. The source's `HashMap` is modelled as an association list
    in its iteration order. That order is unspecified, so the properties
    below hold for every list given. The one exception is `MapNames`: the
    fresh map it builds is given the old binding order, which the source
    does not promise; `MapNamesExternals` states what holds whatever the
    order. */
module Sources {
  import opened Names
  import opened Wrappers

  /** One entry of a `Map` port: the node sees `local`, the store holds
      `external`. */
  datatype Binding = Binding(local: Source, external: Source)

  datatype NodeSources =
    | List(names: seq<Source>)
    | Map(pairs: seq<Binding>)

  /** The keys of an association list are unique, as a hash map's are. */
  ghost predicate UniqueLocals(pairs: seq<Binding>) {
    forall i, j :: 0 <= i < j < |pairs| ==> pairs[i].local != pairs[j].local
  }

  ghost predicate Valid(s: NodeSources) {
    s.Map? ==> UniqueLocals(s.pairs)
  }

  /** The external name the association list holds for `l`: the last entry
      with that local name wins, as with repeated `HashMap::insert`. */
  function Lookup(pairs: seq<Binding>, l: Source): (r: Option<Source>)
  {
    if pairs == [] then None
    else if pairs[|pairs| - 1].local == l then Some(pairs[|pairs| - 1].external)
    else Lookup(pairs[..|pairs| - 1], l)
  }

  /** Lookup finds an entry exactly when the list has one with that key, and
      what it finds is the external side of such an entry. */
  lemma {:induction false} LookupFinds(pairs: seq<Binding>, l: Source)
    ensures Lookup(pairs, l).Some? ==> exists i :: 0 <= i < |pairs| && pairs[i] == Binding(l, Lookup(pairs, l).value)
    ensures Lookup(pairs, l).None? <==> forall i :: 0 <= i < |pairs| ==> pairs[i].local != l
    decreases |pairs|
  {
    if pairs != [] && pairs[|pairs| - 1].local != l {
      var init := pairs[..|pairs| - 1];
      LookupFinds(init, l);
      assert forall i :: 0 <= i < |init| ==> init[i] == pairs[i];
    }
  }

  /** With unique keys, each entry is what the list holds for its key. */
  lemma {:induction false} LookupUnique(pairs: seq<Binding>, i: nat)
    requires UniqueLocals(pairs)
    requires i < |pairs|
    ensures Lookup(pairs, pairs[i].local) == Some(pairs[i].external)
    decreases |pairs|
  {
    var n := |pairs| - 1;
    if i < n {
      var init := pairs[..n];
      assert init[i] == pairs[i];
      LookupUnique(init, i);
    }
  }

  /** Lookup in a concatenation: the second part wins. */
  lemma {:induction false} LookupAppend(a: seq<Binding>, b: seq<Binding>, l: Source)
    ensures Lookup(a + b, l) == if Lookup(b, l).Some? then Lookup(b, l) else Lookup(a, l)
    decreases |b|
  {
    if b == [] {
      assert a + b == a;
    } else {
      var n := |b| - 1;
      assert (a + b)[..|a + b| - 1] == a + b[..n];
      assert (a + b)[|a + b| - 1] == b[n];
      LookupAppend(a, b[..n], l);
    }
  }

  /** The external side of an association list, in order. */
  function Externals(pairs: seq<Binding>): (r: seq<Source>)
    ensures |r| == |pairs|
    ensures forall i :: 0 <= i < |pairs| ==> r[i] == pairs[i].external
  {
    if pairs == [] then [] else [pairs[0].external] + Externals(pairs[1..])
  }

  /** The local side of an association list, in order. */
  function Locals(pairs: seq<Binding>): (r: seq<Source>)
    ensures |r| == |pairs|
    ensures forall i :: 0 <= i < |pairs| ==> r[i] == pairs[i].local
  {
    if pairs == [] then [] else [pairs[0].local] + Locals(pairs[1..])
  }

  /** External input names: the list itself, or the map's values. */
  function Inputs(s: NodeSources): (r: seq<Source>)
    ensures s.List? ==> r == s.names
    ensures s.Map? ==> |r| == |s.pairs| && forall i :: 0 <= i < |r| ==> r[i] == s.pairs[i].external
  {
    match s
    case List(l) => l
    case Map(m) => Externals(m)
  }

  /** External output names: the list itself, or the map's values. */
  function Outputs(s: NodeSources): (r: seq<Source>)
    ensures s.List? ==> r == s.names
    ensures s.Map? ==> |r| == |s.pairs| && forall i :: 0 <= i < |r| ==> r[i] == s.pairs[i].external
  {
    match s
    case List(l) => l
    case Map(m) => Externals(m)
  }

  /** How a run reads a port: a list name is both the local and the external
      name; a map entry keeps its two sides. */
  function Bindings(s: NodeSources): (r: seq<Binding>)
    ensures s.List? ==> |r| == |s.names| && forall i :: 0 <= i < |r| ==> r[i] == Binding(s.names[i], s.names[i])
    ensures s.Map? ==> r == s.pairs
  {
    match s
    case List(l) => seq(|l|, i requires 0 <= i < |l| => Binding(l[i], l[i]))
    case Map(m) => m
  }

  /** The external names of a port are the external sides of its bindings. */
  lemma BindingsExternals(s: NodeSources)
    ensures Externals(Bindings(s)) == Inputs(s) == Outputs(s)
  {
  }

  /** `HashMap::insert` on an association list: replace the entry with the
      same key in place, or append a new one. */
  function Put(pairs: seq<Binding>, local: Source, external: Source): (r: seq<Binding>)
    requires UniqueLocals(pairs)
    ensures UniqueLocals(r)
    ensures (forall i :: 0 <= i < |pairs| ==> pairs[i].local != local) ==> r == pairs + [Binding(local, external)]
  {
    if i :| 0 <= i < |pairs| && pairs[i].local == local then pairs[i := Binding(local, external)]
    else pairs + [Binding(local, external)]
  }

  /** After a put, the key holds the new value and every other key is unchanged. */
  lemma PutLookup(pairs: seq<Binding>, local: Source, external: Source, l: Source)
    requires UniqueLocals(pairs)
    ensures Lookup(Put(pairs, local, external), l) == if l == local then Some(external) else Lookup(pairs, l)
  {
    var r := Put(pairs, local, external);
    if i :| 0 <= i < |pairs| && pairs[i].local == local {
      assert r == pairs[i := Binding(local, external)];
      if l == local {
        LookupUnique(r, i);
      } else if j :| 0 <= j < |pairs| && pairs[j].local == l {
        LookupUnique(r, j);
        LookupUnique(pairs, j);
      } else {
        LookupFinds(r, l);
        LookupFinds(pairs, l);
      }
    } else {
      assert r[..|r| - 1] == pairs;
    }
  }

  /** Inserts every binding in order, later keys overwriting earlier ones. */
  function PutAll(acc: seq<Binding>, ps: seq<Binding>): (r: seq<Binding>)
    requires UniqueLocals(acc)
    ensures UniqueLocals(r)
    decreases |ps|
  {
    if ps == [] then acc
    else PutAll(Put(acc, ps[0].local, ps[0].external), ps[1..])
  }

  /** PutAll holds what the plain concatenation holds, key by key. */
  lemma {:induction false} PutAllLookup(acc: seq<Binding>, ps: seq<Binding>, l: Source)
    requires UniqueLocals(acc)
    ensures Lookup(PutAll(acc, ps), l) == Lookup(acc + ps, l)
    decreases |ps|
  {
    if ps == [] {
      assert acc + ps == acc;
    } else {
      var acc' := Put(acc, ps[0].local, ps[0].external);
      var r := PutAll(acc', ps[1..]);
      assert r == PutAll(acc, ps);
      PutAllLookup(acc', ps[1..], l);
      LookupPutStep(acc, ps[0], ps[1..], l);
      ConsAppend(acc, ps);
    }
  }

  lemma ConsAppend<X>(a: seq<X>, b: seq<X>)
    requires |b| > 0
    ensures a + b == (a + [b[0]]) + b[1..]
  {
  }

  lemma LookupPutStep(acc: seq<Binding>, b: Binding, rest: seq<Binding>, l: Source)
    requires UniqueLocals(acc)
    ensures Lookup(Put(acc, b.local, b.external) + rest, l) == Lookup((acc + [b]) + rest, l)
  {
    LookupAppend(Put(acc, b.local, b.external), rest, l);
    LookupAppend(acc + [b], rest, l);
    LookupAppend(acc, [b], l);
    PutLookup(acc, b.local, b.external, l);
  }

  /** `PutAll` leaves a list with unique, new keys as the plain concatenation. */
  lemma {:induction false} PutAllFresh(acc: seq<Binding>, ps: seq<Binding>)
    requires UniqueLocals(acc)
    requires UniqueLocals(acc + ps)
    ensures PutAll(acc, ps) == acc + ps
    decreases |ps|
  {
    if ps != [] {
      forall i | 0 <= i < |acc| ensures acc[i].local != ps[0].local {
        assert (acc + ps)[i] == acc[i] && (acc + ps)[|acc|] == ps[0];
      }
      assert acc + [ps[0]] + ps[1..] == acc + ps;
      PutAllFresh(acc + [ps[0]], ps[1..]);
    }
  }

  // ---------------------------------------------------------------------
  // Renaming (`NodeSources::map`).
  // ---------------------------------------------------------------------

  /** Each listed name bound to its renaming. */
  function RenameList(l: seq<Source>, f: Source -> Source): (r: seq<Binding>)
    ensures |r| == |l| && forall i :: 0 <= i < |l| ==> r[i] == Binding(l[i], f(l[i]))
  {
    seq(|l|, i requires 0 <= i < |l| => Binding(l[i], f(l[i])))
  }

  /** Each binding with its external name renamed. */
  function RenamePairs(m: seq<Binding>, f: Source -> Source): (r: seq<Binding>)
    ensures |r| == |m| && forall i :: 0 <= i < |m| ==> r[i] == Binding(m[i].local, f(m[i].external))
  {
    seq(|m|, i requires 0 <= i < |m| => Binding(m[i].local, f(m[i].external)))
  }

  /** Renames the external names by `f` and keeps the local ones; a list
      becomes a map from each name to its renaming. */
  function MapNames(s: NodeSources, f: Source -> Source): (r: NodeSources)
    ensures r.Map? && UniqueLocals(r.pairs)
  {
    match s
    case List(l) => Map(PutAll([], RenameList(l, f)))
    case Map(m) => Map(PutAll([], RenamePairs(m, f)))
  }

  /** On a list, the renamed port maps `n` to `f(n)` if `n` is listed and
      to nothing otherwise. */
  lemma MapNamesListAt(l: seq<Source>, f: Source -> Source, n: Source)
    ensures Lookup(MapNames(List(l), f).pairs, n) == if n in l then Some(f(n)) else None
  {
    var ps := RenameList(l, f);
    assert [] + ps == ps;
    PutAllLookup([], ps, n);
    LookupFinds(ps, n);
    if n in l {
      var i :| 0 <= i < |l| && l[i] == n;
      assert ps[i].local == n;
    }
  }

  /** On a list, the renamed port maps exactly the listed names, each `n`
      to `f(n)`. */
  lemma MapNamesList(l: seq<Source>, f: Source -> Source)
    ensures forall n :: Lookup(MapNames(List(l), f).pairs, n) == if n in l then Some(f(n)) else None
  {
    forall n ensures Lookup(MapNames(List(l), f).pairs, n) == if n in l then Some(f(n)) else None {
      MapNamesListAt(l, f, n);
    }
  }

  /** Renaming a map binds the same local names as the map did. */
  lemma RenamePairsUnique(m: seq<Binding>, f: Source -> Source)
    requires UniqueLocals(m)
    ensures UniqueLocals(RenamePairs(m, f))
    ensures PutAll([], RenamePairs(m, f)) == RenamePairs(m, f)
  {
    var ps := RenamePairs(m, f);
    assert forall i :: 0 <= i < |m| ==> ps[i].local == m[i].local;
    assert [] + ps == ps;
    PutAllFresh([], ps);
  }

  /** On a map, the renamed port maps `l` to the renaming of what the map
      held for it. */
  lemma MapNamesMapAt(m: seq<Binding>, f: Source -> Source, l: Source)
    requires UniqueLocals(m)
    ensures Lookup(MapNames(Map(m), f).pairs, l) ==
              if Lookup(m, l).Some? then Some(f(Lookup(m, l).value)) else None
  {
    var ps := RenamePairs(m, f);
    RenamePairsUnique(m, f);
    if j :| 0 <= j < |m| && m[j].local == l {
      LookupUnique(m, j);
      LookupUnique(ps, j);
    } else {
      LookupFinds(m, l);
      LookupFinds(ps, l);
    }
  }

  /** On a map, the renamed port has the same keys and each value `v`
      becomes `f(v)`. */
  lemma MapNamesMap(m: seq<Binding>, f: Source -> Source)
    requires UniqueLocals(m)
    ensures forall l :: Lookup(MapNames(Map(m), f).pairs, l) ==
              if Lookup(m, l).Some? then Some(f(Lookup(m, l).value)) else None
  {
    forall l ensures Lookup(MapNames(Map(m), f).pairs, l) ==
                       if Lookup(m, l).Some? then Some(f(Lookup(m, l).value)) else None {
      MapNamesMapAt(m, f, l);
    }
  }

  /** On a duplicate-free list or a well-formed map, renaming keeps the
      entries in order, so its external names are the renamed originals. */
  lemma MapNamesInOrder(s: NodeSources, f: Source -> Source)
    requires s.List? ==> Distinct(s.names)
    requires Valid(s)
    ensures Locals(MapNames(s, f).pairs) == Locals(Bindings(s))
    ensures forall i :: 0 <= i < |Bindings(s)| ==> MapNames(s, f).pairs[i].external == f(Bindings(s)[i].external)
  {
    match s
    case List(l) =>
      var ps := RenameList(l, f);
      PutAllFresh([], ps);
      assert [] + ps == ps;
    case Map(m) =>
      RenamePairsUnique(m, f);
  }

  /** With unique local names, an external name is held exactly when some
      local name looks it up. */
  lemma ExternalIffLookup(pairs: seq<Binding>, y: Source)
    requires UniqueLocals(pairs)
    ensures y in Externals(pairs) <==> exists l :: Lookup(pairs, l) == Some(y)
  {
    if y in Externals(pairs) {
      var i :| 0 <= i < |pairs| && Externals(pairs)[i] == y;
      LookupUnique(pairs, i);
    }
    if l :| Lookup(pairs, l) == Some(y) {
      LookupFinds(pairs, l);
    }
  }

  /** Renaming any port, repeats in a list included, names exactly the
      renamed originals: `y` is an external name of the renamed port iff it
      is `f` of an external name of the original. The renamed map's order
      plays no part. */
  lemma MapNamesExternals(s: NodeSources, f: Source -> Source, y: Source)
    requires Valid(s)
    ensures y in Inputs(MapNames(s, f)) <==> exists x :: x in Inputs(s) && y == f(x)
    ensures y in Outputs(MapNames(s, f)) <==> exists x :: x in Outputs(s) && y == f(x)
  {
    assert Outputs(s) == Inputs(s) && Outputs(MapNames(s, f)) == Inputs(MapNames(s, f));
    ExternalIffLookup(MapNames(s, f).pairs, y);
    match s
    case List(l) => ListRenamedExternals(l, f, y);
    case Map(m) => MapRenamedExternals(m, f, y);
  }

  /** The list case of `MapNamesExternals`, through lookups. */
  lemma ListRenamedExternals(l: seq<Source>, f: Source -> Source, y: Source)
    ensures (exists k :: Lookup(MapNames(List(l), f).pairs, k) == Some(y)) <==> exists x :: x in l && y == f(x)
  {
    var ps := MapNames(List(l), f).pairs;
    if k :| Lookup(ps, k) == Some(y) {
      MapNamesListAt(l, f, k);
      assert k in l && y == f(k);
    }
    if x :| x in l && y == f(x) {
      MapNamesListAt(l, f, x);
      assert Lookup(ps, x) == Some(y);
    }
  }

  /** The map case of `MapNamesExternals`, through lookups. */
  lemma MapRenamedExternals(m: seq<Binding>, f: Source -> Source, y: Source)
    requires UniqueLocals(m)
    ensures (exists k :: Lookup(MapNames(Map(m), f).pairs, k) == Some(y)) <==> exists x :: x in Externals(m) && y == f(x)
  {
    var ps := MapNames(Map(m), f).pairs;
    if k :| Lookup(ps, k) == Some(y) {
      RenamedLookupFrom(m, f, k);
    }
    if x :| x in Externals(m) && y == f(x) {
      var k := RenamedLookupTo(m, f, x);
    }
  }

  /** What a renamed map holds for `k` is `f` of an original external name. */
  lemma RenamedLookupFrom(m: seq<Binding>, f: Source -> Source, k: Source)
    requires UniqueLocals(m) && Lookup(MapNames(Map(m), f).pairs, k).Some?
    ensures exists x :: x in Externals(m) && Lookup(MapNames(Map(m), f).pairs, k) == Some(f(x))
  {
    MapNamesMapAt(m, f, k);
    var v := Lookup(m, k).value;
    LookupFinds(m, k);
    var j :| 0 <= j < |m| && m[j] == Binding(k, v);
    assert Externals(m)[j] == v;
  }

  /** Every original external name `x` is renamed to `f(x)` at some key. */
  lemma RenamedLookupTo(m: seq<Binding>, f: Source -> Source, x: Source) returns (k: Source)
    requires UniqueLocals(m) && x in Externals(m)
    ensures Lookup(MapNames(Map(m), f).pairs, k) == Some(f(x))
  {
    var j :| 0 <= j < |m| && Externals(m)[j] == x;
    LookupUnique(m, j);
    k := m[j].local;
    MapNamesMapAt(m, f, k);
  }

  // ---------------------------------------------------------------------
  // Conversions (`From` implementations).
  // ---------------------------------------------------------------------

  /** From a slice or an array of names: the list, in the same order. */
  function FromNames(names: seq<Source>): (r: NodeSources)
    ensures r.List? && Inputs(r) == names && Outputs(r) == names
  {
    List(names)
  }

  /** From `()`: no names. */
  function FromUnit(): (r: NodeSources)
    ensures r.List? && Inputs(r) == [] && Outputs(r) == []
  {
    List([])
  }

  /** From a slice or an array of (local, external) pairs: a map; a later
      pair with the same local name overwrites an earlier one. */
  function FromPairs(ps: seq<Binding>): (r: NodeSources)
    ensures r.Map? && Valid(r)
  {
    Map(PutAll([], ps))
  }

  /** The map built from pairs holds, for each local name, the external
      name of the last pair with that local name, and nothing else. */
  lemma FromPairsLastWins(ps: seq<Binding>)
    ensures forall l :: Lookup(FromPairs(ps).pairs, l).Some? <==> exists i :: 0 <= i < |ps| && ps[i].local == l
    ensures forall i :: 0 <= i < |ps| && (forall j :: i < j < |ps| ==> ps[j].local != ps[i].local) ==>
              Lookup(FromPairs(ps).pairs, ps[i].local) == Some(ps[i].external)
  {
    assert [] + ps == ps;
    LookupLast(ps);
    forall l ensures Lookup(FromPairs(ps).pairs, l) == Lookup(ps, l) {
      PutAllLookup([], ps, l);
    }
    forall l ensures Lookup(ps, l).Some? <==> exists i :: 0 <= i < |ps| && ps[i].local == l {
      LookupFinds(ps, l);
    }
  }

  /** A list holds, for each key, the value of its last entry. */
  lemma {:induction false} LookupLast(ps: seq<Binding>)
    ensures forall i :: 0 <= i < |ps| && (forall j :: i < j < |ps| ==> ps[j].local != ps[i].local) ==>
              Lookup(ps, ps[i].local) == Some(ps[i].external)
    decreases |ps|
  {
    if ps != [] {
      var init := ps[..|ps| - 1];
      LookupLast(init);
      forall i | 0 <= i < |ps| && (forall j :: i < j < |ps| ==> ps[j].local != ps[i].local)
        ensures Lookup(ps, ps[i].local) == Some(ps[i].external)
      {
        if i < |ps| - 1 {
          assert init[i] == ps[i];
          forall j | i < j < |init| ensures init[j].local != init[i].local {
            assert init[j] == ps[j];
          }
        }
      }
    }
  }
}

=== FILE: topo_scenario.dfy ===
/** The ordering test of the pipeline: three nodes in a chain (sum and
    product of `a` and `b`, the square of the sum, the square plus one) are
    built, queried and run on a = 3 and b = 5, and then extended by a
    printing node that reads the last value and writes nothing. */
module TopoScenario {
  import opened Wrappers
  import opened Names
  import opened Sources
  import opened GenericContainer
  import opened Nodes
  import opened Pipelines
  import opened QueryFacts
  import opened RunFacts
  import opened ComposeFacts
  import opened Scenarios

  // -----------------------------------------------------------------------
  // The node functions.
  // -----------------------------------------------------------------------

  /** Reads `param_a` and `param_b`, returns a fresh store with their sum
      under `out_plus` and their product under `out_times`. */
  function PlusTimes(c: Container<int>): Result<Container<int>> {
    var a :- Get(c, "param_a");
    var b :- Get(c, "param_b");
    var r :- Insert(GenericContainer.New(), "out_plus", a + b);
    Insert(r, "out_times", a * b)
  }

  /** Reads `a_plus_b`, returns its square under `squared`. */
  function Square(c: Container<int>): Result<Container<int>> {
    var v :- Get(c, "a_plus_b");
    Insert(GenericContainer.New(), "squared", v * v)
  }

  /** Reads `squared`, returns it plus one under `squared_plus_1`. */
  function PlusOne(c: Container<int>): Result<Container<int>> {
    var v :- Get(c, "squared");
    Insert(GenericContainer.New(), "squared_plus_1", v + 1)
  }

  /** Reads `squared_plus_1` (the source prints it) and returns an empty
      store. */
  function Show(c: Container<int>): Result<Container<int>> {
    var v :- Get(c, "squared_plus_1");
    Success(GenericContainer.New())
  }

  // -----------------------------------------------------------------------
  // The nodes, made one after the other from one id supply.
  // -----------------------------------------------------------------------

  /** The three tagged nodes, in the order the test lists them, and the id
      supply after them. */
  function MathNodes(): (seq<Node<int>>, Mint) {
    var a := Nodes.New(Mint(0),
                       FromPairs([Binding(Id("param_a"), Id("a")), Binding(Id("param_b"), Id("b"))]),
                       FromPairs([Binding(Id("out_plus"), Id("a_plus_b")), Binding(Id("out_times"), Id("a_times_b"))]),
                       PlusTimes);
    var b := Nodes.New(a.1, FromNames([Id("a_plus_b")]), FromNames([Id("squared")]), Square);
    var c := Nodes.New(b.1, FromNames([Id("squared")]), FromNames([Id("squared_plus_1")]), PlusOne);
    ([Tag(Tag(Tag(a.0, "math"), "plus"), "multiply"), Tag(b.0, "math"), Tag(c.0, "math")], c.1)
  }

  /** The printing node, made from supply `m`. */
  function Printer(m: Mint): Node<int> {
    Nodes.New(m, FromNames([Id("squared_plus_1")]), FromUnit(), Show).0
  }

  ghost predicate IsPlusTimes(n: Node<int>) {
    && n.inputs == Map([Binding(Id("param_a"), Id("a")), Binding(Id("param_b"), Id("b"))])
    && n.outputs == Map([Binding(Id("out_plus"), Id("a_plus_b")), Binding(Id("out_times"), Id("a_times_b"))])
    && n.func == PlusTimes
  }

  ghost predicate IsSquare(n: Node<int>) {
    n.inputs == List([Id("a_plus_b")]) && n.outputs == List([Id("squared")]) && n.func == Square
  }

  ghost predicate IsPlusOne(n: Node<int>) {
    n.inputs == List([Id("squared")]) && n.outputs == List([Id("squared_plus_1")]) && n.func == PlusOne
  }

  ghost predicate IsPrinter(n: Node<int>) {
    n.inputs == List([Id("squared_plus_1")]) && n.outputs == List([]) && n.func == Show
  }

  /** The chain in the test's order. */
  ghost predicate IsChain(nodes: seq<Node<int>>) {
    |nodes| == 3 && IsPlusTimes(nodes[0]) && IsSquare(nodes[1]) && IsPlusOne(nodes[2])
  }

  /** The names the test uses are pairwise different: the single letters
      differ from each other, and the longer names all have different
      lengths. */
  lemma ChainNames()
    ensures Id("a") != Id("b") && Id("param_a") != Id("param_b") && Id("out_plus") != Id("out_times")
    ensures |"a"| == 1 && |"b"| == 1 && |"a_plus_b"| == 8 && |"a_times_b"| == 9
    ensures |"squared"| == 7 && |"squared_plus_1"| == 14
  {
    assert "a"[0] != "b"[0];
    assert "param_a"[6] != "param_b"[6];
  }

  /** The chain's nodes have the intended shapes, distinct ids, and ids the
      supply after them has already handed out. */
  lemma MathNodesShape()
    ensures IsChain(MathNodes().0)
    ensures DistinctIds(MathNodes().0) && MintedBefore(MathNodes().0, MathNodes().1)
    ensures MathNodes().0[0].tags == ["math", "plus", "multiply"]
    ensures MathNodes().0[1].tags == ["math"] && MathNodes().0[2].tags == ["math"]
  {
    ChainNames();
    FromTwoPairs(Binding(Id("param_a"), Id("a")), Binding(Id("param_b"), Id("b")));
    FromTwoPairs(Binding(Id("out_plus"), Id("a_plus_b")), Binding(Id("out_times"), Id("a_times_b")));
  }

  /** The printer has its intended shape and an id no chain node has. */
  lemma PrinterShape()
    ensures IsPrinter(Printer(MathNodes().1))
    ensures DistinctIds(MathNodes().0 + [Printer(MathNodes().1)])
  {
    MathNodesShape();
    NewIsFresh(MathNodes().0, MathNodes().1, FromNames([Id("squared_plus_1")]), FromUnit(), Show);
  }

  /** The chain declares its names node by node. */
  lemma ChainPorts(nodes: seq<Node<int>>)
    requires IsChain(nodes)
    ensures Inputs(nodes[0].inputs) == [Id("a"), Id("b")]
    ensures Outputs(nodes[0].outputs) == [Id("a_plus_b"), Id("a_times_b")]
    ensures Inputs(nodes[1].inputs) == [Id("a_plus_b")] && Outputs(nodes[1].outputs) == [Id("squared")]
    ensures Inputs(nodes[2].inputs) == [Id("squared")] && Outputs(nodes[2].outputs) == [Id("squared_plus_1")]
    ensures OutputNames(nodes) == [Id("a_plus_b"), Id("a_times_b"), Id("squared"), Id("squared_plus_1")]
    ensures InputNames(nodes) == [Id("a"), Id("b"), Id("a_plus_b"), Id("squared")]
  {
    assert nodes[1..][1..] == [nodes[2]];
    assert nodes[2..][1..] == [];
    SingleNames(nodes[2]);
    assert nodes[1..][1..] == nodes[2..];
  }

  // -----------------------------------------------------------------------
  // Building.
  // -----------------------------------------------------------------------

  /** Each node of the chain is read only by later nodes. */
  lemma ChainProducersFirst(nodes: seq<Node<int>>)
    requires IsChain(nodes)
    ensures ProducersFirst(nodes)
  {
    ChainPorts(nodes);
    ChainNames();
    forall i, j, x | 0 <= i < 3 && 0 <= j < 3 && Feeds(nodes[i], nodes[j], x) ensures i < j {
      assert x in Outputs(nodes[i].outputs) && x in Inputs(nodes[j].inputs);
    }
  }

  /** The chain builds and is stored in the order given. */
  lemma ChainBuilds(nodes: seq<Node<int>>)
    requires IsChain(nodes) && DistinctIds(nodes)
    ensures FromNodes(nodes).Success? && FromNodes(nodes).value.nodes == nodes
  {
    ChainPorts(nodes);
    ChainNames();
    ChainProducersFirst(nodes);
    BuildKeepsOrder(nodes);
  }

  // -----------------------------------------------------------------------
  // Queries.
  // -----------------------------------------------------------------------

  /** `a_plus_b` sorts before `a_times_b`: they part at the third
      character, where 'p' comes before 't'. */
  lemma PlusBeforeTimes()
    ensures StrLe("a_plus_b", "a_times_b")
  {
    assert "a_plus_b"[1..] == "_plus_b" && "a_times_b"[1..] == "_times_b";
    assert "_plus_b"[1..] == "plus_b" && "_times_b"[1..] == "times_b";
  }

  /** A string is below every string it is a prefix of. */
  lemma {:induction false} PrefixStrLe(a: string, b: string)
    requires |a| <= |b| && a == b[..|a|]
    ensures StrLe(a, b)
    decreases |a|
  {
    if |a| > 0 {
      assert a[0] == b[0];
      PrefixStrLe(a[1..], b[1..]);
    }
  }

  lemma SquaredBeforeSuccessor()
    ensures StrLe("squared", "squared_plus_1")
  {
    PrefixStrLe("squared", "squared_plus_1");
  }

  /** Names starting with 'a' sort before names starting with 's'. */
  lemma AsBeforeSs(x: string, y: string)
    requires |x| > 0 && |y| > 0 && x[0] == 'a' && y[0] == 's'
    ensures StrLe(x, y)
  {
  }

  /** Four names with each below the next are sorted. */
  lemma FourSorted(s: seq<Source>)
    requires |s| == 4 && Le(s[0], s[1]) && Le(s[1], s[2]) && Le(s[2], s[3])
    ensures Sorted(s)
  {
    StrLeTransitive(s[0].id, s[1].id, s[2].id);
    StrLeTransitive(s[1].id, s[2].id, s[3].id);
    StrLeTransitive(s[0].id, s[2].id, s[3].id);
  }

  /** The test's expected `all_outputs()` is sorted. */
  lemma ChainOutputsSorted()
    ensures Sorted([Id("a_plus_b"), Id("a_times_b"), Id("squared"), Id("squared_plus_1")])
  {
    PlusBeforeTimes();
    AsBeforeSs("a_times_b", "squared");
    SquaredBeforeSuccessor();
    FourSorted([Id("a_plus_b"), Id("a_times_b"), Id("squared"), Id("squared_plus_1")]);
  }

  /** Two sorted lists without repeats that hold the same names are equal. */
  lemma SortedSameNames(r: seq<Source>, s: seq<Source>)
    requires Sorted(r) && Sorted(s) && Distinct(r) && Distinct(s)
    requires forall x :: x in r <==> x in s
    ensures r == s
  {
    forall x ensures multiset(r)[x] == multiset(s)[x] {
      DistinctCountAtMostOne(r, x);
      DistinctCountAtMostOne(s, x);
      if x in r {
        assert x in multiset(r) && x in multiset(s);
      } else {
        assert x !in multiset(r) && x !in multiset(s);
      }
    }
    assert multiset(r) == multiset(s);
    SortedPermutationUnique(r, s);
  }

  /** A three-node list filters its inputs node by node. */
  lemma ThreeInputsNotIn<T>(nodes: seq<Node<T>>, avoid: seq<Source>)
    requires |nodes| == 3
    ensures InputsNotIn(nodes, avoid)
         == Without(Inputs(nodes[0].inputs), avoid) + (Without(Inputs(nodes[1].inputs), avoid) + Without(Inputs(nodes[2].inputs), avoid))
  {
    var t := nodes[1..];
    var u := t[1..];
    assert t[0] == nodes[1] && u[0] == nodes[2] && u[1..] == [];
    assert InputsNotIn(u, avoid) == Without(Inputs(nodes[2].inputs), avoid) + [];
  }

  /** A three-node list filters its outputs node by node. */
  lemma ThreeOutputsNotIn<T>(nodes: seq<Node<T>>, avoid: seq<Source>)
    requires |nodes| == 3
    ensures OutputsNotIn(nodes, avoid)
         == Without(Outputs(nodes[0].outputs), avoid) + (Without(Outputs(nodes[1].outputs), avoid) + Without(Outputs(nodes[2].outputs), avoid))
  {
    var t := nodes[1..];
    var u := t[1..];
    assert t[0] == nodes[1] && u[0] == nodes[2] && u[1..] == [];
    assert OutputsNotIn(u, avoid) == Without(Outputs(nodes[2].outputs), avoid) + [];
  }

  /** Filtering a single name that is to be avoided leaves nothing. */
  lemma WithoutAvoided(x: Source, avoid: seq<Source>)
    requires x in avoid
    ensures Without([x], avoid) == []
  {
    assert [x][1..] == [];
  }

  /** The chain's outputs are declared once each. */
  lemma ChainOutputsDistinct(nodes: seq<Node<int>>)
    requires IsChain(nodes)
    ensures Distinct(OutputNames(nodes))
  {
    ChainPorts(nodes);
    ChainNames();
  }

  /** Filtering the chain's inputs node by node against its outputs. */
  lemma UnproducedParts(outs: seq<Source>)
    requires outs == [Id("a_plus_b"), Id("a_times_b"), Id("squared"), Id("squared_plus_1")]
    ensures Without([Id("a"), Id("b")], outs) == [Id("a"), Id("b")]
    ensures Without([Id("a_plus_b")], outs) == [] && Without([Id("squared")], outs) == []
  {
    ChainNames();
    WithoutNone([Id("a"), Id("b")], outs);
    WithoutAvoided(Id("a_plus_b"), outs);
    WithoutAvoided(Id("squared"), outs);
  }

  /** The chain's inputs that no node of it produces are `a` and `b`. */
  lemma ChainUnproduced(nodes: seq<Node<int>>)
    requires IsChain(nodes)
    ensures InputsNotIn(nodes, OutputNames(nodes)) == [Id("a"), Id("b")]
  {
    ChainPorts(nodes);
    ThreeInputsNotIn(nodes, OutputNames(nodes));
    UnproducedParts(OutputNames(nodes));
  }

  /** Filtering the chain's outputs node by node against its inputs. */
  lemma UnconsumedParts(ins: seq<Source>)
    requires ins == [Id("a"), Id("b"), Id("a_plus_b"), Id("squared")]
    ensures Without([Id("a_plus_b"), Id("a_times_b")], ins) == [Id("a_times_b")]
    ensures Without([Id("squared")], ins) == [] && Without([Id("squared_plus_1")], ins) == [Id("squared_plus_1")]
  {
    ChainNames();
    var ab := Id("a_plus_b");
    var atb := Id("a_times_b");
    assert ab in ins && atb !in ins;
    assert [ab, atb][1..] == [atb];
    WithoutNone([atb], ins);
    WithoutAvoided(Id("squared"), ins);
    WithoutNone([Id("squared_plus_1")], ins);
  }

  /** The chain's outputs that no node of it reads are `a_times_b` and
      `squared_plus_1`. */
  lemma ChainUnconsumed(nodes: seq<Node<int>>)
    requires IsChain(nodes)
    ensures OutputsNotIn(nodes, InputNames(nodes)) == [Id("a_times_b"), Id("squared_plus_1")]
  {
    ChainPorts(nodes);
    UnconsumedOfPorts(nodes, InputNames(nodes));
  }

  /** The same, from the chain's ports alone. */
  lemma UnconsumedOfPorts<T>(nodes: seq<Node<T>>, ins: seq<Source>)
    requires |nodes| == 3 && ins == [Id("a"), Id("b"), Id("a_plus_b"), Id("squared")]
    requires Outputs(nodes[0].outputs) == [Id("a_plus_b"), Id("a_times_b")]
    requires Outputs(nodes[1].outputs) == [Id("squared")] && Outputs(nodes[2].outputs) == [Id("squared_plus_1")]
    ensures OutputsNotIn(nodes, ins) == [Id("a_times_b"), Id("squared_plus_1")]
  {
    ThreeOutputsNotIn(nodes, ins);
    UnconsumedParts(ins);
    var tail: seq<Source> := [] + [Id("squared_plus_1")];
    assert tail == [Id("squared_plus_1")];
  }

  /** `inputs()` of the built chain is `a`, `b`. */
  lemma ChainFreeInputs(nodes: seq<Node<int>>, p: Pipeline<int>)
    requires IsChain(nodes) && DistinctIds(nodes) && FromNodes(nodes) == Success(p)
    ensures FreeInputs(p) == [Id("a"), Id("b")]
  {
    ChainBuilds(nodes);
    FreeInputsAreUnproduced(nodes, p);
    ChainUnproduced(nodes);
    assert "a"[0] < "b"[0];
    SortPair(Id("a"), Id("b"));
  }

  /** `outputs()` of the built chain is `a_times_b`, `squared_plus_1`. */
  lemma ChainTerminalOutputs(nodes: seq<Node<int>>, p: Pipeline<int>)
    requires IsChain(nodes) && DistinctIds(nodes) && FromNodes(nodes) == Success(p)
    ensures TerminalOutputs(p) == [Id("a_times_b"), Id("squared_plus_1")]
  {
    ChainBuilds(nodes);
    TerminalOutputsAreUnconsumed(nodes, p);
    ChainUnconsumed(nodes);
    AsBeforeSs("a_times_b", "squared_plus_1");
    SortPair(Id("a_times_b"), Id("squared_plus_1"));
  }

  /** `all_outputs()` of the built chain lists its four outputs in order. */
  lemma ChainAllOutputs(nodes: seq<Node<int>>, p: Pipeline<int>)
    requires IsChain(nodes) && DistinctIds(nodes) && FromNodes(nodes) == Success(p)
    ensures AllOutputs(p) == [Id("a_plus_b"), Id("a_times_b"), Id("squared"), Id("squared_plus_1")]
  {
    ChainBuilds(nodes);
    ChainPorts(nodes);
    ChainOutputsDistinct(nodes);
    ChainOutputsSorted();
    SortedSameNames(AllOutputs(p), OutputNames(nodes));
  }

  /** `inputs()`, `outputs()` and `all_outputs()` of the built chain are
      the lists the test expects. */
  lemma ChainQueries(p: Pipeline<int>)
    requires FromNodes(MathNodes().0) == Success(p)
    ensures FreeInputs(p) == [Id("a"), Id("b")]
    ensures TerminalOutputs(p) == [Id("a_times_b"), Id("squared_plus_1")]
    ensures AllOutputs(p) == [Id("a_plus_b"), Id("a_times_b"), Id("squared"), Id("squared_plus_1")]
  {
    MathNodesShape();
    ChainFreeInputs(MathNodes().0, p);
    ChainTerminalOutputs(MathNodes().0, p);
    ChainAllOutputs(MathNodes().0, p);
  }

  // -----------------------------------------------------------------------
  // Running.
  // -----------------------------------------------------------------------

  /** The first node's view of a state holding `a` and `b`: the state
      with their values copied under `param_a` and `param_b`. */
  lemma PlusTimesView(n: Node<int>, state: Container<int>)
    requires IsPlusTimes(n) && "a" in state.data && "b" in state.data
    ensures View(n.inputs, state) == Success(Upsert(Upsert(state, "param_a", state.data["a"]), "param_b", state.data["b"]))
  {
    ChainNames();
    var pairs := n.inputs.pairs;
    var v1 := Upsert(state, "param_a", state.data["a"]);
    assert Remap(pairs, state) == Remap(pairs[1..], v1);
    assert Remap(pairs[1..], v1) == Remap([], Upsert(v1, "param_b", state.data["b"]));
  }

  /** Two bindings collect by storing each value under its external name. */
  lemma CollectTwo<T>(bs: seq<Binding>, res: Container<T>, state: Container<T>)
    requires |bs| == 2 && bs[0].local.id != bs[1].local.id
    requires bs[0].local.id in res.data && bs[1].local.id in res.data
    ensures Collect(bs, res, state)
         == Success(Upsert(Upsert(state, bs[0].external.id, res.data[bs[0].local.id]), bs[1].external.id, res.data[bs[1].local.id]))
  {
    var l0, l1 := bs[0].local.id, bs[1].local.id;
    var o1 := Upsert(state, bs[0].external.id, res.data[l0]);
    var r1 := Container(res.data - {l0});
    assert r1.data[l1] == res.data[l1];
    var o2 := Upsert(o1, bs[1].external.id, res.data[l1]);
    assert bs[1..][0] == bs[1] && bs[1..][1..] == [];
    assert Collect(bs, res, state) == Collect(bs[1..], r1, o1);
    assert Collect(bs[1..], r1, o1) == Collect([], Container(r1.data - {l1}), o2);
  }

  /** The first node's function, on a view holding `param_a` and
      `param_b`, returns their sum and product. */
  lemma PlusTimesResult(view: Container<int>)
    requires "param_a" in view.data && "param_b" in view.data
    ensures PlusTimes(view) == Success(Container(map["out_plus" := view.data["param_a"] + view.data["param_b"],
                                                     "out_times" := view.data["param_a"] * view.data["param_b"]]))
  {
    var r := Upsert(GenericContainer.New(), "out_plus", view.data["param_a"] + view.data["param_b"]);
    assert "out_times" !in r.data;
  }

  /** The first node's step, on any state holding `a` and `b`, stores their
      sum under `a_plus_b` and their product under `a_times_b`. */
  lemma PlusTimesStep(n: Node<int>, state: Container<int>)
    requires IsPlusTimes(n) && "a" in state.data && "b" in state.data
    ensures Step(n, state).Success?
    ensures "a_plus_b" in Step(n, state).value.data && "a_times_b" in Step(n, state).value.data
    ensures Step(n, state).value.data["a_plus_b"] == state.data["a"] + state.data["b"]
    ensures Step(n, state).value.data["a_times_b"] == state.data["a"] * state.data["b"]
  {
    ChainNames();
    PlusTimesView(n, state);
    var v2 := Upsert(Upsert(state, "param_a", state.data["a"]), "param_b", state.data["b"]);
    assert v2.data["param_a"] == state.data["a"] && v2.data["param_b"] == state.data["b"];
    PlusTimesResult(v2);
    var res := PlusTimes(v2).value;
    CollectTwo(n.outputs.pairs, res, state);
  }

  /** A one-name list node whose function returns just `value` under its
      one output steps by storing that value under the output. */
  lemma ListStep(n: Node<int>, state: Container<int>, out: string, value: int)
    requires n.inputs.List? && n.outputs == List([Id(out)])
    requires n.func(state) == Success(Container(map[out := value]))
    ensures Step(n, state) == Success(Upsert(state, out, value))
  {
    var res := Container(map[out := value]);
    assert Bindings(n.outputs) == [Binding(Id(out), Id(out))];
    assert Collect(Bindings(n.outputs), res, state) == Collect([], Container(res.data - {out}), Upsert(state, out, value));
  }

  /** The second node's step stores the square of `a_plus_b`. */
  lemma SquareStep(n: Node<int>, state: Container<int>)
    requires IsSquare(n) && "a_plus_b" in state.data
    ensures Step(n, state) == Success(Upsert(state, "squared", state.data["a_plus_b"] * state.data["a_plus_b"]))
  {
    var v := state.data["a_plus_b"];
    assert Square(state) == Success(Container(map["squared" := v * v]));
    ListStep(n, state, "squared", v * v);
  }

  /** The third node's step stores `squared` plus one. */
  lemma PlusOneStep(n: Node<int>, state: Container<int>)
    requires IsPlusOne(n) && "squared" in state.data
    ensures Step(n, state) == Success(Upsert(state, "squared_plus_1", state.data["squared"] + 1))
  {
    var v := state.data["squared"];
    assert PlusOne(state) == Success(Container(map["squared_plus_1" := v + 1]));
    ListStep(n, state, "squared_plus_1", v + 1);
  }

  /** The printer's step, once `squared_plus_1` is there, changes nothing;
      without it, it fails naming that key. */
  lemma ShowStep(n: Node<int>, state: Container<int>)
    requires IsPrinter(n)
    ensures "squared_plus_1" in state.data ==> Step(n, state) == Success(state)
    ensures "squared_plus_1" !in state.data ==> Step(n, state) == Failure(DataNotFound("squared_plus_1"))
  {
    assert Bindings(n.outputs) == [];
  }

  /** Three steps that succeed one after the other make a successful run
      of the three nodes. */
  lemma RunThree<T>(nodes: seq<Node<T>>, seed: Container<T>, s1: Container<T>, s2: Container<T>, s3: Container<T>)
    requires |nodes| == 3
    requires Step(nodes[0], seed) == Success(s1) && Step(nodes[1], s1) == Success(s2) && Step(nodes[2], s2) == Success(s3)
    ensures RunNodes(nodes, seed) == Success(s3)
  {
    assert nodes[1..][0] == nodes[1] && nodes[1..][1..] == [nodes[2]] && [nodes[2]][1..] == [];
    assert RunNodes(nodes, seed) == RunNodes(nodes[1..], s1);
    assert RunNodes(nodes[1..], s1) == RunNodes([nodes[2]], s2);
    assert RunNodes([nodes[2]], s2) == RunNodes([], s3);
  }

  /** The chain, run on any state holding `a` and `b`, succeeds, stores
      their sum under `a_plus_b` and one more than `squared` under
      `squared_plus_1`. */
  lemma ChainRunsOn(nodes: seq<Node<int>>, seed: Container<int>)
    requires IsChain(nodes) && "a" in seed.data && "b" in seed.data
    ensures RunNodes(nodes, seed).Success?
    ensures var out := RunNodes(nodes, seed).value.data;
      && "a_plus_b" in out && out["a_plus_b"] == seed.data["a"] + seed.data["b"]
      && "squared" in out && "squared_plus_1" in out && out["squared_plus_1"] == out["squared"] + 1
  {
    PlusTimesStep(nodes[0], seed);
    var s1 := Step(nodes[0], seed).value;
    SquareStep(nodes[1], s1);
    var s2 := Step(nodes[1], s1).value;
    PlusOneStep(nodes[2], s2);
    RunThree(nodes, seed, s1, s2, Step(nodes[2], s2).value);
    KeysApart();
  }

  /** The products of the chain's run: the product of `a` and `b` under
      `a_times_b`, the square of `a_plus_b` under `squared`. */
  lemma ChainRunProducts(nodes: seq<Node<int>>, seed: Container<int>)
    requires IsChain(nodes) && "a" in seed.data && "b" in seed.data
    ensures RunNodes(nodes, seed).Success?
    ensures var out := RunNodes(nodes, seed).value.data;
      && "a_times_b" in out && out["a_times_b"] == seed.data["a"] * seed.data["b"]
      && "a_plus_b" in out && "squared" in out && out["squared"] == out["a_plus_b"] * out["a_plus_b"]
  {
    PlusTimesStep(nodes[0], seed);
    var s1 := Step(nodes[0], seed).value;
    SquareStep(nodes[1], s1);
    var s2 := Step(nodes[1], s1).value;
    PlusOneStep(nodes[2], s2);
    RunThree(nodes, seed, s1, s2, Step(nodes[2], s2).value);
    KeysApart();
  }

  /** The keys the chain writes are pairwise different. */
  lemma KeysApart()
    ensures "a_plus_b" != "squared" && "a_plus_b" != "squared_plus_1"
    ensures "a_times_b" != "squared" && "a_times_b" != "squared_plus_1"
    ensures "squared" != "squared_plus_1"
  {
    ChainNames();
  }

  /** The chain run on a = 3 and b = 5 stores 8 under `a_plus_b`. */
  lemma ChainRunsOnTestInput(nodes: seq<Node<int>>)
    requires IsChain(nodes)
    ensures RunNodes(nodes, Store2("a", 3, "b", 5)).Success?
    ensures "a_plus_b" in RunNodes(nodes, Store2("a", 3, "b", 5)).value.data
    ensures RunNodes(nodes, Store2("a", 3, "b", 5)).value.data["a_plus_b"] == 8
  {
    var seed := Store2("a", 3, "b", 5);
    assert seed.data["a"] == 3 && seed.data["b"] == 5;
    ChainRunsOn(nodes, seed);
  }

  /** Run on a = 3 and b = 5, the built chain stores 8 under `a_plus_b`. */
  lemma ChainRuns(p: Pipeline<int>)
    requires FromNodes(MathNodes().0) == Success(p)
    ensures Run(p, Store2("a", 3, "b", 5)).Success?
    ensures "a_plus_b" in Run(p, Store2("a", 3, "b", 5)).value.data
    ensures Run(p, Store2("a", 3, "b", 5)).value.data["a_plus_b"] == 8
  {
    MathNodesShape();
    ChainBuilds(MathNodes().0);
    ChainRunsOnTestInput(p.nodes);
  }

  // -----------------------------------------------------------------------
  // Adding the printer.
  // -----------------------------------------------------------------------

  /** The printer builds on its own. */
  lemma PrinterBuilds(n: Node<int>)
    requires IsPrinter(n)
    ensures FromNodes([n]).Success? && FromNodes([n]).value.nodes == [n]
  {
    assert Distinct(Outputs(n.outputs));
    SingleBuilds(n);
  }

  /** A node without outputs feeds no node. */
  lemma SilentFeedsNothing<T>(n: Node<T>, others: seq<Node<T>>)
    requires Outputs(n.outputs) == []
    ensures ProducersFirst([n])
    ensures forall j, x :: 0 <= j < |others| ==> !Feeds(n, others[j], x)
  {
    assert forall i :: 0 <= i < 1 ==> [n][i] == n;
  }

  /** The chain followed by a printer declares each output once, and the
      printer feeds no node. */
  lemma PrinterAfterChain(nodes: seq<Node<int>>, n: Node<int>)
    requires IsChain(nodes) && IsPrinter(n)
    ensures Distinct(OutputNames(nodes + [n]))
    ensures ProducersFirst(nodes) && ProducersFirst([n])
    ensures forall i, j, x :: 0 <= i < 1 && 0 <= j < |nodes| ==> !Feeds([n][i], nodes[j], x)
  {
    ChainOutputsDistinct(nodes);
    ChainProducersFirst(nodes);
    OutputNamesAppend(nodes, [n]);
    OutputNamesSingle(n);
    assert OutputNames(nodes + [n]) == OutputNames(nodes);
    SilentFeedsNothing(n, nodes);
    assert [n][0] == n;
  }

  /** Adding the printer's pipeline to the chain succeeds and puts the
      printer last. */
  lemma FullAdds(p: Pipeline<int>, pb: Pipeline<int>)
    requires FromNodes(MathNodes().0) == Success(p)
    requires FromNodes([Printer(MathNodes().1)]) == Success(pb)
    ensures Add(p, pb).Success? && Add(p, pb).value.nodes == MathNodes().0 + [Printer(MathNodes().1)]
  {
    var nodes := MathNodes().0;
    var n := Printer(MathNodes().1);
    MathNodesShape();
    PrinterShape();
    ChainBuilds(nodes);
    PrinterBuilds(n);
    PrinterAfterChain(nodes, n);
    AddInOrder(p, pb);
  }

  /** A printer after nodes whose run stores `squared_plus_1` leaves that
      run's result as it is. */
  lemma PrinterChangesNothing(nodes: seq<Node<int>>, n: Node<int>, seed: Container<int>)
    requires IsPrinter(n) && RunNodes(nodes, seed).Success?
    requires "squared_plus_1" in RunNodes(nodes, seed).value.data
    ensures RunNodes(nodes + [n], seed) == RunNodes(nodes, seed)
  {
    var mid := RunNodes(nodes, seed).value;
    RunAppend(nodes, [n], seed);
    ShowStep(n, mid);
    assert [n][1..] == [];
    assert RunNodes([n], mid) == RunNodes([], mid);
  }

  /** The combined pipeline, run on a = 3 and b = 5, succeeds and ends
      exactly where the chain alone ends: the printer writes nothing. */
  lemma FullRuns(p: Pipeline<int>, pb: Pipeline<int>, full: Pipeline<int>)
    requires FromNodes(MathNodes().0) == Success(p)
    requires FromNodes([Printer(MathNodes().1)]) == Success(pb)
    requires Add(p, pb) == Success(full)
    ensures Run(full, Store2("a", 3, "b", 5)).Success?
    ensures Run(full, Store2("a", 3, "b", 5)) == Run(p, Store2("a", 3, "b", 5))
  {
    FullAdds(p, pb);
    MathNodesShape();
    PrinterShape();
    ChainBuilds(MathNodes().0);
    var seed := Store2("a", 3, "b", 5);
    assert "a" in seed.data && "b" in seed.data;
    ChainRunsOn(p.nodes, seed);
    PrinterChangesNothing(p.nodes, Printer(MathNodes().1), seed);
  }
}

=== FILE: toposort.dfy ===
/** Topological sorting of a graph whose vertices are 0 .. n-1 and whose
    edges carry the name of the datum that flows along them. Kahn's
    algorithm stands in for the graph library's sort: it repeatedly places
    the first remaining vertex none of whose predecessors remain. */
module TopoSort {
  import opened Wrappers
  import opened Names

  /** `src` produces the datum `name` that `dst` consumes. */
  datatype Edge = Edge(src: nat, dst: nat, name: Source)

  /** Every edge joins two of the vertices 0 .. n-1. */
  ghost predicate EdgesWithin(n: nat, edges: seq<Edge>) {
    forall k :: 0 <= k < |edges| ==> edges[k].src < n && edges[k].dst < n
  }

  /** `a` has an edge to `b`. */
  ghost predicate HasEdge(edges: seq<Edge>, a: nat, b: nat) {
    exists k :: 0 <= k < |edges| && edges[k].src == a && edges[k].dst == b
  }

  /** Every edge into a vertex of `order` comes from a vertex placed before it. */
  ghost predicate TopoOrdered(order: seq<nat>, edges: seq<Edge>) {
    forall j, k :: 0 <= j < |order| && 0 <= k < |edges| && edges[k].dst == order[j] ==>
      edges[k].src in order[..j]
  }

  /** `order` lists each of 0 .. n-1 exactly once. */
  ghost predicate IsPermutation(order: seq<nat>, n: nat) {
    && |order| == n
    && Distinct(order)
    && forall v: nat :: v in order <==> v < n
  }

  /** A closed walk: each vertex has an edge to the next, the last to the first. */
  ghost predicate IsCycle(edges: seq<Edge>, path: seq<nat>) {
    && |path| > 0
    && forall i :: 0 <= i < |path| ==> Linked(edges, path, i)
  }

  /** The `i`-th vertex of a closed walk has an edge to the next, wrapping round. */
  ghost predicate Linked(edges: seq<Edge>, path: seq<nat>, i: nat)
    requires i < |path|
  {
    HasEdge(edges, path[i], path[(i + 1) % |path|])
  }

  /** The vertices lo .. hi-1 in increasing order. */
  function Range(lo: nat, hi: nat): (r: seq<nat>)
    requires lo <= hi
    ensures |r| == hi - lo
    ensures forall i :: 0 <= i < |r| ==> r[i] == lo + i
  {
    seq(hi - lo, i requires 0 <= i < hi - lo => lo + i)
  }

  /** No edge into `v` starts at a vertex still waiting in `rest`. */
  predicate Ready(edges: seq<Edge>, rest: seq<nat>, v: nat) {
    forall k :: 0 <= k < |edges| && edges[k].dst == v ==> edges[k].src !in rest
  }

  /** The position in `rest`, from `from` on, of the first ready vertex. */
  function FirstReady(edges: seq<Edge>, rest: seq<nat>, from: nat): (r: Option<nat>)
    requires from <= |rest|
    ensures r.Some? ==> from <= r.value < |rest| && Ready(edges, rest, rest[r.value])
    ensures r.Some? ==> forall j :: from <= j < r.value ==> !Ready(edges, rest, rest[j])
    ensures r.None? ==> forall j :: from <= j < |rest| ==> !Ready(edges, rest, rest[j])
    decreases |rest| - from
  {
    if from == |rest| then None
    else if Ready(edges, rest, rest[from]) then Some(from)
    else FirstReady(edges, rest, from + 1)
  }

  /** Kahn's algorithm from a partial order `placed` and the vertices `rest`
      still to place. On success the result extends `placed`, lists every
      vertex of `placed` and `rest` once, and puts producers first. */
  function Kahn(edges: seq<Edge>, placed: seq<nat>, rest: seq<nat>): (r: Option<seq<nat>>)
    requires Distinct(placed) && Distinct(rest)
    requires forall v :: v in placed ==> v !in rest
    requires TopoOrdered(placed, edges)
    requires forall k :: 0 <= k < |edges| ==> edges[k].src in placed || edges[k].src in rest
    ensures r.Some? ==> |r.value| == |placed| + |rest| && r.value[..|placed|] == placed
    ensures r.Some? ==> Distinct(r.value)
    ensures r.Some? ==> forall v :: v in r.value <==> v in placed || v in rest
    ensures r.Some? ==> TopoOrdered(r.value, edges)
    decreases |rest|
  {
    if rest == [] then Some(placed)
    else
      match FirstReady(edges, rest, 0)
      case None => None
      case Some(i) =>
        var v := rest[i];
        var placed' := placed + [v];
        var rest' := rest[..i] + rest[i + 1..];
        KahnStep(edges, placed, rest, i);
        var r := Kahn(edges, placed', rest');
        assert r.Some? ==> r.value[..|placed|] == r.value[..|placed'|][..|placed|];
        r
  }

  /** Placing a ready vertex keeps Kahn's invariants. */
  lemma KahnStep(edges: seq<Edge>, placed: seq<nat>, rest: seq<nat>, i: nat)
    requires Distinct(placed) && Distinct(rest)
    requires forall v :: v in placed ==> v !in rest
    requires TopoOrdered(placed, edges)
    requires forall k :: 0 <= k < |edges| ==> edges[k].src in placed || edges[k].src in rest
    requires i < |rest| && Ready(edges, rest, rest[i])
    ensures var placed', rest' := placed + [rest[i]], rest[..i] + rest[i + 1..];
      && Distinct(placed') && Distinct(rest')
      && (forall v :: v in placed' ==> v !in rest')
      && TopoOrdered(placed', edges)
      && (forall v :: v in placed' || v in rest' <==> v in placed || v in rest)
  {
    var v := rest[i];
    var placed', rest' := placed + [v], rest[..i] + rest[i + 1..];
    assert rest == rest[..i] + [v] + rest[i + 1..];
    forall a, b | 0 <= a < b < |placed'| ensures placed'[a] != placed'[b] {
      if b == |placed| {
        assert placed'[a] == placed[a] && placed[a] in placed;
        assert placed'[b] == v && v in rest;
      } else {
        assert placed'[a] == placed[a] && placed'[b] == placed[b];
      }
    }
    forall a, b | 0 <= a < b < |rest'| ensures rest'[a] != rest'[b] {
      var a' := if a < i then a else a + 1;
      var b' := if b < i then b else b + 1;
      assert rest'[a] == rest[a'] && rest'[b] == rest[b'];
    }
    forall a | 0 <= a < |rest'| ensures rest'[a] != v {
      var a' := if a < i then a else a + 1;
      assert rest'[a] == rest[a'];
    }
    forall j, k | 0 <= j < |placed'| && 0 <= k < |edges| && edges[k].dst == placed'[j]
      ensures edges[k].src in placed'[..j]
    {
      if j < |placed| {
        assert placed'[..j] == placed[..j];
      } else {
        assert placed'[..j] == placed;
      }
    }
  }

  /** The topological sort of the vertices 0 .. n-1: a permutation in which
      every edge goes forward, or None. */
  function Toposort(n: nat, edges: seq<Edge>): (r: Option<seq<nat>>)
    requires EdgesWithin(n, edges)
    ensures r.Some? ==> IsPermutation(r.value, n) && TopoOrdered(r.value, edges)
  {
    var all := Range(0, n);
    assert TopoOrdered([], edges);
    assert forall k :: 0 <= k < |edges| ==> edges[k].src in all by {
      forall k | 0 <= k < |edges| ensures edges[k].src in all {
        assert all[edges[k].src] == edges[k].src;
      }
    }
    var r := Kahn(edges, [], all);
    assert r.Some? ==> forall v: nat :: v in r.value <==> v < n by {
      if r.Some? {
        forall v: nat ensures v in r.value <==> v < n {
          if v < n { assert all[v] == v; }
        }
      }
    }
    r
  }

  // -----------------------------------------------------------------------
  // Failure means a cycle.
  // -----------------------------------------------------------------------

  /** The first position of `order` whose vertex lies in `rest`. */
  lemma FirstInRest(order: seq<nat>, rest: seq<nat>, v: nat) returns (j: nat)
    requires v in rest && v in order
    ensures j < |order| && order[j] in rest
    ensures forall i :: 0 <= i < j ==> order[i] !in rest
  {
    j := 0;
    while order[j] !in rest
      invariant j < |order|
      invariant forall i :: 0 <= i < j ==> order[i] !in rest
      invariant v in order[j..]
      decreases |order| - j
    {
      j := j + 1;
    }
  }

  /** If no vertex of a non-empty `rest` is ready, no order that contains
      them is topological. */
  lemma StuckHasNoOrder(edges: seq<Edge>, rest: seq<nat>, order: seq<nat>)
    requires |rest| > 0
    requires forall j :: 0 <= j < |rest| ==> !Ready(edges, rest, rest[j])
    requires forall v :: v in rest ==> v in order
    ensures !TopoOrdered(order, edges)
  {
    var j := FirstInRest(order, rest, rest[0]);
    var a :| 0 <= a < |rest| && rest[a] == order[j];
    assert !Ready(edges, rest, rest[a]);
    var k :| 0 <= k < |edges| && edges[k].dst == order[j] && edges[k].src in rest;
    assert edges[k].src !in order[..j] by {
      forall i | 0 <= i < j ensures order[..j][i] != edges[k].src {
        assert order[..j][i] == order[i];
      }
    }
  }

  /** When Kahn fails, no order of all the vertices is topological. */
  lemma {:induction false} KahnFailsOnlyWithoutOrder(edges: seq<Edge>, placed: seq<nat>, rest: seq<nat>, order: seq<nat>)
    requires Distinct(placed) && Distinct(rest)
    requires forall v :: v in placed ==> v !in rest
    requires TopoOrdered(placed, edges)
    requires forall k :: 0 <= k < |edges| ==> edges[k].src in placed || edges[k].src in rest
    requires Kahn(edges, placed, rest).None?
    requires forall v :: v in rest ==> v in order
    ensures !TopoOrdered(order, edges)
    decreases |rest|
  {
    match FirstReady(edges, rest, 0)
    case None =>
      StuckHasNoOrder(edges, rest, order);
    case Some(i) =>
      KahnStep(edges, placed, rest, i);
      var rest' := rest[..i] + rest[i + 1..];
      forall v | v in rest' ensures v in order {
        assert v in rest;
      }
      KahnFailsOnlyWithoutOrder(edges, placed + [rest[i]], rest', order);
  }

  /** Toposort fails exactly when no permutation of the vertices is
      topological: if one exists, Toposort finds one. */
  lemma ToposortFailsOnlyWithoutOrder(n: nat, edges: seq<Edge>, order: seq<nat>)
    requires EdgesWithin(n, edges)
    requires IsPermutation(order, n)
    ensures Toposort(n, edges).None? <==> !TopoOrdered(order, edges) && forall o :: IsPermutation(o, n) ==> !TopoOrdered(o, edges)
  {
    var all := Range(0, n);
    assert forall k :: 0 <= k < |edges| ==> edges[k].src in all by {
      forall k | 0 <= k < |edges| ensures edges[k].src in all {
        assert all[edges[k].src] == edges[k].src;
      }
    }
    if Toposort(n, edges).None? {
      forall o | IsPermutation(o, n) ensures !TopoOrdered(o, edges) {
        KahnFailsOnlyWithoutOrder(edges, [], all, o);
      }
    }
  }

  /** In a topological order without repeats, every edge goes forward. */
  lemma {:induction false} EdgeGoesForward(edges: seq<Edge>, order: seq<nat>, a: nat, b: nat, ia: nat, ib: nat)
    requires TopoOrdered(order, edges) && Distinct(order)
    requires HasEdge(edges, a, b)
    requires ia < |order| && ib < |order| && order[ia] == a && order[ib] == b
    ensures ia < ib
  {
    var k :| 0 <= k < |edges| && edges[k].src == a && edges[k].dst == b;
    assert a in order[..ib];
    var i :| 0 <= i < ib && order[..ib][i] == a;
    assert order[i] == a;
  }

  /** The position of a vertex in an order that contains it. */
  function Position(order: seq<nat>, v: nat): (p: nat)
    requires v in order
    ensures p < |order| && order[p] == v
  {
    if order[0] == v then 0 else 1 + Position(order[1..], v)
  }

  /** Each vertex of a cycle has an edge to the next one. */
  lemma CycleStep(edges: seq<Edge>, path: seq<nat>, i: nat)
    requires IsCycle(edges, path)
    requires i + 1 < |path|
    ensures HasEdge(edges, path[i], path[i + 1])
  {
    assert (i + 1) % |path| == i + 1;
    assert Linked(edges, path, i);
  }

  /** Positions strictly increase along a walk in a topological order. */
  lemma {:induction false} WalkGoesForward(edges: seq<Edge>, order: seq<nat>, path: seq<nat>, i: nat)
    requires TopoOrdered(order, edges) && Distinct(order)
    requires 0 < i < |path|
    requires forall j :: 0 <= j < i ==> HasEdge(edges, path[j], path[j + 1])
    requires forall v :: v in path ==> v in order
    ensures Position(order, path[0]) < Position(order, path[i])
  {
    var a, b := path[i - 1], path[i];
    EdgeGoesForward(edges, order, a, b, Position(order, a), Position(order, b));
    if i > 1 {
      WalkGoesForward(edges, order, path, i - 1);
    }
  }

  /** A cycle admits no topological order. */
  lemma CycleHasNoOrder(edges: seq<Edge>, order: seq<nat>, path: seq<nat>)
    requires IsCycle(edges, path)
    requires Distinct(order)
    requires forall v :: v in path ==> v in order
    ensures !TopoOrdered(order, edges)
  {
    var last := |path| - 1;
    assert (last + 1) % |path| == 0;
    assert Linked(edges, path, last);
    assert HasEdge(edges, path[last], path[0]);
    forall j | 0 <= j < last ensures HasEdge(edges, path[j], path[j + 1]) {
      CycleStep(edges, path, j);
    }
    if TopoOrdered(order, edges) {
      EdgeGoesForward(edges, order, path[last], path[0], Position(order, path[last]), Position(order, path[0]));
      if last > 0 {
        WalkGoesForward(edges, order, path, last);
      }
      assert false;
    }
  }

  /** A cycle, including a vertex with an edge to itself, makes Toposort fail. */
  lemma CycleFailsToposort(n: nat, edges: seq<Edge>, path: seq<nat>)
    requires EdgesWithin(n, edges)
    requires IsCycle(edges, path)
    ensures Toposort(n, edges).None?
  {
    var r := Toposort(n, edges);
    if r.Some? {
      forall v | v in path ensures v in r.value {
        var i :| 0 <= i < |path| && path[i] == v;
        assert Linked(edges, path, i);
      }
      CycleHasNoOrder(edges, r.value, path);
    }
  }

  // -----------------------------------------------------------------------
  // An order that is already topological is kept as it is.
  // -----------------------------------------------------------------------

  lemma {:induction false} KahnForward(n: nat, edges: seq<Edge>, k: nat)
    requires k <= n
    requires forall e :: 0 <= e < |edges| ==> edges[e].src < edges[e].dst < n
    requires TopoOrdered(Range(0, k), edges)
    ensures Distinct(Range(0, k)) && Distinct(Range(k, n))
    ensures forall v :: v in Range(0, k) ==> v !in Range(k, n)
    ensures forall e :: 0 <= e < |edges| ==> edges[e].src in Range(0, k) || edges[e].src in Range(k, n)
    ensures Kahn(edges, Range(0, k), Range(k, n)) == Some(Range(0, n))
    decreases n - k
  {
    var placed, rest := Range(0, k), Range(k, n);
    forall e | 0 <= e < |edges| ensures edges[e].src in placed || edges[e].src in rest {
      var s := edges[e].src;
      if s < k { assert placed[s] == s; } else { assert rest[s - k] == s; }
    }
    if k < n {
      assert Ready(edges, rest, rest[0]);
      assert FirstReady(edges, rest, 0) == Some(0);
      KahnStep(edges, placed, rest, 0);
      assert placed + [rest[0]] == Range(0, k + 1);
      assert rest[..0] + rest[1..] == Range(k + 1, n);
      KahnForward(n, edges, k + 1);
    } else {
      assert rest == [];
    }
  }

  /** When every edge already goes from a lower to a higher vertex, Toposort
      returns the vertices in their given order. */
  lemma ToposortKeepsForwardOrder(n: nat, edges: seq<Edge>)
    requires forall e :: 0 <= e < |edges| ==> edges[e].src < edges[e].dst < n
    ensures EdgesWithin(n, edges)
    ensures Toposort(n, edges) == Some(Range(0, n))
  {
    assert TopoOrdered(Range(0, 0), edges);
    KahnForward(n, edges, 0);
  }
}

=== FILE: wrappers.dfy ===
/** Failure-compatible result types and the library's flat error enumeration. */
module Wrappers {

  /** An optional value. */
  datatype Option<+T> = None | Some(value: T)

  /** Identifier of a payload type, standing in for a runtime type id. */
  type TypeTag = nat

  /** The library's errors: one flat enumeration shared by the store, the
      builder and the runner. */
  datatype QupidoError =
    | DataNotFound(key: string)
    | DuplicateData(key: string)
    | InvalidPipeline
    | NodeNotFound
    | DataTypeMismatch(id: string, requested: TypeTag, stored: TypeTag)

  /** Either a value or an error; usable with `:-`. */
  datatype Result<+R> = Success(value: R) | Failure(error: QupidoError) {

    predicate IsFailure() {
      Failure?
    }

    function PropagateFailure<U>(): Result<U>
      requires Failure?
    {
      Failure(error)
    }

    function Extract(): R
      requires Success?
    {
      value
    }
  }
}
